=== FILE: README.md ===
# A crawl-and-answer web application, modelled in Dafny

The application registers websites, crawls each one's start page into a stored
document, and answers users' questions about a website with a generative model.
It does this using the website's documents as context. It has two parts:

- **The server** (Express and MongoDB):
  - request validators;
  - controllers for websites, users, chats, crawling and authentication;
  - the crawler service's extraction and status transitions;
  - the AI service's context budget and relevance score;
  - the health score of the analytics report.
- **The client** (React):
  - string helpers;
  - the local-storage cache;
  - the authentication reducer;
  - the chat hook's message list;
  - the list filters;
  - form rules and button gating.

The model describes both parts as immutable datatypes and pure functions.

- **The database** (`Store`) holds four collections in insertion order and a
  counter for fresh identifiers. "Newest first" is the reverse of that order.
  Every controller is a function from a database and a request to a reply and a
  new database.
- **Calls into code outside the model are parameters**:
  - the generative model;
  - page fetching and parsing (`Extraction.Page` is the parsed page);
  - URL resolution, `isURL`, `isEmail` and e-mail normalisation;
  - JWT signing and verification, and bcrypt comparison;
  - uploads, the clock, the URL parser and host name of the website form, and
    FileReader's data URL.
- **Outcomes of the client's server calls** are `Result` values given to the
  flows.
- **Strings are sequences of characters**:
  - trimming and `\s` use JavaScript's white-space set;
  - case mapping is ASCII-only.

Module map:

| module | models |
|---|---|
| `Constants` | the crawl-status enum, its colour table, limits |
| `Models` | the Website, CrawledContent and ChatHistory schemas, the account record |
| `Store` | the collections and the queries the controllers use |
| `Validators` | the routes' express-validator chains |
| `Pagination` | the shared `skip`/`pages`/`hasNext`/`hasPrev` arithmetic |
| `Extraction` | the crawler service's extractors |
| `Crawler` | the crawler service's `crawlWebsite` |
| `CrawlerControl` | the crawler controller |
| `Answering` | the AI service |
| `Websites`, `Users`, `Chats`, `Auth` | the four controllers |
| `Health` | the critical issues and health score of the system-health report |
| `Helpers` | the client's string and list helpers |
| `Storage` | the client's local-storage module |
| `AuthState` | the auth context's reducer and flows |
| `ChatList` | the chat hook |
| `Filters` | the website list's and admin page's filters and list updates |
| `WebsiteUi` | the website card and website form |
| `Forms` | the chat box, registration form and profile form |
| `Navigation` | the header's links |
| `Text`, `Seqs`, `Numbers`, `Wrappers` | JavaScript string, array and number built-ins; `Option` and `Result` |

## Model

| member | source | states |
|---|---|---|
| Constants.ParseStatusName | client/src/utils/constants.js:16-21 | the four status names and the four statuses are in one-to-one correspondence; no other text is a status |
| Constants.StatusColour | client/src/utils/constants.js:23-28 | an unknown status name gets the gray fallback colour, and a known one never does |
| Constants.StatusColoursDistinct | client/src/utils/constants.js:23-28 | every status has its own colour entry, different from the fallback colour used for unknown names |
| Models.NewWebsite | server/src/models/Website.js:3-38 | a website saves iff its trimmed name and its url are non-empty; a new one is pending, active, never crawled, with 0 pages and the given depth |
| Models.NewDocument | server/src/models/CrawledContent.js:3-39 | a crawled page saves iff url and content are non-empty; the title is stored trimmed, and the content type is `text/html` |
| Models.NewChatRecord | server/src/models/ChatHistory.js:3-36 | a chat record saves iff the trimmed question and the answer are non-empty and the score lies in [0,1]; the question is stored trimmed |
| Models.NewUser | server/src/controllers/userController.js:30-43 | a new account is an active member with the given name, e-mail, password and image, created now, with no queries, no refresh token and no last-active time |
| Validators.ObjectId | server/src/routes/chatRoutes.js:9-14 | an id string denotes an identifier iff it is 24 hexadecimal digits |
| Validators.Failures | server/src/routes/websiteRoutes.js:8-25 | exactly the messages of the failing rules, in rule order (`errors.array()`); empty iff every rule passes |
| Validators.TrimOpt | server/src/routes/websiteRoutes.js:16-20 | an optional field is trimmed when present and stays absent otherwise |
| Validators.FailuresOfUnique | server/src/routes/websiteRoutes.js:8-25 | only one list gives the failing rules' messages in rule order, so each validator's error clause below pins its error list down exactly |
| Validators.ValidateCreateWebsite | server/src/routes/websiteRoutes.js:8-25 | passes iff the trimmed name has 1..200 characters, the url is a URL, any trimmed description has at most 500 characters, and any depth is an integer in 1..3; on failure the messages of the failing rules, in rule order |
| Validators.ValidateUpdateWebsite | server/src/routes/websiteRoutes.js:27-46 | the same rules, each applied only to a present field; there is no url rule; it passes on the trimmed name and description, and otherwise reports the failing rules' messages in order |
| Validators.ValidateSendMessage | server/src/routes/chatRoutes.js:8-19 | passes iff both ids are well formed and the trimmed question has 1..1000 characters; otherwise the failing rules' messages, in rule order |
| Validators.ValidateDeleteChat | server/src/routes/chatRoutes.js:21-25 | passes iff the body's user id is well formed; otherwise the one message is `Invalid user ID` |
| Validators.NormalizeOpt | server/src/routes/userRoutes.js:27-31 | an optional e-mail is normalised when present and stays absent otherwise |
| Validators.ValidateCreateUser | server/src/routes/userRoutes.js:10-19 | passes iff the trimmed name has 2..100 characters and the e-mail is an address; it passes on the trimmed name and the normalised address, and otherwise reports the failing rules' messages in order |
| Validators.ValidateUpdateUser | server/src/routes/userRoutes.js:21-32 | the same rules, each applied only to a present field, with the failing rules' messages in order |
| Validators.UpdateRulesAreWeaker | server/src/routes/userRoutes.js:21-32 | an empty update body always passes, and every body the create rules accept is accepted by the update rules |
| Pagination.CeilDivIsCeiling | server/src/controllers/chatController.js:110 | `pages` is the least number of `limit`-sized pages that hold `total` items, and 0 iff there are none |
| Pagination.Paginate | server/src/controllers/chatController.js:108-114 | `current` is the page, `hasPrev` iff page > 1, and `hasNext` iff page·limit < total |
| Pagination.NextPageLemma | server/src/controllers/chatController.js:112 | `page < ceil(total/limit)` iff page·limit < total |
| Pagination.HasNextMeansMore | server/src/controllers/chatController.js:89-100 | `hasNext` holds exactly when items remain after the page shown |
| Pagination.EveryItemOnItsPage | server/src/controllers/chatController.js:89-100 | the item at position k is shown on page k div limit + 1, at offset k mod limit |
| Pagination.FromQuery | server/src/controllers/websiteController.js:68-69 | absent parameters give page 1 and the default limit; given ones must parse to positive integers, which are the page and limit used |
| Pagination.FromQueryOr | server/src/controllers/userController.js:188-190 | `parseInt(x) \|\| d`: an absent, unparseable or zero parameter falls back to its default |
| Numbers.ParseInt | server/src/controllers/chatController.js:131 | `parseInt` fails iff no digit follows the optional white space and sign |
| Numbers.OrDefault | server/src/controllers/chatController.js:131 | `NaN` and 0 fall back to the default; any other value is kept |
| Numbers.ParamOr | server/src/controllers/websiteController.js:68 | a destructuring default applies only when the parameter is absent; a given parameter is parsed, and fails iff it does not parse |
| Numbers.ParamOrKeepsZero | server/src/controllers/websiteController.js:68 | a given `0` stays 0 and a given non-number fails, where `parseInt(x) \|\| d` would fall back to the default in both cases |
| Extraction.GatheredBlank | server/src/services/crawlerService.js:142-145 | the gathered element text is blank exactly when every selected element's text is blank |
| Extraction.ExtractText | server/src/services/crawlerService.js:139-149 | the result has no leading, trailing or repeated white space; it is the selected elements' text, or the body text when that is blank, with white space collapsed |
| Extraction.ExtractTextEmpty | server/src/services/crawlerService.js:139-149 | the extracted text is empty iff both the selected elements' text and the body text are blank |
| Extraction.ResolveAll | server/src/services/crawlerService.js:156 | references are resolved in order; `http`-prefixed ones are kept verbatim; one unresolvable reference fails the whole list |
| Extraction.ExtractImages | server/src/services/crawlerService.js:151-161 | the first 50 resolved `src` values of the images that have one, in document order |
| Extraction.ExtractLinks | server/src/services/crawlerService.js:163-173 | the resolved kept hrefs, de-duplicated keeping first occurrences, then capped at 100; fragment and `mailto:` links are dropped |
| Extraction.ExtractMetadata | server/src/services/crawlerService.js:175-181 | a missing description or author becomes empty, missing keywords give none, and present keywords are the trimmed comma-separated pieces |
| Extraction.KeywordPieces | server/src/services/crawlerService.js:178 | the pieces rejoined with commas give back the tag's content, and no kept keyword contains a comma |
| Extraction.Title | server/src/services/crawlerService.js:84 | the trimmed title text, or `No Title` when it is blank; never empty |
| Extraction.WordCountOfExtracted | server/src/services/crawlerService.js:92 | the word count of extracted text is one more than its number of spaces, and 1 for empty text |
| Seqs.DedupeSpec | server/src/services/crawlerService.js:172 | `[...new Set(xs)]` holds each element of the input exactly once, in first-occurrence order |
| Seqs.KeptInOrderIsFilter | client/src/hooks/useChat.js:114 | the elements that pass, in order and each as often as in the input, and nothing else, describe one list only: the filter |
| Seqs.DedupeByPass | server/src/services/crawlerService.js:172 | a single pass with a seen-set computes that de-duplication |
| Crawler.Extract | server/src/services/crawlerService.js:81-92 | extraction succeeds iff every image and link resolves; the record's fields are the extractors' results and the word count |
| Crawler.TitleIsTrimmed | server/src/services/crawlerService.js:84 | the extracted title is already trimmed, so saving it leaves it unchanged |
| Crawler.Harvest | server/src/services/crawlerService.js:43-95 | the fetch-and-save part succeeds iff the page loads, extraction succeeds and the document passes the schema |
| Crawler.Crawl | server/src/services/crawlerService.js:31-137 | an unknown website fails without writes; otherwise the status becomes `crawling` with `lastCrawled`, then `completed` with one page, or `failed` with the error rethrown; the browser handle is cleared on every exit |
| Crawler.CrawlPreservesWf | server/src/services/crawlerService.js:94-100 | a crawl keeps the store's identifiers unique |
| Crawler.CrawlSettlesStatus | server/src/services/crawlerService.js:97-113 | after a crawl, looking the website up shows `completed` or `failed`, matching the result |
| Crawler.BlankPageFails | server/src/models/CrawledContent.js:17-20 | a page with no non-blank text gives empty content, which the schema refuses, so the crawl writes `crawling` then `failed` |
| CrawlerControl.StartCrawl | server/src/controllers/crawlerController.js:6-61 | an unknown website gives 404; a website already crawling gives 400 with no change; otherwise the crawl runs and the reply reports `crawling` |
| CrawlerControl.GetCrawlStatus | server/src/controllers/crawlerController.js:63-93 | the stored status, `lastCrawled` and page count of the website, or 404 |
| CrawlerControl.StatusAfterStart | server/src/controllers/crawlerController.js:35-51 | after a started crawl has run, the status endpoint reports it settled |
| CrawlerControl.RecrawlAsWritten | server/src/controllers/crawlerController.js:95-149 | as written, every request fails and nothing changes |
| CrawlerControl.RecrawlAsWrittenNeverStarts | server/src/controllers/crawlerController.js:115 | on every website the guards let through, the written handler answers 500 and changes nothing, where the intended one starts a crawl |
| CrawlerControl.Reset | server/src/controllers/crawlerController.js:115-121 | the website's documents are gone, and only that website changes, to `pending` with 0 pages |
| CrawlerControl.ResetPreservesWf | server/src/controllers/crawlerController.js:115-121 | resetting keeps the store well formed |
| CrawlerControl.Recrawl | server/src/controllers/crawlerController.js:99-121 | the start guards, then delete the documents, reset to pending, and crawl |
| CrawlerControl.RecrawlReplacesDocuments | server/src/controllers/crawlerController.js:113-130 | after a restart the website holds only what the new crawl saved |
| CrawlerControl.Stop | server/src/controllers/crawlerController.js:151-179 | the status becomes `failed` and the reply reports it, with no existence check |
| CrawlerControl.StopWithoutCheck | server/src/controllers/crawlerController.js:155-168 | stopping an unknown website succeeds and changes nothing; a stopped website can be crawled again |
| Answering.FitCountIsLongestPrefix | server/src/services/aiService.js:33-38 | the blocks taken fit the budget, and every longer prefix overflows it: no block is skipped or cut |
| Answering.ContextOf | server/src/services/aiService.js:28-38 | the context is at most 8000 characters and is a prefix of whole blocks |
| Answering.BuildContext | server/src/services/aiService.js:29-38 | the loop with a running total and a `break` computes exactly that context |
| Answering.CountMatches | server/src/services/aiService.js:90-97 | the number of question words, repeats included, that are longer than three characters and occur both among the context words and among the answer words; zero exactly when no question word qualifies |
| Answering.RelevanceScore | server/src/services/aiService.js:84-100 | the score lies in [0,1] and is the matched long question words over all question words |
| Answering.ShortWordsIgnored | server/src/services/aiService.js:92 | a question word of at most three characters never adds a match |
| Answering.GenerateResponse | server/src/services/aiService.js:11-82 | no documents gives the fixed no-content answer with score 0; a failing query or model gives the apology with time 0 and score 0; otherwise the model's answer, its score and the model name |
| Answering.NoDocumentsNoModelCall | server/src/services/aiService.js:20-26 | with no documents the result does not depend on the model at all |
| Answering.OversizedFirstDocument | server/src/services/aiService.js:20-56 | when the first block alone overflows, the context is empty but the model is still asked |
| Websites.Create | server/src/controllers/websiteController.js:6-63 | invalid bodies give 400; an existing url gives 400 with no insert; otherwise one pending website, with depth 1 unless given, is added |
| Websites.EmptyUrlIsServerError | server/src/controllers/websiteController.js:18-35 | an empty url that passed the URL check is refused by the schema, giving 500 with no insert |
| Websites.CreatePreservesWf | server/src/models/Website.js:9-13 | creating keeps identifiers and urls unique |
| Websites.Matching | server/src/controllers/websiteController.js:71-80 | exactly the websites that pass the `active` and `status` filters, each once, newest first: the store's list reversed and then filtered |
| Websites.Shown | server/src/controllers/websiteController.js:79-82 | the page shows at most `limit` matching websites |
| Websites.WithCount | server/src/controllers/websiteController.js:87-107 | each listed website carries its number of documents |
| Websites.List | server/src/controllers/websiteController.js:65-131 | a page of the matching websites, newest first, each with the number of its documents, and the shared pagination |
| Websites.NoFilterListsAll | server/src/controllers/websiteController.js:72-77 | without filters, or with an empty status, every website matches |
| Websites.Merge | server/src/controllers/websiteController.js:209-227 | a non-empty name or description and a non-zero depth replace the old ones, while an absent, empty or 0 one keeps the old value; `isActive` is replaced whenever given; url and status never change |
| Websites.MergeLaws | server/src/controllers/websiteController.js:209-227 | an empty body changes nothing, and applying a body twice is applying it once |
| Websites.BlankDescriptionKeepsOld | server/src/controllers/websiteController.js:213 | a blank description trims to empty and so keeps the old one |
| Websites.Update | server/src/controllers/websiteController.js:194-255 | validation, then 404 for an unknown id, then the merge of that website only |
| Websites.UpdatePreservesWf | server/src/controllers/websiteController.js:209-227 | updating keeps the store well formed |
| Websites.Delete | server/src/controllers/websiteController.js:257-288 | 404 for an unknown id and 500 for one that does not cast, with no change; otherwise exactly that website and its documents are removed, every other website and document stays in order and as often as before, and users, chats and the id counter are untouched |
| Websites.DeletePreservesWf | server/src/controllers/websiteController.js:261-273 | deleting keeps the store well formed |
| Websites.Active | server/src/controllers/websiteController.js:290-321 | exactly the active, completed websites, sorted by name |
| Seqs.SortBy | server/src/controllers/websiteController.js:295 | an ascending permutation of its input |
| Users.Create | server/src/controllers/userController.js:6-70 | invalid bodies give 400; an existing e-mail gives 400 with no insert; otherwise one account, without an image unless one was uploaded |
| Users.CreateKeepsEmailsUnique | server/src/controllers/userController.js:21-27 | creating keeps e-mail addresses unique |
| Users.Merge | server/src/controllers/userController.js:124-157 | name and e-mail keep old values when the new ones are falsy; an upload replaces the image; nothing else changes but the last-active time |
| Users.UpdateAsWritten | server/src/controllers/userController.js:109-184 | as written, an upload that replaces an existing image fails with 500 |
| Users.Update | server/src/controllers/userController.js:109-184 | validation, 404 for an unknown id, then the merge of that account only |
| Users.UpdateAsWrittenFailsOnReplace | server/src/controllers/userController.js:137 | the two versions differ exactly on an upload that replaces an existing image |
| Users.UpdateMayTakeAnotherEmail | server/src/controllers/userController.js:145-157 | an update stores the new address without checking that another account holds it |
| Users.List | server/src/controllers/userController.js:186-222 | with `parseInt \|\| default` parameters, the page holds min(limit, accounts left after skipping (page-1)·limit) accounts, and none past the end; entry i is account skip+i counted from the newest; the shared pagination |
| Users.ListDefaults | server/src/controllers/userController.js:188-190 | without parameters, the first page holds the ten newest accounts |
| Users.GetByEmail | server/src/controllers/userController.js:224-263 | 404 for an unknown address; otherwise that account, marked active now |
| Users.GetByEmailTouchesOnlyThatUser | server/src/controllers/userController.js:228-237 | a lookup changes only that account's last-active time |
| Chats.Send | server/src/controllers/chatController.js:8-82 | validation, then 404 for an unknown user or a missing or inactive website, then the answer saved with defaults, and the user's query count raised by one |
| Chats.LookupsPrecedeModel | server/src/controllers/chatController.js:23-41 | a refused lookup gives 404 whatever the model would answer |
| Chats.SendCountsQuery | server/src/controllers/chatController.js:44-60 | a successful send adds one record and raises the query count by exactly one |
| Chats.ModelFailureIsAnswered | server/src/controllers/chatController.js:44-52 | whatever error the model gives, the send still saves an answer: the apology, with score 0 and the default model name |
| Chats.HistoryOf | server/src/controllers/chatController.js:91-98 | the user's records, of one website when one is given, newest first: the chat list reversed and then filtered, each record once |
| Chats.History | server/src/controllers/chatController.js:84-126 | a page of that list with the shared pagination, or an error for parameters that do not parse |
| Chats.HistoryShowsOnlyOwnChats | server/src/controllers/chatController.js:91-94 | every record a history page shows belongs to the user and, if given, the website |
| Chats.Recent | server/src/controllers/chatController.js:128-154 | the user's newest records, as many as the limit |
| Chats.RecentDefaultsToTen | server/src/controllers/chatController.js:131 | an absent or unparseable limit shows at most ten records |
| Chats.Delete | server/src/controllers/chatController.js:156-189 | only the owner's record is removed, and that user's query count drops by one; a chat or user id that does not cast is a 500, a missing user id or another owner's chat a 404, each with no change |
| Chats.DeleteIgnoresRouteRule | server/src/routes/chatRoutes.js:21-25 | a user id the route rule rejects still reaches the lookup: it is answered 500 (malformed) or 404 (missing), never 400 |
| Chats.DeleteRespectsOwnership | server/src/controllers/chatController.js:161-166 | another user's chat is never deleted |
| Chats.SendThenDelete | server/src/controllers/chatController.js:161-174 | deleting the chat just sent restores the chat list and the query count |
| Auth.Register | server/src/controllers/authController.js:7-89 | invalid bodies give 400; an existing e-mail gives 400; otherwise an account holding the refresh token that the cookie is also set to |
| Auth.RegisterPreservesWf | server/src/controllers/authController.js:21-61 | registering keeps the store well formed |
| Auth.Login | server/src/controllers/authController.js:91-173 | the account lookup, then the active flag, then the password; success stores a new refresh token and the last-active time |
| Auth.LoginHidesWhichCheckFailed | server/src/controllers/authController.js:105-128 | an unknown address and a wrong password get the same reply |
| Auth.LoginStoresCookieToken | server/src/controllers/authController.js:131-137 | after a login the account holds exactly the token set in the cookie |
| Auth.Logout | server/src/controllers/authController.js:175-203 | the account holding the cookie's token loses it; the reply always succeeds |
| Auth.Refresh | server/src/controllers/authController.js:205-273 | the cookie must carry a verifiable token held by an active account; success rotates the stored token |
| Auth.RefreshRotates | server/src/controllers/authController.js:231-247 | once exchanged for a different token, the old one no longer refreshes |
| Auth.LogoutRevokes | server/src/controllers/authController.js:177-193 | when no two accounts hold the same token, the cookie's token cannot be refreshed after a logout |
| Auth.LogoutKeepsTokensUnique | server/src/controllers/authController.js:177-193 | logging out keeps refresh tokens unique across accounts |
| Auth.RegisterKeepsTokensUnique | server/src/controllers/authController.js:48-61 | registering keeps refresh tokens unique when no account already holds the newly signed token |
| Auth.LoginKeepsTokensUnique | server/src/controllers/authController.js:131-137 | signing in keeps refresh tokens unique when no account already holds the newly signed token |
| Auth.RefreshKeepsTokensUnique | server/src/controllers/authController.js:231-247 | rotating a token keeps refresh tokens unique when no account already holds the newly signed token |
| Auth.ChangePassword | server/src/controllers/authController.js:387-439 | a wrong current password gives 400 and no change; success sets the new password and drops the refresh token |
| Auth.RefreshFailsAfterChangePassword | server/src/controllers/authController.js:409-420 | after a password change no refresh token of that account works |
| Auth.ChangePasswordKeepsTokensUnique | server/src/controllers/authController.js:409-420 | a password change clears the account's token and so keeps refresh tokens unique |
| Health.CountStatus | server/src/controllers/analyticsController.js:669 | the number of websites in a status: how often that status occurs among the websites' statuses |
| Health.Issues | server/src/controllers/analyticsController.js:666-679 | each of the three issues is raised iff its condition holds, and they appear in the report's order: failure rate, response time, database |
| Health.HealthScore | server/src/controllers/analyticsController.js:682 | 100 iff there are no issues, otherwise 25 off per issue, never below 0 |
| Health.Score | server/src/controllers/analyticsController.js:666-682 | the report's score is 100 iff failures do not outnumber completions, the average response time is at most 10000 ms, and the database is connected |
| Health.ScoreIsAQuarter | server/src/controllers/analyticsController.js:666-682 | the report's score is always one of 25, 50, 75 and 100 |
| Health.ScoreCountsIssues | server/src/controllers/analyticsController.js:666-682 | the score is 100 minus 25 for each condition that fires |
| Helpers.Truncate | client/src/utils/helpers.js:25-28 | short or empty input is unchanged; otherwise the first `maxLength` characters trimmed at both ends, followed by the suffix |
| Helpers.CapitalizeFirst | client/src/utils/helpers.js:30-33 | empty input gives empty; otherwise the first character upper-cased and the rest lower-cased |
| Helpers.CapitalizeIdempotent | client/src/utils/helpers.js:30-33 | capitalising twice is capitalising once |
| Helpers.Slugify | client/src/utils/helpers.js:35-45 | the slug has only word characters and dashes, no double dash, and no dash at either end |
| Helpers.SlugifyIdempotent | client/src/utils/helpers.js:35-45 | a slug is its own slug |
| Helpers.GroupBy | client/src/utils/helpers.js:48-57 | every key of an item has a group, and each group is exactly the items with that key, in order |
| Helpers.GroupKeysComeFromItems | client/src/utils/helpers.js:48-57 | every group's key is the key of some item |
| Helpers.FormatDuration | client/src/utils/helpers.js:116-129 | `Nms` below a second, `Ns` below a minute, otherwise `Mm Ss` with S < 60 |
| Helpers.MinutesOfMs | client/src/utils/helpers.js:116-129 | the minutes and seconds shown recombine to the whole seconds of the input |
| Helpers.ValidateEmailIsPattern | client/src/utils/helpers.js:132-135 | `validateEmail` holds iff the address is one non-empty run without `@` or white space, an `@`, another such run, a dot, and a third such run |
| Helpers.ValidateEmail | client/src/utils/helpers.js:132-135 | an accepted address has no white space and at least five characters |
| Helpers.ValidEmailShape | client/src/utils/helpers.js:132-135 | a valid address has exactly one `@`, no white space, a non-empty local part, and a dot in the domain with text on both sides |
| Helpers.ValidateRequired | client/src/utils/helpers.js:137-139 | true iff the value is present and not blank |
| Helpers.ValidateLength | client/src/utils/helpers.js:141-144 | true iff min ≤ length ≤ max, where a missing value has length 0 |
| Helpers.LengthDoesNotImplyRequired | client/src/utils/helpers.js:137-144 | two spaces pass the length check for 2..100 but fail the required check |
| Helpers.TruthyNames | client/src/utils/helpers.js:147-149 | exactly the truthy arguments, in order, each once: position i holds the i-th truthy argument |
| Helpers.ClassNames | client/src/utils/helpers.js:147-149 | the joined class names are empty iff no argument is truthy; a single truthy name is joined to itself |
| Helpers.ClassNamesSplit | client/src/utils/helpers.js:147-149 | splitting the joined class names on spaces gives back the truthy arguments when none contains a space |
| Storage.RemovePrefixed | client/src/utils/storage.js:148-159 | exactly the keys with the prefix are removed |
| Storage.ReadFresh | client/src/utils/storage.js:76-96 | an entry is returned iff it is no older than its maximum age; a stale one is removed |
| Storage.SetUser | client/src/utils/storage.js:5-14 | writes the user id and user data keys and nothing else |
| Storage.ClearUser | client/src/utils/storage.js:30-33 | removes exactly the user id and user data keys |
| Storage.GetUser | client/src/utils/storage.js:16-24 | the stored user data iff the entry is readable, and nothing otherwise |
| Storage.UserRoundTrip | client/src/utils/storage.js:5-33 | a stored user reads back; after clearing, none does, and other keys are as before |
| Storage.SetSelectedWebsite | client/src/utils/storage.js:36-44 | writes the selected-website key and leaves every other entry as it was |
| Storage.GetSelectedWebsite | client/src/utils/storage.js:46-54 | the stored selection iff the entry is readable, and nothing otherwise |
| Storage.ClearSelectedWebsite | client/src/utils/storage.js:56-58 | removes exactly the selected-website key and leaves every other entry as it was |
| Storage.SelectedWebsiteRoundTrip | client/src/utils/storage.js:36-58 | a stored selection reads back until it is cleared |
| Storage.SetChatHistory | client/src/utils/storage.js:61-74 | writes the history, stamped now and with no maximum age, under the chat key of the user and website; every other key keeps its entry |
| Storage.GetChatHistory | client/src/utils/storage.js:76-96 | the stored history iff the entry is readable and at most `maxAge` (300000 ms by default) old; a stale entry is removed, while an unreadable one is left in place and nothing is returned |
| Storage.ChatHistoryLifetime | client/src/utils/storage.js:61-96 | a history reads back until exactly 300000 ms have passed, and not after |
| Storage.ClearChatHistory | client/src/utils/storage.js:98-110 | with both ids, removes exactly that one key; otherwise exactly the keys that start with the chat-history name; other entries keep their values |
| Storage.ChatKeyIsPrefixed | client/src/utils/storage.js:98-110 | every per-chat key falls under the clear-all prefix |
| Storage.SetCache | client/src/utils/storage.js:113-126 | writes the data under `cache_`+key, stamped now with its maximum age (600000 ms by default); every other key keeps its entry |
| Storage.GetCache | client/src/utils/storage.js:128-146 | the data iff the entry is readable and within its own maximum age; a stale entry is removed, while an unreadable one is left in place and nothing is returned |
| Storage.CacheLifetime | client/src/utils/storage.js:113-146 | a cached value reads back until its maximum age has passed, and not after |
| Storage.ClearCache | client/src/utils/storage.js:148-159 | with a key, removes only `cache_`+key; without one, all and only `cache_` keys |
| Storage.ClearCacheKeepsOthers | client/src/utils/storage.js:148-159 | clearing the whole cache keeps the user id, user data, selected-website and chat-history entries, with their values |
| Storage.Cleanup | client/src/utils/storage.js:162-179 | among cache and chat-history keys, removes exactly the unreadable entries and those whose non-zero timestamp and maximum age show them expired; every other key keeps its entry |
| Storage.CleanupIdempotent | client/src/utils/storage.js:162-179 | cleaning twice is cleaning once |
| Storage.CleanupKeepsChatHistory | client/src/utils/storage.js:162-179 | chat histories carry no maximum age, so cleanup never removes a readable one |
| Storage.CleanupAgreesWithGetCache | client/src/utils/storage.js:128-179 | a cache entry survives cleanup iff reading it would succeed |
| AuthState.Reduce | client/src/context/AuthContext.jsx:6-43 | each action sets exactly the fields its case names; `LOGOUT` gives the initial state; unknown actions change nothing |
| AuthState.ReducePreservesConsistent | client/src/context/AuthContext.jsx:6-43 | every action keeps a signed-in state holding a token |
| AuthState.ReduceLaws | client/src/context/AuthContext.jsx:27-51 | clearing the error is idempotent, only `LOGIN_START` starts loading, and logout forgets the state |
| AuthState.SignIn | client/src/context/AuthContext.jsx:81-123 | success stores the token and signs in; failure records the error and rethrows |
| AuthState.SignOut | client/src/context/AuthContext.jsx:125-135 | the stored token is removed and the state is initial, whatever the server answered |
| AuthState.SignOutIgnoresServer | client/src/context/AuthContext.jsx:125-135 | signing out does not depend on the server's answer, and undoes a failed sign-in |
| AuthState.Initialize | client/src/context/AuthContext.jsx:57-79 | with a stored token, a fetched profile signs in and a failed fetch drops the token |
| AuthState.UpdateProfile | client/src/context/AuthContext.jsx:137-148 | the returned user replaces the old one; a failure changes nothing |
| AuthState.FlowsPreserveConsistent | client/src/context/AuthContext.jsx:57-148 | every flow keeps the state consistent |
| ChatList.LoadChatHistory | client/src/hooks/useChat.js:25-52 | a page replaces or is appended; only a first page that replaces is cached, stamped with the current time; `hasMore` is `hasNext`, false when absent |
| ChatList.LoadMore | client/src/hooks/useChat.js:54-58 | the next page is appended only when there is more and nothing is loading |
| ChatList.LoadMoreKeepsPrefix | client/src/hooks/useChat.js:54-58 | loading more keeps the shown messages as a prefix and never touches the cache |
| ChatList.ReplaceId | client/src/hooks/useChat.js:83-87 | only entries with the temporary id are replaced, in place |
| ChatList.SendMessage | client/src/hooks/useChat.js:60-106 | a no-op without ids or with a blank question; otherwise an optimistic entry, replaced on success or removed on failure, which is rethrown |
| ChatList.SendOutcomes | client/src/hooks/useChat.js:66-102 | success shows the reply in front of the old list and caches the old list's first page; failure restores the old list |
| ChatList.DeleteMessage | client/src/hooks/useChat.js:108-123 | every message with that id goes, every other one stays in order and as often as before, the cache holds the first page of the rest (or is untouched without a website), and nothing else in the view changes |
| ChatList.DeleteIdempotent | client/src/hooks/useChat.js:114 | deleting an id twice is deleting it once |
| ChatList.ClearMessages | client/src/hooks/useChat.js:125-132 | an empty list on page 1 and the cache entry gone |
| ChatList.RefreshMessages | client/src/hooks/useChat.js:134-139 | the list is cleared and the first page loaded and cached afresh |
| ChatList.Mount | client/src/hooks/useChat.js:14-23 | a cached history at most five minutes old is shown as it is; otherwise the stale cache is dropped and the first page is loaded and cached, or on failure the error is shown with no cache |
| ChatList.FreshIsStoredRead | client/src/hooks/useChat.js:14-23 | the freshness test is the stored-history read: a fresh entry reads back as cached, and a stale one reads back as nothing and is removed |
| Filters.FilterWebsites | client/src/components/website/WebsiteList.jsx:52-78 | exactly the sites that pass every set control, in order and as often as before; the input itself when no control is set |
| Filters.FilterWebsitesIsOneFilter | client/src/components/website/WebsiteList.jsx:56-75 | the three steps are one filter by the conjunction of the three conditions |
| Filters.FilteredUsers | client/src/pages/Admin.jsx:135-138 | exactly the users whose name or e-mail mentions the search, case-insensitively, in their order and with their repeats; all of them for an empty search |
| Filters.FilteredWebsites | client/src/pages/Admin.jsx:140-148 | exactly the sites that pass the name or url search and the drop-down (`all`, an active state, or a status name), in their order and with their repeats |
| Filters.AdminStatusFilterAgrees | client/src/pages/Admin.jsx:140-148 | with a status name chosen, the admin filter and the website list keep the same sites when no site has a description |
| Filters.AfterCreate | client/src/pages/Admin.jsx:84-96 | a created site is put in front; a failure changes nothing |
| Filters.AfterCrawl | client/src/pages/Admin.jsx:98-113 | after a successful request only the sites with that id show `crawling`, and no other field changes |
| Filters.AfterDelete | client/src/pages/Admin.jsx:115-126 | a successful delete removes exactly the sites with that id; every other site stays in order and as often as before |
| WebsiteUi.RecrawlImpliesCrawl | client/src/components/website/WebsiteCard.jsx:76-77 | a site that offers a recrawl also offers a crawl; neither is offered while crawling or for an inactive site |
| WebsiteUi.ButtonsByStatus | client/src/components/website/WebsiteCard.jsx:76-77 | for an active site, pending and failed offer only a crawl, completed offers a crawl and a recrawl, and crawling offers neither |
| WebsiteUi.Click | client/src/components/website/WebsiteCard.jsx:53-74 | each button sends only its own request for this site: crawl and recrawl exactly when shown and handled, toggle the opposite state whenever handled, delete exactly when handled and confirmed; no other click sends a delete |
| WebsiteUi.ToggleTwice | client/src/components/website/WebsiteCard.jsx:61-65 | toggling twice asks for the state the site already has |
| WebsiteUi.ValidateUrl | client/src/components/website/WebsiteForm.jsx:37-44 | required, then parseable, then an http or https scheme, with the matching message |
| WebsiteUi.SubmitUrl | client/src/components/website/WebsiteForm.jsx:63-70 | `https://` is put in front of a non-empty url iff it does not start with `http` |
| WebsiteUi.SubmitUrlLaws | client/src/components/website/WebsiteForm.jsx:63-70 | the prefixing is idempotent, and a url the form accepted is sent as typed |
| WebsiteUi.NameFromUrl | client/src/components/website/WebsiteForm.jsx:46-61 | an empty name is filled from a valid url: the host's first label after dropping `www.`, capitalised |
| WebsiteUi.FirstLabel | client/src/components/website/WebsiteForm.jsx:53-54 | the text before the first dot of the host once its first `www.` is dropped |
| WebsiteUi.UpperFirst | client/src/components/website/WebsiteForm.jsx:55 | the first character upper-cased and the rest unchanged, same length |
| WebsiteUi.NameOfPlainHost | client/src/components/website/WebsiteForm.jsx:50-56 | a host without `www.` and without dots is the name, capitalised |
| WebsiteUi.LeadingWwwDropped | client/src/components/website/WebsiteForm.jsx:52 | a leading `www.` is dropped before the first label is taken |
| WebsiteUi.Defaults | client/src/components/website/WebsiteForm.jsx:27-32 | the edited site's fields with falsy ones replaced; depth 1 for a new site |
| Forms.HandleSubmit | client/src/components/chat/ChatInterface.jsx:51-77 | a website first, then a non-blank question, then at most 1000 characters as typed; the trimmed question is sent, and the box is cleared only on success |
| Forms.SentQuestionPassesServer | client/src/components/chat/ChatInterface.jsx:64-72 | a question the chat box sends passes the server's question rule |
| Forms.KeyDown | client/src/components/chat/ChatInterface.jsx:79-84 | Enter without Shift submits the box exactly as the submit button does; Shift+Enter and every other key submit nothing |
| Forms.RegisterName | client/src/components/auth/RegisterForm.jsx:166-176 | the name is accepted iff it has 2..100 characters |
| Forms.ProfileName | client/src/components/user/UserForm.jsx:150-165 | the name is accepted iff the length and required helpers both accept it |
| Forms.BlankNameOnlyProfileRejects | client/src/components/user/UserForm.jsx:160-163 | two spaces pass the registration form's name rules but the profile form rejects them as empty |
| Forms.EmailField | client/src/components/user/UserForm.jsx:182-190 | the e-mail is accepted iff it matches the address pattern |
| Forms.FirstLine | client/src/components/auth/RegisterForm.jsx:222 | the text a lookahead's `.*` ranges over: everything before the first line terminator |
| Forms.PasswordField | client/src/components/auth/RegisterForm.jsx:214-224 | accepted iff at least 6 characters and a lowercase letter, an uppercase letter and a digit before the first line break |
| Forms.ConfirmField | client/src/components/auth/RegisterForm.jsx:253-256 | accepted iff non-empty and equal to the password |
| Forms.RetypedPasswordConfirms | client/src/components/auth/RegisterForm.jsx:253-256 | retyping an accepted password is an accepted confirmation |
| Forms.SelectImage | client/src/components/auth/RegisterForm.jsx:34-64 | no file resets the preview; an allowed file is selected and previewed; a rejected one keeps the previous selection and shows the type message, or for an allowed type the size message |
| Forms.ClearImage | client/src/components/user/UserForm.jsx:67-76 | nothing selected, no error, and the reset preview |
| Forms.ProfileReset | client/src/components/user/UserForm.jsx:19 | the profile form's reset preview is the current image when it is non-empty |
| Forms.SelectedIsAllowed | client/src/components/user/UserForm.jsx:35-65 | a selected file is always an allowed one, and choosing no file equals clearing |
| Navigation.NavigationItems | client/src/components/common/Header.jsx:28-52 | the dashboard first and always; chat and profile iff signed in; admin iff signed in with the admin role; no two links share a target |
| Navigation.AtMostOneActive | client/src/components/common/Header.jsx:56-61 | on any path at most one link is highlighted |
| Navigation.OwnLinkActive | client/src/components/common/Header.jsx:56-61 | a link is highlighted on its own page, and below it except for the dashboard |
| Navigation.ActiveIsExtension | client/src/components/common/Header.jsx:56-61 | a link other than the dashboard is highlighted exactly on the paths that extend it |

## Left out

- `server/src/models/User.js` and the auth routes are not part of this model. The account record carries only the fields the modelled controllers read and write.
- Browser automation, HTML parsing and URL resolution: the parsed page and `resolve` are parameters. A crawl is a single call, and navigation time-outs are one failure case.
- The generative model, JWT, bcrypt, `isURL`, `isEmail`, e-mail normalisation, the file service and upload storage are parameters. Deleting an old image file from disk is not modelled.
- Concurrency:
  - fire-and-forget crawls run to completion inside the handler's call;
  - races on the shared browser handle are not modelled;
  - the two steps of `sendMessage` and of a cascade delete are not interleaved with other requests.
- The analytics report apart from its issues and score: aggregation, averaging and floating-point rounding.
- Chats.History: query parameters that parse to a non-positive page or limit are modelled as an error. In the source, a page of 0 or less gives a negative skip. A limit of 0 gives `.limit(0)`, which returns every match, and a page count of `Infinity` (`NaN` when nothing matches). A negative limit is passed to the query unchanged.
- Websites.List and Users.List: the same treatment of non-positive parameters.
- Request bodies are typed: every field is a string, boolean or integer, or absent. Wrong JSON types are not modelled.
- `mongoose` at `server/src/controllers/websiteController.js:147` and `server/src/controllers/chatController.js:196` is used without being imported. Those handlers (`getWebsite`, `getChatStats`) are outside the modelled operations. The same holds for `path` at `server/src/controllers/authController.js:338` (`updateProfile`).
- The website list's stray message markup and its non-debounced search state: only `filterWebsites` is modelled.
- Helpers.GroupBy: keys that name properties of JavaScript's object prototype are not modelled.
- `formatNumber`, `formatFileSize`, `formatBytes`, `getAvailableStorage` and `getStorageInfo` are left out: they need floating point or probe the browser.
- Date formatting, `debounce`, `sleep`, `retry`, `generateId` and `getRandomColor` are left out: they need timers or randomness.
- Storage entries are either readable records or unreadable text. JSON `null`, and non-numeric timestamps or ages, are not modelled.
- Forms.SelectImage: the preview is set at once to the data URL, which is a parameter. FileReader's asynchronous load is not modelled.
- WebsiteUi.SubmitUrl: a url such as `httpbin.org` starts with `http` and is sent without a protocol. This is modelled as written.
- Storage.ClearChatHistory: the clear-all prefix has no trailing underscore, so it also matches any key that merely starts with the chat-history name. This is modelled as written.
- Strings are sequences of characters, not UTF-16 code units. A character outside the Basic Multilingual Plane counts once here and twice in JavaScript.
- Case mapping covers ASCII letters only.
- Forms.KeyDown: the key handler's `preventDefault` is not modelled.
- Chats.Delete: a missing user id in the body is taken to reach the query as null, which matches no chat because every chat has an owner, so the answer is 404. How the database driver serialises the absent value is not part of this model.
- Validators.IsMongoId: accepts exactly 24 hexadecimal digits. The validator library's `isHexadecimal` also admits a leading `0x` or `0h`, so such a 24-character string passes the route check and only fails later, when it is cast to an identifier. That prefix case is not modelled, because the library is outside the model.
- ChatList: the hook's cached history is a timestamped entry in the view, not a local-storage map. ChatList.FreshIsStoredRead relates the two.
- Auth: a token signed at the same moment as another account's stored token could coincide with it. The token-uniqueness lemmas therefore assume that the signer mints fresh tokens.
- The profile form's default values (`user?.name \|\| ''`) are not modelled.
- Every React rendering concern and the axios service wrappers are left out.

## Findings

| source | as written | input that shows it | evidently intended | confidence | as-written member | corrected member |
|---|---|---|---|---|---|---|
| server/src/controllers/crawlerController.js:115 | `CrawledContent.deleteMany` names a model the file never imports, so the handler throws a ReferenceError and answers 500 before resetting anything | any existing website whose status is not `crawling` | delete the website's documents, reset it to pending with 0 pages, and start a crawl | not executed | CrawlerControl.RecrawlAsWritten | CrawlerControl.Recrawl |
| server/src/controllers/userController.js:137 | `path.basename` is evaluated while deleting the old profile image, but `path` is never imported, so the update answers 500 | an update with an uploaded image for an account that already has one | delete the old image and store the new one | not executed | Users.UpdateAsWritten | Users.Update |

=== FILE: answering.dfy ===
/** The grounded-answer pipeline of the AI service: fetch at most five
    documents of the website, pack as many of them as fit into an 8000
    character context, ask the model, and score the answer by keyword
    overlap. The model call is a parameter (`Err` is a thrown error), and so
    is the elapsed time the service measures with its clock. */
module Answering {
  import opened Wrappers
  import Text
  import Seqs
  import Models
  import Constants

  const MaxContextDocs: nat := 5
  const MaxContextLength: nat := 8000

  const NoContentAnswer: string :=
    "I don't have any content from this website to answer your question. Please make sure the website has been crawled first."
  const ErrorAnswer: string :=
    "I'm sorry, I encountered an error while processing your question. Please try again later."

  /** What `generateResponse` returns. `aiModel` and `error` are absent on
      the paths that do not set them. */
  datatype AiResult = AiResult(
    answer: string,
    responseTime: int,
    relevanceScore: real,
    aiModel: Option<string>,
    error: Option<string>)

  // ------------------------------------------------------------ context

  /** One document as it appears in the prompt. */
  function Block(d: Models.Document): string {
    "Title: " + d.title + "\nContent: " + d.content + "\n\n"
  }

  function Blocks(docs: seq<Models.Document>): (bs: seq<string>)
    ensures |bs| == |docs|
    ensures forall i :: 0 <= i < |docs| ==> bs[i] == Block(docs[i])
  {
    seq(|docs|, i requires 0 <= i < |docs| => Block(docs[i]))
  }

  function Concat(bs: seq<string>): string {
    if |bs| == 0 then [] else bs[0] + Concat(bs[1..])
  }

  lemma {:induction false} ConcatSnoc(bs: seq<string>, i: nat)
    requires i < |bs|
    ensures Concat(bs[..i + 1]) == Concat(bs[..i]) + bs[i]
    decreases i
  {
    if i == 0 {
      assert bs[..1] == [bs[0]];
      assert Concat([bs[0]]) == bs[0] + Concat([]);
    } else {
      var t := bs[1..];
      assert bs[..i + 1][1..] == t[..i];
      assert bs[..i][1..] == t[..i - 1];
      ConcatSnoc(t, i - 1);
    }
  }

  /** How many leading blocks the service accumulates within `budget`
      characters: it stops at the first block that would overflow. */
  function FitCount(bs: seq<string>, budget: int): (k: nat)
    ensures k <= |bs|
    decreases |bs|
  {
    if |bs| == 0 || |bs[0]| > budget then 0 else 1 + FitCount(bs[1..], budget - |bs[0]|)
  }

  /** The accumulated blocks fit the budget, and adding any further block
      (not only the next one) would overflow it: stopping at the first
      overflow yields the longest fitting prefix, never a gap and never a
      partial block. */
  lemma {:induction false} FitCountIsLongestPrefix(bs: seq<string>, budget: int)
    requires budget >= 0
    ensures |Concat(bs[..FitCount(bs, budget)])| <= budget
    ensures forall j :: FitCount(bs, budget) < j <= |bs| ==> |Concat(bs[..j])| > budget
    decreases |bs|
  {
    if |bs| == 0 {
    } else if |bs[0]| > budget {
      assert bs[..0] == [];
      forall j | 0 < j <= |bs|
        ensures |Concat(bs[..j])| > budget
      {
        assert bs[..j][0] == bs[0];
        assert Concat(bs[..j]) == bs[0] + Concat(bs[..j][1..]);
      }
    } else {
      var t := bs[1..];
      var b := budget - |bs[0]|;
      FitCountIsLongestPrefix(t, b);
      var k := FitCount(bs, budget);
      assert k == 1 + FitCount(t, b);
      assert bs[..k][1..] == t[..k - 1];
      assert Concat(bs[..k]) == bs[0] + Concat(t[..k - 1]);
      forall j | k < j <= |bs|
        ensures |Concat(bs[..j])| > budget
      {
        assert bs[..j][1..] == t[..j - 1];
        assert Concat(bs[..j]) == bs[0] + Concat(t[..j - 1]);
      }
    }
  }

  /** The context the service builds from the fetched documents. */
  function ContextOf(docs: seq<Models.Document>): (c: string)
    ensures |c| <= MaxContextLength
    ensures exists k :: 0 <= k <= |docs| && c == Concat(Blocks(docs)[..k])
  {
    var bs := Blocks(docs);
    FitCountIsLongestPrefix(bs, MaxContextLength);
    Concat(bs[..FitCount(bs, MaxContextLength)])
  }

  lemma {:induction false} FitCountStep(bs: seq<string>, budget: int, i: nat, total: int)
    requires i < |bs| && FitCount(bs, budget) == i + FitCount(bs[i..], budget - total)
    requires total + |bs[i]| <= budget
    ensures FitCount(bs, budget) == i + 1 + FitCount(bs[i + 1..], budget - (total + |bs[i]|))
  {
    assert bs[i..][1..] == bs[i + 1..];
  }

  /** The context loop as the service runs it: a running total, and a
      `break` at the first block that would overflow. */
  method BuildContext(docs: seq<Models.Document>) returns (context: string)
    ensures context == ContextOf(docs)
    ensures |context| <= MaxContextLength
  {
    var bs := Blocks(docs);
    context := [];
    var total := 0;
    var i := 0;
    while i < |bs|
      invariant 0 <= i <= |bs|
      invariant total == |context| <= MaxContextLength
      invariant context == Concat(bs[..i])
      invariant FitCount(bs, MaxContextLength) == i + FitCount(bs[i..], MaxContextLength - total)
    {
      if total + |bs[i]| > MaxContextLength {
        assert FitCount(bs[i..], MaxContextLength - total) == 0;
        break;
      }
      FitCountStep(bs, MaxContextLength, i, total);
      ConcatSnoc(bs, i);
      context := context + bs[i];
      total := total + |bs[i]|;
      i := i + 1;
    }
  }

  // ---------------------------------------------------------- relevance

  /** Question words longer than three characters that occur both among
      the context words and among the answer words; a repeated question
      word counts each time. */
  function CountMatches(qs: seq<string>, cs: seq<string>, ans: seq<string>): (n: nat)
    ensures n <= |qs|
    ensures n == |Seqs.Filter(qs, Counted(cs, ans))|
    ensures n == 0 <==> forall i :: 0 <= i < |qs| ==> !Counted(cs, ans)(qs[i])
  {
    if |qs| == 0 then 0
    else (if |qs[0]| > 3 && qs[0] in cs && qs[0] in ans then 1 else 0) + CountMatches(qs[1..], cs, ans)
  }

  /** A question word that scores: longer than three characters and found
      both among the context words and among the answer words. */
  function Counted(cs: seq<string>, ans: seq<string>): string -> bool {
    (w: string) => |w| > 3 && w in cs && w in ans
  }

  /** `Math.max`. */
  function MaxInt(a: int, b: int): int { if a >= b then a else b }

  lemma RatioInUnit(n: nat, d: nat)
    requires 1 <= d && n <= d
    ensures 0.0 <= n as real / d as real <= 1.0
  {
    assert n as real <= d as real;
  }

  /** `calculateRelevanceScore`: matched question words over all question
      words, short ones included, after lower-casing and splitting on
      whitespace, clamped to 1. Splitting always yields at least one word
      and no more words can match than were asked, so neither the `max`
      with 1 nor the clamp ever applies: the score is the plain ratio. */
  function RelevanceScore(question: string, answer: string, context: string): (r: real)
    ensures Models.ScoreInRange(r)
    ensures var qs := Text.SplitWs(Text.ToLower(question));
      r == CountMatches(qs, Text.SplitWs(Text.ToLower(context)),
                        Text.SplitWs(Text.ToLower(answer))) as real / |qs| as real
  {
    var qs := Text.SplitWs(Text.ToLower(question));
    var cs := Text.SplitWs(Text.ToLower(context));
    var ans := Text.SplitWs(Text.ToLower(answer));
    var n := CountMatches(qs, cs, ans);
    RatioInUnit(n, |qs|);
    var ratio := n as real / MaxInt(|qs|, 1) as real;
    if ratio <= 1.0 then ratio else 1.0
  }

  /** No question word of three characters or fewer can raise the score. */
  lemma {:induction false} ShortWordsIgnored(qs: seq<string>, cs: seq<string>, ans: seq<string>, w: string)
    requires |w| <= 3
    ensures CountMatches(qs + [w], cs, ans) == CountMatches(qs, cs, ans)
    decreases |qs|
  {
    if |qs| == 0 {
      assert qs + [w] == [w];
    } else {
      assert (qs + [w])[1..] == qs[1..] + [w];
      ShortWordsIgnored(qs[1..], cs, ans, w);
    }
  }

  // ---------------------------------------------------------- the answer

  /** `generateResponse`. `stored` is the website's documents as the query
      returns them (or the error it throws), `generate` asks the model with
      the context and the question, and `elapsed` is the measured time. */
  function GenerateResponse(question: string, stored: Result<seq<Models.Document>, string>,
                            generate: (string, string) -> Result<string, string>,
                            elapsed: nat): (r: AiResult)
    ensures Models.ScoreInRange(r.relevanceScore)
    ensures stored.Err? ==> r == AiResult(ErrorAnswer, 0, 0.0, None, Some(stored.error))
    ensures stored.Ok? && |stored.value| == 0 ==> r == AiResult(NoContentAnswer, elapsed, 0.0, None, None)
    ensures stored.Ok? && |stored.value| > 0 ==>
      var docs := Seqs.Take(stored.value, MaxContextDocs);
      var ctx := ContextOf(docs);
      match generate(ctx, question)
      case Err(e) => r == AiResult(ErrorAnswer, 0, 0.0, None, Some(e))
      case Ok(a) => r == AiResult(a, elapsed, RelevanceScore(question, a, ctx), Some(Constants.DefaultModel), None)
  {
    match stored
    case Err(e) => AiResult(ErrorAnswer, 0, 0.0, None, Some(e))
    case Ok(all) =>
      var docs := Seqs.Take(all, MaxContextDocs);
      if |docs| == 0 then AiResult(NoContentAnswer, elapsed, 0.0, None, None)
      else
        var ctx := ContextOf(docs);
        match generate(ctx, question)
        case Err(e) => AiResult(ErrorAnswer, 0, 0.0, None, Some(e))
        case Ok(a) => AiResult(a, elapsed, RelevanceScore(question, a, ctx), Some(Constants.DefaultModel), None)
  }

  /** With no stored documents the model is never consulted: any two model
      functions give the same result. */
  lemma NoDocumentsNoModelCall(question: string, g1: (string, string) -> Result<string, string>,
                               g2: (string, string) -> Result<string, string>, elapsed: nat)
    ensures GenerateResponse(question, Ok([]), g1, elapsed) == GenerateResponse(question, Ok([]), g2, elapsed)
    ensures GenerateResponse(question, Ok([]), g1, elapsed).answer == NoContentAnswer
  {
  }

  /** The short-circuit looks at the number of documents, not at the size
      of the context: when the first document alone overflows the budget the
      model is still asked, with an empty context. */
  lemma OversizedFirstDocument(question: string, docs: seq<Models.Document>,
                               generate: (string, string) -> Result<string, string>, elapsed: nat)
    requires |docs| > 0 && |Block(docs[0])| > MaxContextLength
    ensures ContextOf(Seqs.Take(docs, MaxContextDocs)) == []
    ensures generate([], question).Ok? ==>
      GenerateResponse(question, Ok(docs), generate, elapsed).answer == generate([], question).value
  {
    var t := Seqs.Take(docs, MaxContextDocs);
    assert t[0] == docs[0];
    var bs := Blocks(t);
    assert FitCount(bs, MaxContextLength) == 0;
    assert bs[..0] == [];
  }
}

=== FILE: auth.dfy ===
/** The authentication controller: register, login, logout, refresh-token
    rotation and password change. Signing and verifying tokens and
    comparing passwords are parameters: `mint(id, now)` is the refresh
    token issued to a user at a time, `verify(token)` the user id a valid
    token carries, and `matches(candidate, stored)` the password check.
    Whether a route's request validators passed is the flag `valid`. The
    refresh-token cookie is an optional string; an empty one counts as
    missing. */
module Auth {
  import opened Wrappers
  import opened Models
  import opened Store
  import opened Http

  /** A controller's reply, the refresh-token cookie it leaves set (if
      any) and the store afterwards. */
  datatype Outcome = Outcome(reply: Reply, cookie: Option<string>, db: Db)

  /** No two accounts hold the same refresh token. */
  predicate TokensUnique(us: seq<User>) {
    forall i, j :: 0 <= i < j < |us| && us[i].refreshToken.Some? ==> us[i].refreshToken != us[j].refreshToken
  }

  predicate Given(cookie: Option<string>) { cookie.Some? && cookie.value != [] }

  function StartSession(token: string, now: Time): User -> User {
    (u: User) => u.(refreshToken := Some(token), lastActiveAt := Some(now))
  }

  function EndSession(): User -> User {
    (u: User) => u.(refreshToken := None)
  }

  /** `register`: a new account holding the refresh token that is also set
      as the cookie. */
  function Register(db: Db, valid: bool, name: string, email: string, password: string,
                    upload: Option<string>, now: Time, mint: (Id, Time) -> string): (r: Outcome)
    ensures !valid ==> r == Outcome(Reply(BadRequest, "Validation errors"), None, db)
    ensures valid && FindUserByEmail(db.users, email).Some? ==>
      r == Outcome(Reply(BadRequest, "User with this email already exists"), None, db)
    ensures r.reply.code == Created <==> valid && FindUserByEmail(db.users, email).None?
    ensures r.reply.code == Created ==>
      && |r.db.users| == |db.users| + 1
      && var u := r.db.users[|db.users|];
      && r.db == db.(users := db.users + [u], nextId := db.nextId + 1)
      && r.cookie.Some? && u.refreshToken == r.cookie
      && u.id == db.nextId && u.email == email && u.password == Some(password) && u.role == Member
  {
    if !valid then Outcome(Reply(BadRequest, "Validation errors"), None, db)
    else if FindUserByEmail(db.users, email).Some? then
      Outcome(Reply(BadRequest, "User with this email already exists"), None, db)
    else
      var token := mint(db.nextId, now);
      var u := NewUser(db.nextId, name, email, Some(password), upload, now).(refreshToken := Some(token));
      Outcome(Reply(Created, "User registered successfully"), Some(token),
              db.(users := db.users + [u], nextId := db.nextId + 1))
  }

  /** Registering keeps the store well formed. */
  lemma RegisterPreservesWf(db: Db, valid: bool, name: string, email: string, password: string,
                            upload: Option<string>, now: Time, mint: (Id, Time) -> string)
    requires Wf(db)
    ensures Wf(Register(db, valid, name, email, password, upload, now, mint).db)
  {
  }

  /** `login`: the account is looked up first, its active flag checked
      second and the password third. */
  function Login(db: Db, valid: bool, email: string, password: string, now: Time,
                 matches: (string, Option<string>) -> bool, mint: (Id, Time) -> string): (r: Outcome)
    ensures !valid ==> r == Outcome(Reply(BadRequest, "Validation errors"), None, db)
    ensures valid && FindUserByEmail(db.users, email).None? ==>
      r == Outcome(Reply(Unauthorized, "Invalid email or password"), None, db)
    ensures valid && FindUserByEmail(db.users, email).Some? && !FindUserByEmail(db.users, email).value.isActive ==>
      r == Outcome(Reply(Unauthorized, "Account has been deactivated"), None, db)
    ensures Succeeded(r.reply) <==>
      && valid && FindUserByEmail(db.users, email).Some?
      && FindUserByEmail(db.users, email).value.isActive
      && matches(password, FindUserByEmail(db.users, email).value.password)
    ensures !Succeeded(r.reply) ==> r.cookie.None? && r.db == db
    ensures Succeeded(r.reply) ==>
      var u := FindUserByEmail(db.users, email).value;
      && r.cookie == Some(mint(u.id, now))
      && r.db == db.(users := MapUser(db.users, u.id, StartSession(mint(u.id, now), now)))
  {
    if !valid then Outcome(Reply(BadRequest, "Validation errors"), None, db)
    else match FindUserByEmail(db.users, email)
    case None => Outcome(Reply(Unauthorized, "Invalid email or password"), None, db)
    case Some(u) =>
      if !u.isActive then Outcome(Reply(Unauthorized, "Account has been deactivated"), None, db)
      else if !matches(password, u.password) then Outcome(Reply(Unauthorized, "Invalid email or password"), None, db)
      else
        var token := mint(u.id, now);
        Outcome(Reply(Success, "Login successful"), Some(token),
                db.(users := MapUser(db.users, u.id, StartSession(token, now))))
  }

  /** An unknown address and a wrong password get the same reply, so the
      reply does not tell which addresses have accounts; a deactivated
      account is refused whatever password is given. */
  lemma LoginHidesWhichCheckFailed(db: Db, email: string, email': string, password: string, password': string,
                                   now: Time, matches: (string, Option<string>) -> bool, mint: (Id, Time) -> string)
    requires FindUserByEmail(db.users, email).None?
    requires FindUserByEmail(db.users, email').Some? && FindUserByEmail(db.users, email').value.isActive
    requires !matches(password', FindUserByEmail(db.users, email').value.password)
    ensures Login(db, true, email, password, now, matches, mint) == Login(db, true, email', password', now, matches, mint)
  {
  }

  /** After a successful login the account holds exactly the token the
      cookie carries. */
  lemma LoginStoresCookieToken(db: Db, email: string, password: string, now: Time,
                               matches: (string, Option<string>) -> bool, mint: (Id, Time) -> string)
    requires Wf(db)
    requires Succeeded(Login(db, true, email, password, now, matches, mint).reply)
    ensures var r := Login(db, true, email, password, now, matches, mint);
      var u := FindUserByEmail(db.users, email).value;
      && Wf(r.db)
      && FindUser(r.db.users, u.id).Some?
      && FindUser(r.db.users, u.id).value.refreshToken == r.cookie
      && FindUser(r.db.users, u.id).value.lastActiveAt == Some(now)
  {
    var u := FindUserByEmail(db.users, email).value;
    var k :| 0 <= k < |db.users| && db.users[k] == u;
    FindUserAt(db.users, k);
    MapUserPreservesWf(db, u.id, StartSession(mint(u.id, now), now));
    FindUserAfterMap(db.users, u.id, StartSession(mint(u.id, now), now));
  }

  /** `logout`: the account holding the cookie's token loses it; the reply
      is a success whether or not there was one. */
  function Logout(db: Db, cookie: Option<string>): (r: Outcome)
    ensures r.reply == Reply(Success, "Logout successful") && r.cookie.None?
    ensures !Given(cookie) || FindUserByToken(db.users, cookie.value).None? ==> r.db == db
    ensures Given(cookie) && FindUserByToken(db.users, cookie.value).Some? ==>
      r.db == db.(users := MapUser(db.users, FindUserByToken(db.users, cookie.value).value.id, EndSession()))
  {
    if Given(cookie) && FindUserByToken(db.users, cookie.value).Some? then
      var u := FindUserByToken(db.users, cookie.value).value;
      Outcome(Reply(Success, "Logout successful"), None, db.(users := MapUser(db.users, u.id, EndSession())))
    else Outcome(Reply(Success, "Logout successful"), None, db)
  }

  /** `refreshToken`: the cookie must carry a verifiable token that the
      account it names still holds, and the account must be active. The
      stored token is then replaced by a new one. */
  function Refresh(db: Db, cookie: Option<string>, now: Time,
                   verify: string -> Option<Id>, mint: (Id, Time) -> string): (r: Outcome)
    ensures !Given(cookie) ==> r == Outcome(Reply(Unauthorized, "Refresh token not provided"), None, db)
    ensures Succeeded(r.reply) <==>
      && Given(cookie) && verify(cookie.value).Some?
      && FindUser(db.users, verify(cookie.value).value).Some?
      && FindUser(db.users, verify(cookie.value).value).value.refreshToken == cookie
      && FindUser(db.users, verify(cookie.value).value).value.isActive
    ensures !Succeeded(r.reply) ==> r.reply.code == Unauthorized && r.db == db
    ensures Succeeded(r.reply) ==>
      var id := verify(cookie.value).value;
      && r.cookie == Some(mint(id, now))
      && r.db == db.(users := MapUser(db.users, id, StartSession(mint(id, now), now)))
  {
    if !Given(cookie) then Outcome(Reply(Unauthorized, "Refresh token not provided"), None, db)
    else match verify(cookie.value)
    case None => Outcome(Reply(Unauthorized, "Invalid refresh token"), None, db)
    case Some(id) =>
      match FindUser(db.users, id)
      case None => Outcome(Reply(Unauthorized, "Invalid refresh token"), None, db)
      case Some(u) =>
        if u.refreshToken != cookie || !u.isActive then Outcome(Reply(Unauthorized, "Invalid refresh token"), None, db)
        else
          var token := mint(id, now);
          Outcome(Reply(Success, "Token refreshed successfully"), Some(token),
                  db.(users := MapUser(db.users, id, StartSession(token, now))))
  }

  /** Rotation: once a token has been exchanged for a different one, the
      old token is refused. */
  lemma RefreshRotates(db: Db, cookie: Option<string>, now: Time, later: Time,
                       verify: string -> Option<Id>, mint: (Id, Time) -> string)
    requires Wf(db)
    requires Succeeded(Refresh(db, cookie, now, verify, mint).reply)
    requires Some(mint(verify(cookie.value).value, now)) != cookie
    ensures var r := Refresh(db, cookie, now, verify, mint);
      && Wf(r.db)
      && !Succeeded(Refresh(r.db, cookie, later, verify, mint).reply)
  {
    var id := verify(cookie.value).value;
    var upd := StartSession(mint(id, now), now);
    MapUserPreservesWf(db, id, upd);
    FindUserAfterMap(db.users, id, upd);
  }

  /** Logging out revokes the token: it cannot be refreshed afterwards. */
  lemma LogoutRevokes(db: Db, cookie: Option<string>, now: Time,
                      verify: string -> Option<Id>, mint: (Id, Time) -> string)
    requires Wf(db) && TokensUnique(db.users)
    ensures !Succeeded(Refresh(Logout(db, cookie).db, cookie, now, verify, mint).reply)
  {
    if Given(cookie) && FindUserByToken(db.users, cookie.value).Some? {
      var u := FindUserByToken(db.users, cookie.value).value;
      var after := Logout(db, cookie).db;
      MapUserPreservesWf(db, u.id, EndSession());
      forall k | 0 <= k < |after.users| ensures after.users[k].refreshToken != cookie {
        if db.users[k].id != u.id {
          var m :| 0 <= m < |db.users| && db.users[m] == u;
          assert m != k;
          assert db.users[k].refreshToken != db.users[m].refreshToken;
        }
      }
      if verify(cookie.value).Some? && FindUser(after.users, verify(cookie.value).value).Some? {
        var w := FindUser(after.users, verify(cookie.value).value).value;
        var k :| 0 <= k < |after.users| && after.users[k] == w;
      }
    }
  }

  /** No account already holds a token minted at `now`: the condition on
      the signer under which issuing a token keeps tokens unique. */
  ghost predicate MintsFresh(us: seq<User>, mint: (Id, Time) -> string, now: Time) {
    forall i, id :: 0 <= i < |us| ==> us[i].refreshToken != Some(mint(id, now))
  }

  /** Clearing one account's token keeps tokens unique. */
  lemma EndSessionKeepsTokensUnique(us: seq<User>, id: Id)
    requires TokensUnique(us)
    ensures TokensUnique(MapUser(us, id, EndSession()))
  {
    var r := MapUser(us, id, EndSession());
    forall i, j | 0 <= i < j < |r| && r[i].refreshToken.Some?
      ensures r[i].refreshToken != r[j].refreshToken
    {
      assert us[i].refreshToken == r[i].refreshToken;
      assert r[j].refreshToken == None || r[j].refreshToken == us[j].refreshToken;
    }
  }

  /** Giving one account (identifiers being distinct) a token nobody holds
      keeps tokens unique. */
  lemma StartSessionKeepsTokensUnique(db: Db, id: Id, token: string, now: Time)
    requires Wf(db) && TokensUnique(db.users)
    requires forall i :: 0 <= i < |db.users| ==> db.users[i].refreshToken != Some(token)
    ensures TokensUnique(MapUser(db.users, id, StartSession(token, now)))
  {
    var us := db.users;
    var r := MapUser(us, id, StartSession(token, now));
    forall i, j | 0 <= i < j < |r| && r[i].refreshToken.Some?
      ensures r[i].refreshToken != r[j].refreshToken
    {
      if us[i].id == id {
        assert us[j].id != id;
        assert r[j].refreshToken == us[j].refreshToken;
      } else if us[j].id == id {
        assert r[i].refreshToken == us[i].refreshToken;
      }
    }
  }

  /** Logging out keeps refresh tokens unique. */
  lemma LogoutKeepsTokensUnique(db: Db, cookie: Option<string>)
    requires TokensUnique(db.users)
    ensures TokensUnique(Logout(db, cookie).db.users)
  {
    if Given(cookie) && FindUserByToken(db.users, cookie.value).Some? {
      EndSessionKeepsTokensUnique(db.users, FindUserByToken(db.users, cookie.value).value.id);
    }
  }

  /** Registering keeps refresh tokens unique when the signer mints fresh
      tokens. */
  lemma RegisterKeepsTokensUnique(db: Db, valid: bool, name: string, email: string, password: string,
                                  upload: Option<string>, now: Time, mint: (Id, Time) -> string)
    requires TokensUnique(db.users) && MintsFresh(db.users, mint, now)
    ensures TokensUnique(Register(db, valid, name, email, password, upload, now, mint).db.users)
  {
    var rg := Register(db, valid, name, email, password, upload, now, mint);
    if rg.reply.code == Created {
      var r := rg.db.users;
      forall i, j | 0 <= i < j < |r| && r[i].refreshToken.Some?
        ensures r[i].refreshToken != r[j].refreshToken
      {
        assert r[i] == db.users[i];
        if j == |db.users| {
          assert r[j].refreshToken == Some(mint(db.nextId, now));
        } else {
          assert r[j] == db.users[j];
        }
      }
    }
  }

  /** Signing in keeps refresh tokens unique when the signer mints fresh
      tokens. */
  lemma LoginKeepsTokensUnique(db: Db, valid: bool, email: string, password: string, now: Time,
                               matches: (string, Option<string>) -> bool, mint: (Id, Time) -> string)
    requires Wf(db) && TokensUnique(db.users) && MintsFresh(db.users, mint, now)
    ensures TokensUnique(Login(db, valid, email, password, now, matches, mint).db.users)
  {
    if Succeeded(Login(db, valid, email, password, now, matches, mint).reply) {
      var u := FindUserByEmail(db.users, email).value;
      StartSessionKeepsTokensUnique(db, u.id, mint(u.id, now), now);
    }
  }

  /** Rotating a token keeps refresh tokens unique when the signer mints
      fresh tokens. */
  lemma RefreshKeepsTokensUnique(db: Db, cookie: Option<string>, now: Time,
                                 verify: string -> Option<Id>, mint: (Id, Time) -> string)
    requires Wf(db) && TokensUnique(db.users) && MintsFresh(db.users, mint, now)
    ensures TokensUnique(Refresh(db, cookie, now, verify, mint).db.users)
  {
    if Succeeded(Refresh(db, cookie, now, verify, mint).reply) {
      var id := verify(cookie.value).value;
      StartSessionKeepsTokensUnique(db, id, mint(id, now), now);
    }
  }

  /** `changePassword` for the signed-in user `id`. */
  function ChangePassword(db: Db, valid: bool, id: Id, current: string, next: string,
                          matches: (string, Option<string>) -> bool): (r: Outcome)
    ensures !valid ==> r == Outcome(Reply(BadRequest, "Validation errors"), None, db)
    ensures valid && FindUser(db.users, id).None? ==> r == Outcome(Reply(NotFound, "User not found"), None, db)
    ensures valid && FindUser(db.users, id).Some? && !matches(current, FindUser(db.users, id).value.password) ==>
      r == Outcome(Reply(BadRequest, "Current password is incorrect"), None, db)
    ensures Succeeded(r.reply) <==>
      valid && FindUser(db.users, id).Some? && matches(current, FindUser(db.users, id).value.password)
    ensures r.cookie.None?
    ensures Succeeded(r.reply) ==> r.db == db.(users := MapUser(db.users, id, NewPassword(next)))
  {
    if !valid then Outcome(Reply(BadRequest, "Validation errors"), None, db)
    else match FindUser(db.users, id)
    case None => Outcome(Reply(NotFound, "User not found"), None, db)
    case Some(u) =>
      if !matches(current, u.password) then Outcome(Reply(BadRequest, "Current password is incorrect"), None, db)
      else Outcome(Reply(Success, "Password changed successfully. Please login again."), None,
                   db.(users := MapUser(db.users, id, NewPassword(next))))
  }

  function NewPassword(next: string): User -> User {
    (u: User) => u.(password := Some(next), refreshToken := None)
  }

  /** A password change clears the account's token, which keeps refresh
      tokens unique. */
  lemma ChangePasswordKeepsTokensUnique(db: Db, valid: bool, id: Id, current: string, next: string,
                                        matches: (string, Option<string>) -> bool)
    requires TokensUnique(db.users)
    ensures TokensUnique(ChangePassword(db, valid, id, current, next, matches).db.users)
  {
    var c := ChangePassword(db, valid, id, current, next, matches);
    if Succeeded(c.reply) {
      var r := c.db.users;
      forall i, j | 0 <= i < j < |r| && r[i].refreshToken.Some?
        ensures r[i].refreshToken != r[j].refreshToken
      {
        assert r[i] == db.users[i];
        assert r[j].refreshToken == None || r[j] == db.users[j];
      }
    }
  }

  /** A password change signs the account out everywhere: no refresh
      token naming that account is accepted afterwards. */
  lemma RefreshFailsAfterChangePassword(db: Db, id: Id, current: string, next: string,
                                        matches: (string, Option<string>) -> bool,
                                        cookie: Option<string>, now: Time,
                                        verify: string -> Option<Id>, mint: (Id, Time) -> string)
    requires Succeeded(ChangePassword(db, true, id, current, next, matches).reply)
    requires Given(cookie) && verify(cookie.value) == Some(id)
    ensures !Succeeded(Refresh(ChangePassword(db, true, id, current, next, matches).db, cookie, now, verify, mint).reply)
  {
    FindUserAfterMap(db.users, id, NewPassword(next));
  }
}

=== FILE: auth_state.dfy ===
/** The client's authentication state: the reducer behind the auth
    context, and the login, register, logout and profile flows that
    dispatch to it. The server calls are outcomes given as parameters; the
    access token kept in local storage is part of the client state. */
module AuthState {
  import opened Wrappers

  /** The user is the profile object the server returned, kept opaque. */
  datatype State = State(
    isAuthenticated: bool,
    user: Option<string>,
    token: Option<string>,
    loading: bool,
    error: Option<string>)

  const Initial: State := State(false, None, None, false, None)

  datatype Action =
    | LoginStart
    | LoginSuccess(user: string, accessToken: string)
    | LoginFailure(message: string)
    | Logout
    | UpdateUser(profile: Option<string>)
    | ClearError
    | Unknown(name: string)

  /** `authReducer`. */
  function Reduce(s: State, a: Action): (r: State)
    ensures a.LoginStart? ==> r == s.(loading := true, error := None)
    ensures a.LoginSuccess? ==>
      && r.isAuthenticated && r.user == Some(a.user) && r.token == Some(a.accessToken)
      && !r.loading && r.error == s.error
    ensures a.LoginFailure? ==> r == State(false, None, None, false, Some(a.message))
    ensures a.Logout? ==> r == Initial
    ensures a.UpdateUser? ==> r == s.(user := a.profile)
    ensures a.ClearError? ==> r == s.(error := None)
    ensures a.Unknown? ==> r == s
  {
    match a
      case LoginStart => s.(loading := true, error := None)
      case LoginSuccess(user, accessToken) =>
        s.(loading := false, isAuthenticated := true, user := Some(user), token := Some(accessToken))
      case LoginFailure(message) =>
        s.(loading := false, error := Some(message), isAuthenticated := false, user := None, token := None)
      case Logout =>
        s.(isAuthenticated := false, user := None, token := None, loading := false, error := None)
      case UpdateUser(profile) => s.(user := profile)
      case ClearError => s.(error := None)
      case Unknown(_) => s
  }

  /** Signed in means holding a token. */
  predicate Consistent(s: State) { s.isAuthenticated ==> s.token.Some? }

  /** Every action keeps a signed-in state holding a token. */
  lemma ReducePreservesConsistent(s: State, a: Action)
    requires Consistent(s)
    ensures Consistent(Reduce(s, a))
  {
  }

  /** Clearing the error twice is clearing it once, and every action but
      `LoginStart` ends the loading state or leaves it as it was. */
  lemma ReduceLaws(s: State, a: Action)
    ensures Reduce(Reduce(s, ClearError), ClearError) == Reduce(s, ClearError)
    ensures !a.LoginStart? && !s.loading ==> !Reduce(s, a).loading
    ensures Reduce(s, Logout) == Reduce(Initial, Logout)
  {
  }

  /** The client: the reducer's state and the stored access token. */
  datatype Client = Client(state: State, storedToken: Option<string>)

  /** The server's answer to a login or registration. */
  datatype Session = Session(user: string, accessToken: string)

  /** `login` and `register`: start, then success or failure. A failure is
      rethrown; the flag says so. */
  function SignIn(c: Client, outcome: Result<Session, string>): (r: (Client, bool))
    ensures outcome.Ok? ==>
      && r.0.storedToken == Some(outcome.value.accessToken)
      && r.0.state.token == r.0.storedToken
      && r.0.state.isAuthenticated && r.0.state.error.None? && !r.1
    ensures outcome.Err? ==>
      && r.0.storedToken == c.storedToken
      && r.0.state == State(false, None, None, false, Some(outcome.error)) && r.1
  {
    var started := Reduce(c.state, LoginStart);
    match outcome
      case Ok(session) =>
        (Client(Reduce(started, LoginSuccess(session.user, session.accessToken)), Some(session.accessToken)), false)
      case Err(message) =>
        (Client(Reduce(started, LoginFailure(message)), c.storedToken), true)
  }

  /** `logout`: the server call may fail, but the stored token is removed
      and `LOGOUT` dispatched either way. */
  function SignOut(c: Client, serverFailed: bool): (r: Client)
    ensures r == Client(Initial, None)
  {
    Client(Reduce(c.state, Logout), None)
  }

  /** Signing out does not depend on the server's answer, and a failed
      sign-in followed by a sign-out is a sign-out. */
  lemma SignOutIgnoresServer(c: Client, failed: bool, message: string)
    ensures SignOut(c, failed) == SignOut(c, !failed)
    ensures SignOut(SignIn(c, Err(message)).0, failed) == SignOut(c, failed)
  {
  }

  /** The mount effect: with a stored token the profile is fetched; on
      failure the token is dropped and the state logged out. */
  function Initialize(c: Client, profile: Result<string, string>): (r: Client)
    ensures c.storedToken.None? ==> r == c
    ensures c.storedToken.Some? && profile.Ok? ==>
      r.state.isAuthenticated && r.state.token == c.storedToken && r.storedToken == c.storedToken
    ensures c.storedToken.Some? && profile.Err? ==> r == Client(Initial, None)
  {
    match c.storedToken
      case None => c
      case Some(token) =>
        match profile
          case Ok(user) => Client(Reduce(c.state, LoginSuccess(user, token)), c.storedToken)
          case Err(_) => Client(Reduce(c.state, Logout), None)
  }

  /** `updateProfile`: the returned user replaces the old one; a failure
      changes nothing. */
  function UpdateProfile(c: Client, outcome: Result<Option<string>, string>): (r: Client)
    ensures outcome.Ok? ==> r == c.(state := c.state.(user := outcome.value))
    ensures outcome.Err? ==> r == c
  {
    match outcome
      case Ok(user) => c.(state := Reduce(c.state, UpdateUser(user)))
      case Err(_) => c
  }

  /** Every flow keeps the reducer state consistent. */
  lemma FlowsPreserveConsistent(c: Client, session: Result<Session, string>, profile: Result<string, string>,
                                update: Result<Option<string>, string>, failed: bool)
    requires Consistent(c.state)
    ensures Consistent(SignIn(c, session).0.state)
    ensures Consistent(SignOut(c, failed).state)
    ensures Consistent(Initialize(c, profile).state)
    ensures Consistent(UpdateProfile(c, update).state)
  {
  }
}

=== FILE: chat_list.dfy ===
/** The chat hook's message list: loading history pages, optimistic
    sending, deleting, clearing. Messages are newest first. The server's
    answers are outcomes given as parameters, the clock gives the
    temporary id of an optimistic message and the time of each cache
    write, and the chat-history cache entry of the hook's user and website
    is part of the state. */
module ChatList {
  import opened Wrappers
  import Seqs
  import Text
  import Numbers
  import Storage

  datatype Message = Message(id: string, question: string, answer: string, optimistic: bool)

  /** The server's reply to a sent question. */
  datatype Reply = Reply(chatId: string, question: string, answer: string)

  /** A cache entry: when it was written and the messages it holds. */
  datatype Cached = Cached(timestamp: int, messages: seq<Message>)

  /** What the hook holds. `cached` is the history cached for this user and
      website. */
  datatype View = View(
    userId: Option<string>,
    websiteId: Option<string>,
    messages: seq<Message>,
    loading: bool,
    sending: bool,
    error: Option<string>,
    hasMore: bool,
    page: int,
    cached: Option<Cached>)

  /** The page size of history requests and of the cache. */
  const PageSize: nat := 20

  predicate Given(s: Option<string>) { s.Some? && s.value != [] }

  function Ids(ms: seq<Message>): set<string> { set i | 0 <= i < |ms| :: ms[i].id }

  // ----------------------------------------------------------- history

  /** The server's page of history: its chats and `pagination.hasNext`,
      either of which may be missing. */
  datatype Page = Page(chats: Option<seq<Message>>, hasNext: Option<bool>)

  /** `loadChatHistory`: replace or append a page; only a first page that
      replaces is cached. */
  function LoadChatHistory(v: View, pageNum: int, append: bool, now: int, outcome: Result<Page, string>): (r: View)
    ensures !(Given(v.userId) && Given(v.websiteId)) ==> r == v
    ensures Given(v.userId) && Given(v.websiteId) ==> !r.loading && r.sending == v.sending
    ensures Given(v.userId) && Given(v.websiteId) && outcome.Ok? ==>
      var loaded := outcome.value.chats.GetOr([]);
      && r.messages == (if append then v.messages + loaded else loaded)
      && r.error.None?
      && r.hasMore == (outcome.value.hasNext == Some(true))
      && r.page == pageNum
      && (r.cached != v.cached ==> !append && pageNum == 1 && r.cached == Some(Cached(now, loaded)))
      && (!append && pageNum == 1 ==> r.cached == Some(Cached(now, loaded)))
    ensures Given(v.userId) && Given(v.websiteId) && outcome.Err? ==>
      r == v.(loading := false, error := Some(outcome.error))
  {
    if !(Given(v.userId) && Given(v.websiteId)) then v
    else
      var started := v.(loading := true, error := None);
      match outcome
        case Err(message) => started.(error := Some(message), loading := false)
        case Ok(p) =>
          var loaded := p.chats.GetOr([]);
          var cached := if !append && pageNum == 1 then Some(Cached(now, loaded)) else started.cached;
          started.(messages := if append then v.messages + loaded else loaded,
                   cached := cached,
                   hasMore := p.hasNext == Some(true),
                   page := pageNum,
                   loading := false)
  }

  /** `loadMoreMessages`: the next page, appended, only when there is more
      and nothing is loading. */
  function LoadMore(v: View, now: int, outcome: Result<Page, string>): (r: View)
    ensures !v.hasMore || v.loading ==> r == v
    ensures v.hasMore && !v.loading ==> r == LoadChatHistory(v, v.page + 1, true, now, outcome)
  {
    if v.hasMore && !v.loading then LoadChatHistory(v, v.page + 1, true, now, outcome) else v
  }

  /** Loading more keeps the messages already shown as a prefix and never
      touches the cache. */
  lemma LoadMoreKeepsPrefix(v: View, now: int, outcome: Result<Page, string>)
    ensures var r := LoadMore(v, now, outcome);
      && |v.messages| <= |r.messages| && r.messages[..|v.messages|] == v.messages
      && r.cached == v.cached
  {
    var r := LoadMore(v, now, outcome);
    if v.hasMore && !v.loading && Given(v.userId) && Given(v.websiteId) && outcome.Ok? {
      assert (v.messages + outcome.value.chats.GetOr([]))[..|v.messages|] == v.messages;
    }
  }

  // ------------------------------------------------------------ sending

  function ReplyMessage(reply: Reply): Message {
    Message(reply.chatId, reply.question, reply.answer, false)
  }

  /** `prev.map(...)`: the entry with the temporary id replaced by the
      server's reply. */
  function ReplaceId(ms: seq<Message>, tempId: string, reply: Reply): (r: seq<Message>)
    ensures |r| == |ms|
    ensures forall i :: 0 <= i < |ms| ==> r[i] == (if ms[i].id == tempId then ReplyMessage(reply) else ms[i])
  {
    if |ms| == 0 then []
    else [if ms[0].id == tempId then ReplyMessage(reply) else ms[0]] + ReplaceId(ms[1..], tempId, reply)
  }

  function NotId(id: string): Message -> bool { (m: Message) => m.id != id }

  /** `sendMessage`, from the optimistic insert to the outcome. The flag
      says the error is rethrown. The cache is written from the list as it
      was before the send. */
  function SendMessage(v: View, question: string, now: int, outcome: Result<Reply, string>): (r: (View, bool))
    ensures !(Given(v.userId) && Given(v.websiteId)) || Text.AllSpace(question) ==> r == (v, false)
    ensures Given(v.userId) && Given(v.websiteId) && !Text.AllSpace(question) ==>
      var tempId := Numbers.IntToString(now);
      var optimistic := Message(tempId, question, "", true);
      && !r.0.sending && r.0.loading == v.loading
      && (outcome.Ok? ==>
          && r.0.messages == ReplaceId([optimistic] + v.messages, tempId, outcome.value)
          && r.0.cached == Some(Cached(now, Seqs.Take(ReplaceId(v.messages, tempId, outcome.value), PageSize)))
          && r.0.error.None? && !r.1)
      && (outcome.Err? ==>
          && r.0.messages == Seqs.Filter([optimistic] + v.messages, NotId(tempId))
          && r.0.cached == v.cached
          && r.0.error == Some(outcome.error) && r.1)
  {
    Text.TrimEmptyIffAllSpace(question);
    if !(Given(v.userId) && Given(v.websiteId)) || Text.Trim(question) == [] then (v, false)
    else
      var tempId := Numbers.IntToString(now);
      var optimistic := Message(tempId, question, "", true);
      var started := v.(sending := true, error := None, messages := [optimistic] + v.messages);
      match outcome
        case Ok(reply) =>
          (started.(messages := ReplaceId(started.messages, tempId, reply),
                    cached := Some(Cached(now, Seqs.Take(ReplaceId(v.messages, tempId, reply), PageSize))),
                    sending := false), false)
        case Err(message) =>
          (started.(messages := Seqs.Filter(started.messages, NotId(tempId)),
                    error := Some(message),
                    sending := false), true)
  }

  /** With an unused temporary id, a successful send shows the reply in front
      of the old list, the cache keeps the old list's first page without
      the new message, and a failed send restores the old list. */
  lemma SendOutcomes(v: View, question: string, now: int, outcome: Result<Reply, string>)
    requires Given(v.userId) && Given(v.websiteId) && !Text.AllSpace(question)
    requires Numbers.IntToString(now) !in Ids(v.messages)
    ensures outcome.Ok? ==>
      && SendMessage(v, question, now, outcome).0.messages == [ReplyMessage(outcome.value)] + v.messages
      && SendMessage(v, question, now, outcome).0.cached == Some(Cached(now, Seqs.Take(v.messages, PageSize)))
    ensures outcome.Err? ==> SendMessage(v, question, now, outcome).0.messages == v.messages
  {
    var tempId := Numbers.IntToString(now);
    var optimistic := Message(tempId, question, "", true);
    assert forall i :: 0 <= i < |v.messages| ==> v.messages[i].id != tempId by {
      forall i | 0 <= i < |v.messages| ensures v.messages[i].id != tempId {
        assert v.messages[i].id in Ids(v.messages);
      }
    }
    match outcome {
      case Ok(reply) =>
        var all := ReplaceId([optimistic] + v.messages, tempId, reply);
        assert all == [ReplyMessage(reply)] + v.messages by {
          forall i | 0 <= i < |all| ensures all[i] == ([ReplyMessage(reply)] + v.messages)[i] {
            if i > 0 { assert ([optimistic] + v.messages)[i] == v.messages[i - 1]; }
          }
        }
        assert ReplaceId(v.messages, tempId, reply) == v.messages;
      case Err(_) =>
        assert ([optimistic] + v.messages)[1..] == v.messages;
        Seqs.FilterKeepsAll(v.messages, NotId(tempId));
    }
  }

  // ----------------------------------------------------------- deleting

  /** `deleteMessage`: on success every message with that id goes, from the
      list and from the cached first page; a failure is rethrown. */
  function DeleteMessage(v: View, chatId: string, now: int, outcome: Result<(), string>): (r: (View, bool))
    ensures !Given(v.userId) ==> r == (v, false)
    ensures Given(v.userId) && outcome.Ok? ==>
      && Seqs.IsSubsequence(r.0.messages, v.messages)
      && Seqs.KeptInOrder(r.0.messages, v.messages, NotId(chatId))
      && (forall m :: m in r.0.messages <==> m in v.messages && m.id != chatId)
      && (Given(v.websiteId) ==> r.0.cached == Some(Cached(now, Seqs.Take(r.0.messages, PageSize))))
      && (!Given(v.websiteId) ==> r.0.cached == v.cached)
      && r.0 == v.(messages := r.0.messages, cached := r.0.cached)
      && !r.1
    ensures Given(v.userId) && outcome.Err? ==> r == (v.(error := Some(outcome.error)), true)
  {
    if !Given(v.userId) then (v, false)
    else match outcome
      case Err(message) => (v.(error := Some(message)), true)
      case Ok(_) =>
        var kept := Seqs.Filter(v.messages, NotId(chatId));
        Seqs.FilterKeptInOrder(v.messages, NotId(chatId));
        // Without a website the cache write goes to another key.
        (v.(messages := kept, cached := if Given(v.websiteId) then Some(Cached(now, Seqs.Take(kept, PageSize))) else v.cached), false)
  }

  /** Deleting the same id twice is deleting it once. */
  lemma DeleteIdempotent(v: View, chatId: string, now: int)
    ensures var once := DeleteMessage(v, chatId, now, Ok(())).0;
      DeleteMessage(once, chatId, now, Ok(())).0 == once
  {
    var once := DeleteMessage(v, chatId, now, Ok(())).0;
    if Given(v.userId) {
      assert forall i :: 0 <= i < |once.messages| ==> NotId(chatId)(once.messages[i]);
      Seqs.FilterKeepsAll(once.messages, NotId(chatId));
    }
  }

  // ----------------------------------------------------------- clearing

  /** `clearMessages`: an empty list on page 1 and the cache entry gone. */
  function ClearMessages(v: View): (r: View)
    ensures r.messages == [] && r.page == 1 && r.hasMore
    ensures Given(v.userId) && Given(v.websiteId) ==> r.cached.None?
    ensures r.userId == v.userId && r.websiteId == v.websiteId && r.error == v.error
  {
    v.(messages := [], page := 1, hasMore := true,
       cached := if Given(v.userId) && Given(v.websiteId) then None else v.cached)
  }

  /** `refreshMessages`: cleared, then the first page loaded afresh. */
  function RefreshMessages(v: View, now: int, outcome: Result<Page, string>): (r: View)
    ensures Given(v.userId) && Given(v.websiteId) && outcome.Ok? ==>
      r.messages == outcome.value.chats.GetOr([]) && r.page == 1 && r.cached == Some(Cached(now, r.messages))
    ensures outcome.Err? ==> r.messages == []
  {
    LoadChatHistory(v.(messages := [], page := 1, hasMore := true), 1, false, now, outcome)
  }

  /** The cache entry `getChatHistory` would return at `now`: present and
      at most five minutes old. */
  predicate Fresh(c: Option<Cached>, now: int) {
    c.Some? && now - c.value.timestamp <= Storage.ChatHistoryMaxAge
  }

  /** On mount, a cached history at most five minutes old is shown as it is
      (even an empty one); a stale entry is removed on reading and, like a
      missing one, replaced by loading the first page. */
  function Mount(v: View, now: int, outcome: Result<Page, string>): (r: View)
    ensures !(Given(v.userId) && Given(v.websiteId)) ==> r == v
    ensures Given(v.userId) && Given(v.websiteId) && Fresh(v.cached, now) ==>
      r == v.(messages := v.cached.value.messages)
    ensures Given(v.userId) && Given(v.websiteId) && !Fresh(v.cached, now) && outcome.Ok? ==>
      && r.messages == outcome.value.chats.GetOr([]) && r.page == 1 && !r.loading && r.error.None?
      && r.cached == Some(Cached(now, r.messages))
    ensures Given(v.userId) && Given(v.websiteId) && !Fresh(v.cached, now) && outcome.Err? ==>
      r.messages == v.messages && r.error == Some(outcome.error) && r.cached.None?
  {
    if !(Given(v.userId) && Given(v.websiteId)) then v
    else if Fresh(v.cached, now) then v.(messages := v.cached.value.messages)
    else LoadChatHistory(v.(cached := None), 1, false, now, outcome)
  }

  /** The hook's cache entry agrees with local storage: with the entry
      stored under the chat key, `Fresh` is exactly when `getChatHistory`
      returns it, and a stale entry is gone from storage after the read. */
  lemma FreshIsStoredRead(st: Storage.LocalStorage, userId: string, websiteId: string,
                          c: Cached, encoded: string, now: int)
    requires Storage.ChatKey(userId, websiteId) in st
    requires st[Storage.ChatKey(userId, websiteId)] == Storage.Record(Some(c.timestamp), None, encoded)
    ensures var read := Storage.GetChatHistory(st, userId, websiteId, now, Storage.ChatHistoryMaxAge);
      && (read.value.Some? <==> Fresh(Some(c), now))
      && (!Fresh(Some(c), now) ==> Storage.ChatKey(userId, websiteId) !in read.store)
  {
  }
}

=== FILE: chats.dfy ===
/** The chat controller: answer a question about a website, list a user's
    history page by page, list the most recent chats, and delete a chat.
    The language model is the parameter `generate` and `elapsed` the time
    the answer took. A path or query id that is not a well-formed object
    id is `None`; the database refuses such an id with a server error. */
module Chats {
  import opened Wrappers
  import opened Models
  import opened Store
  import opened Http
  import Text
  import Numbers
  import Seqs
  import Constants
  import Validators
  import Pagination
  import Answering

  /** The reply, the saved record on success, and the store afterwards. */
  datatype Sent = Sent(reply: Reply, record: Option<ChatRecord>, db: Db)

  function Asked(now: Time): User -> User {
    (u: User) => u.(totalQueries := u.totalQueries + 1, lastActiveAt := Some(now))
  }

  function Unasked(): User -> User {
    (u: User) => u.(totalQueries := u.totalQueries - 1)
  }

  /** The answer `sendMessage` obtains: the question with the website's
      stored documents as context. */
  function AnswerFor(db: Db, q: Validators.SendRequest,
                     generate: (string, string) -> Result<string, string>, elapsed: nat): Answering.AiResult
  {
    Answering.GenerateResponse(q.question, Ok(DocumentsOf(db.documents, q.websiteId)), generate, elapsed)
  }

  /** `sendMessage`. The user and the website are checked before the model
      is asked; the record takes the default model name and the answer's
      score; the user's query count goes up by one. */
  function Send(db: Db, userId: Option<string>, websiteId: Option<string>, question: Option<string>,
                generate: (string, string) -> Result<string, string>, elapsed: nat, now: Time): (r: Sent)
    ensures Validators.ValidateSendMessage(userId, websiteId, question).Err? ==>
      r == Sent(Reply(BadRequest, "Validation errors"), None, db)
    ensures r.record.None? ==> r.db == db && !Succeeded(r.reply)
    ensures Validators.ValidateSendMessage(userId, websiteId, question).Ok? ==>
      var q := Validators.ValidateSendMessage(userId, websiteId, question).value;
      && (FindUser(db.users, q.userId).None? ==> r == Sent(Reply(NotFound, "User not found"), None, db))
      && (FindUser(db.users, q.userId).Some? &&
          (FindWebsite(db.websites, q.websiteId).None? || !FindWebsite(db.websites, q.websiteId).value.isActive) ==>
            r == Sent(Reply(NotFound, "Website not found or inactive"), None, db))
    ensures r.record.Some? <==> Succeeded(r.reply)
    ensures r.record.Some? ==>
      var q := Validators.ValidateSendMessage(userId, websiteId, question).value;
      var ai := AnswerFor(db, q, generate, elapsed);
      var c := r.record.value;
      && Validators.ValidateSendMessage(userId, websiteId, question).Ok?
      && FindUser(db.users, q.userId).Some?
      && FindWebsite(db.websites, q.websiteId).Some? && FindWebsite(db.websites, q.websiteId).value.isActive
      && c.id == db.nextId && c.userId == q.userId && c.websiteId == q.websiteId
      && c.question == q.question && c.answer == ai.answer
      && c.aiModel == Text.OrElse(ai.aiModel, Constants.DefaultModel)
      && c.relevanceScore == ai.relevanceScore && ScoreInRange(c.relevanceScore)
      && r.db == db.(chats := db.chats + [c], nextId := db.nextId + 1,
                     users := MapUser(db.users, q.userId, Asked(now)))
  {
    match Validators.ValidateSendMessage(userId, websiteId, question)
    case Err(_) => Sent(Reply(BadRequest, "Validation errors"), None, db)
    case Ok(q) =>
      if FindUser(db.users, q.userId).None? then Sent(Reply(NotFound, "User not found"), None, db)
      else if FindWebsite(db.websites, q.websiteId).None? || !FindWebsite(db.websites, q.websiteId).value.isActive then
        Sent(Reply(NotFound, "Website not found or inactive"), None, db)
      else
        var ai := AnswerFor(db, q, generate, elapsed);
        Text.TrimOfTrimmed(q.question);
        match NewChatRecord(db.nextId, q.userId, q.websiteId, q.question, ai.answer, ai.responseTime,
                            Text.OrElse(ai.aiModel, Constants.DefaultModel), ai.relevanceScore, now)
        case Err(_) => Sent(Reply(ServerError, "Failed to process message"), None, db)
        case Ok(c) =>
          Sent(Reply(Success, ""), Some(c),
               db.(chats := db.chats + [c], nextId := db.nextId + 1,
                   users := MapUser(db.users, q.userId, Asked(now))))
  }

  /** A missing user or an unknown or inactive website is refused before
      the model is asked: the outcome does not depend on the model. */
  lemma LookupsPrecedeModel(db: Db, userId: Option<string>, websiteId: Option<string>, question: Option<string>,
                            g1: (string, string) -> Result<string, string>,
                            g2: (string, string) -> Result<string, string>, elapsed: nat, now: Time)
    requires Validators.ValidateSendMessage(userId, websiteId, question).Ok?
    requires var q := Validators.ValidateSendMessage(userId, websiteId, question).value;
      FindUser(db.users, q.userId).None? || FindWebsite(db.websites, q.websiteId).None? ||
      !FindWebsite(db.websites, q.websiteId).value.isActive
    ensures Send(db, userId, websiteId, question, g1, elapsed, now) == Send(db, userId, websiteId, question, g2, elapsed, now)
    ensures Send(db, userId, websiteId, question, g1, elapsed, now).reply.code == NotFound
  {
  }

  /** A successful send keeps the store well formed and raises exactly
      the asking user's query count, by one. */
  lemma SendCountsQuery(db: Db, userId: Option<string>, websiteId: Option<string>, question: Option<string>,
                        generate: (string, string) -> Result<string, string>, elapsed: nat, now: Time)
    requires Wf(db)
    requires Send(db, userId, websiteId, question, generate, elapsed, now).record.Some?
    ensures var r := Send(db, userId, websiteId, question, generate, elapsed, now);
      var uid := r.record.value.userId;
      && Wf(r.db)
      && FindUser(r.db.users, uid).value.totalQueries == FindUser(db.users, uid).value.totalQueries + 1
      && forall k :: 0 <= k < |db.users| && db.users[k].id != uid ==> r.db.users[k] == db.users[k]
  {
    var r := Send(db, userId, websiteId, question, generate, elapsed, now);
    var c := r.record.value;
    var uid := c.userId;
    var db1 := db.(users := MapUser(db.users, uid, Asked(now)));
    assert r.db == db1.(chats := db1.chats + [c], nextId := db1.nextId + 1);
    MapUserPreservesWf(db, uid, Asked(now));
    InsertChatPreservesWf(db1, c);
    FindUserAfterMap(db.users, uid, Asked(now));
  }

  /** A model failure still produces a saved answer: the apology, with
      score zero, whatever the failure. */
  lemma ModelFailureIsAnswered(db: Db, userId: Option<string>, websiteId: Option<string>, question: Option<string>,
                               generate: (string, string) -> Result<string, string>, elapsed: nat, now: Time)
    requires forall ctx, q :: generate(ctx, q).Err?
    requires Validators.ValidateSendMessage(userId, websiteId, question).Ok?
    requires var q := Validators.ValidateSendMessage(userId, websiteId, question).value;
      && FindUser(db.users, q.userId).Some?
      && FindWebsite(db.websites, q.websiteId).Some? && FindWebsite(db.websites, q.websiteId).value.isActive
    ensures var r := Send(db, userId, websiteId, question, generate, elapsed, now);
      && r.record.Some?
      && r.record.value.answer in {Answering.ErrorAnswer, Answering.NoContentAnswer}
      && r.record.value.relevanceScore == 0.0
      && r.record.value.aiModel == Constants.DefaultModel
  {
    var q := Validators.ValidateSendMessage(userId, websiteId, question).value;
    Text.TrimOfTrimmed(q.question);
    var ai := AnswerFor(db, q, generate, elapsed);
    assert ai.answer in {Answering.ErrorAnswer, Answering.NoContentAnswer} && ai.relevanceScore == 0.0 && ai.aiModel.None?;
    assert Models.NewChatRecord(db.nextId, q.userId, q.websiteId, q.question, ai.answer, ai.responseTime,
                                Text.OrElse(ai.aiModel, Constants.DefaultModel), ai.relevanceScore, now).Ok?;
  }

  // ------------------------------------------------------------- history

  /** The history filter: the user's records, of one website when one is
      named. */
  function Mine(userId: Id, websiteId: Option<Id>): ChatRecord -> bool {
    (c: ChatRecord) => c.userId == userId && (websiteId.None? || c.websiteId == websiteId.value)
  }

  /** The records the history lists, newest first. */
  function HistoryOf(db: Db, userId: Id, websiteId: Option<Id>): (r: seq<ChatRecord>)
    ensures r == Seqs.Filter(Seqs.Reverse(db.chats), Mine(userId, websiteId))
    ensures Seqs.IsSubsequence(r, Seqs.Reverse(db.chats))
    ensures |r| == |Seqs.Filter(db.chats, Mine(userId, websiteId))|
    ensures forall c :: c in r <==> c in db.chats && Mine(userId, websiteId)(c)
  {
    Seqs.NewestFirst(db.chats, Mine(userId, websiteId));
    Seqs.Filter(Seqs.Reverse(db.chats), Mine(userId, websiteId))
  }

  /** `getChatHistory`: `page` and `limit` read with destructuring
      defaults 1 and 20; a website filter applies only when the query
      names one. */
  function History(db: Db, userId: Option<Id>, websiteId: Option<string>,
                   page: Option<string>, limit: Option<string>)
    : (r: Result<(seq<ChatRecord>, Pagination.Info), Reply>)
    ensures r.Err? <==>
      userId.None? || Pagination.FromQuery(page, limit, 20).None? ||
      (websiteId.Some? && websiteId.value != [] && Validators.ObjectId(websiteId.value).None?)
    ensures r.Ok? ==>
      var q := Pagination.FromQuery(page, limit, 20).value;
      var site := if websiteId.Some? && websiteId.value != [] then Validators.ObjectId(websiteId.value) else None;
      && r.value.0 == Pagination.PageOf(HistoryOf(db, userId.value, site), q)
      && r.value.1 == Pagination.Paginate(q, |HistoryOf(db, userId.value, site)|)
  {
    var site := if websiteId.Some? && websiteId.value != [] then Validators.ObjectId(websiteId.value) else None;
    if userId.None? || (websiteId.Some? && websiteId.value != [] && site.None?) then
      Err(Reply(ServerError, "Failed to get chat history"))
    else match Pagination.FromQuery(page, limit, 20)
    case None => Err(Reply(ServerError, "Failed to get chat history"))
    case Some(q) =>
      var all := HistoryOf(db, userId.value, site);
      Ok((Pagination.PageOf(all, q), Pagination.Paginate(q, |all|)))
  }

  /** Every record a history page shows belongs to the user, and to the
      named website when there is one. */
  lemma HistoryShowsOnlyOwnChats(db: Db, userId: Id, websiteId: Option<string>,
                                 page: Option<string>, limit: Option<string>)
    requires History(db, Some(userId), websiteId, page, limit).Ok?
    ensures var shown := History(db, Some(userId), websiteId, page, limit).value.0;
      forall i :: 0 <= i < |shown| ==>
        && shown[i] in db.chats && shown[i].userId == userId
        && (websiteId.Some? && websiteId.value != [] ==> Some(shown[i].websiteId) == Validators.ObjectId(websiteId.value))
  {
    var site := if websiteId.Some? && websiteId.value != [] then Validators.ObjectId(websiteId.value) else None;
    var q := Pagination.FromQuery(page, limit, 20).value;
    var all := HistoryOf(db, userId, site);
    assert History(db, Some(userId), websiteId, page, limit).value.0 == Pagination.PageOf(all, q);
    assert forall c :: c in all ==> c in db.chats && Mine(userId, site)(c);
  }

  /** `getRecentChats`: the user's newest chats, `limit` read with
      `parseInt(x) || 10`. The database takes a negative limit as its
      absolute value. */
  function Recent(db: Db, userId: Option<Id>, limit: Option<string>): (r: Result<seq<ChatRecord>, Reply>)
    ensures r.Err? <==> userId.None?
    ensures r.Ok? ==>
      var n := Numbers.OrDefault(if limit.None? then None else Numbers.ParseInt(limit.value), 10);
      var all := HistoryOf(db, userId.value, None);
      && |r.value| == Seqs.Min(if n < 0 then -n else n, |all|)
      && r.value == all[..|r.value|]
  {
    match userId
    case None => Err(Reply(ServerError, "Failed to get recent chats"))
    case Some(u) =>
      var n := Numbers.OrDefault(if limit.None? then None else Numbers.ParseInt(limit.value), 10);
      Ok(Seqs.Take(HistoryOf(db, u, None), if n < 0 then -n else n))
  }

  /** Without a limit, or with one that does not parse, at most ten chats
      come back. */
  lemma RecentDefaultsToTen(db: Db, userId: Id, limit: Option<string>)
    requires limit.None? || Numbers.ParseInt(limit.value).None?
    ensures |Recent(db, Some(userId), limit).value| == Seqs.Min(10, |HistoryOf(db, userId, None)|)
  {
  }

  // -------------------------------------------------------------- delete

  function OtherChat(id: Id): ChatRecord -> bool { (c: ChatRecord) => c.id != id }

  /** `deleteChat`: only the owner named in the body may delete a chat.
      The route's user-id rule records its errors but the handler never
      reads them, so the body's user id goes straight into the lookup: an
      id that does not cast (like a chat id that does not cast) makes the
      query throw, which is a 500; a missing one is stored as null, which
      matches no chat because every chat has an owner; a chat of another
      owner is a 404. None of these changes anything. */
  function Delete(db: Db, chatId: Option<Id>, userId: Option<string>): (r: (Reply, Db))
    ensures chatId.None? || (userId.Some? && Validators.ObjectId(userId.value).None?) ==>
      r == (Reply(ServerError, "Failed to delete chat"), db)
    ensures chatId.Some? && userId.None? ==> r == (Reply(NotFound, "Chat not found or unauthorized"), db)
    ensures chatId.Some? && userId.Some? && Validators.ObjectId(userId.value).Some? &&
            FindChat(db.chats, chatId.value, Validators.ObjectId(userId.value).value).None? ==>
      r == (Reply(NotFound, "Chat not found or unauthorized"), db)
    ensures Succeeded(r.0) <==>
      && chatId.Some? && userId.Some? && Validators.ObjectId(userId.value).Some?
      && FindChat(db.chats, chatId.value, Validators.ObjectId(userId.value).value).Some?
    ensures !Succeeded(r.0) ==> r.1 == db
    ensures Succeeded(r.0) ==>
      var uid := Validators.ObjectId(userId.value).value;
      && r.1.chats == Seqs.Filter(db.chats, OtherChat(chatId.value))
      && r.1.users == MapUser(db.users, uid, Unasked())
      && r.1.websites == db.websites && r.1.documents == db.documents
      && r.1.nextId == db.nextId
  {
    match chatId
    case None => (Reply(ServerError, "Failed to delete chat"), db)
    case Some(cid) =>
      match userId
      case None => (Reply(NotFound, "Chat not found or unauthorized"), db)
      case Some(u) =>
        match Validators.ObjectId(u)
        case None => (Reply(ServerError, "Failed to delete chat"), db)
        case Some(uid) =>
          if FindChat(db.chats, cid, uid).None? then (Reply(NotFound, "Chat not found or unauthorized"), db)
          else (Reply(Success, "Chat deleted successfully"),
                db.(chats := Seqs.Filter(db.chats, OtherChat(cid)), users := MapUser(db.users, uid, Unasked())))
  }

  /** A user id that the route's rule rejects is not answered with the
      rule's 400: it reaches the lookup, which fails to cast it. */
  lemma DeleteIgnoresRouteRule(db: Db, chatId: Id)
    ensures Validators.ValidateDeleteChat(Some("abc")).Err?
    ensures Delete(db, Some(chatId), Some("abc")) == (Reply(ServerError, "Failed to delete chat"), db)
    ensures Validators.ValidateDeleteChat(None).Err?
    ensures Delete(db, Some(chatId), None) == (Reply(NotFound, "Chat not found or unauthorized"), db)
  {
  }

  /** A chat of another user is never deleted. */
  lemma DeleteRespectsOwnership(db: Db, chatId: Id, userId: string, c: ChatRecord)
    requires c in db.chats && c.id == chatId && Validators.ObjectId(userId).Some?
    requires Wf(db)
    requires c.userId != Validators.ObjectId(userId).value
    ensures Delete(db, Some(chatId), Some(userId)) == (Reply(NotFound, "Chat not found or unauthorized"), db)
  {
    var i :| 0 <= i < |db.chats| && db.chats[i] == c;
    assert forall k :: 0 <= k < |db.chats| && db.chats[k].id == chatId ==> k == i;
  }

  /** Deleting the chat just sent restores the chat list and the user's
      query count. */
  lemma SendThenDelete(db: Db, userId: string, websiteId: Option<string>, question: Option<string>,
                       generate: (string, string) -> Result<string, string>, elapsed: nat, now: Time)
    requires Wf(db)
    requires Send(db, Some(userId), websiteId, question, generate, elapsed, now).record.Some?
    ensures var s := Send(db, Some(userId), websiteId, question, generate, elapsed, now);
      var d := Delete(s.db, Some(s.record.value.id), Some(userId));
      var uid := s.record.value.userId;
      && Succeeded(d.0)
      && d.1.chats == db.chats
      && FindUser(d.1.users, uid).value.totalQueries == FindUser(db.users, uid).value.totalQueries
  {
    var s := Send(db, Some(userId), websiteId, question, generate, elapsed, now);
    var c := s.record.value;
    var uid := c.userId;
    assert Validators.ObjectId(userId).value == uid;
    FindChatPresent(s.db.chats, c);
    Seqs.FilterAppend(db.chats, [c], OtherChat(c.id));
    assert Seqs.Filter([c], OtherChat(c.id)) == [];
    Seqs.FilterKeepsAll(db.chats, OtherChat(c.id));
    MapUserPreservesWf(db, uid, Asked(now));
    FindUserAfterMap(db.users, uid, Asked(now));
    FindUserAfterMap(s.db.users, uid, Unasked());
  }

  lemma {:induction false} FindChatPresent(cs: seq<ChatRecord>, c: ChatRecord)
    requires c in cs
    ensures FindChat(cs, c.id, c.userId).Some?
    decreases |cs|
  {
    if cs[0] != c {
      FindChatPresent(cs[1..], c);
    }
  }
}

=== FILE: constants.dfy ===
/** Shared enumerations and limits: the crawl-status enum that server and
    client both spell out, the status colour table, the upload limits and
    the length bounds that forms and request validators agree on. */
module Constants {
  import opened Wrappers

  /** The four crawl states of a website. */
  datatype CrawlStatus = Pending | Crawling | Completed | Failed

  /** The wire name of a status. */
  function StatusName(s: CrawlStatus): string {
    match s
    case Pending => "pending"
    case Crawling => "crawling"
    case Completed => "completed"
    case Failed => "failed"
  }

  /** Reads a status from its wire name; any other text is not a status. */
  function ParseStatus(t: string): Option<CrawlStatus> {
    if t == "pending" then Some(Pending)
    else if t == "crawling" then Some(Crawling)
    else if t == "completed" then Some(Completed)
    else if t == "failed" then Some(Failed)
    else None
  }

  /** Names and statuses are in one-to-one correspondence: parsing inverts
      naming, and only the four names parse. */
  lemma ParseStatusName(s: CrawlStatus, t: string)
    ensures ParseStatus(StatusName(s)) == Some(s)
    ensures ParseStatus(t) == Some(s) <==> t == StatusName(s)
  {
  }

  const DefaultColour: string := "bg-gray-100 text-gray-800"

  /** `CRAWL_STATUS_COLORS[status] || 'bg-gray-100 text-gray-800'`. */
  function StatusColour(name: string): (r: string)
    ensures r == DefaultColour <==> ParseStatus(name).None?
  {
    match ParseStatus(name)
    case Some(Pending) => "bg-yellow-100 text-yellow-800"
    case Some(Crawling) => "bg-blue-100 text-blue-800"
    case Some(Completed) => "bg-green-100 text-green-800"
    case Some(Failed) => "bg-red-100 text-red-800"
    case None => DefaultColour
  }

  /** Every status has its own entry in the colour table, distinct from the
      others and from the fallback used for unknown names. */
  lemma StatusColoursDistinct(s: CrawlStatus, t: CrawlStatus, other: string)
    ensures StatusColour(StatusName(s)) != DefaultColour
    ensures s != t ==> StatusColour(StatusName(s)) != StatusColour(StatusName(t))
    ensures ParseStatus(other).None? ==> StatusColour(other) == DefaultColour
  {
  }

  // Length bounds shared by forms and request validators.
  const QuestionMinLength: nat := 1
  const QuestionMaxLength: nat := 1000
  const NameMinLength: nat := 2
  const NameMaxLength: nat := 100
  const WebsiteNameMinLength: nat := 1
  const WebsiteNameMaxLength: nat := 200
  const DescriptionMaxLength: nat := 500
  const MinCrawlDepth: int := 1
  const MaxCrawlDepth: int := 3

  /** Profile images: at most 5 MiB, four image types. */
  const UploadMaxSize: nat := 5 * 1024 * 1024
  const AllowedImageTypes: seq<string> := ["image/jpeg", "image/png", "image/gif", "image/webp"]

  // Client-side storage keys.
  const UserIdKey: string := "userId"
  const UserDataKey: string := "userData"
  const SelectedWebsiteKey: string := "selectedWebsite"
  const ChatHistoryKey: string := "chatHistory"

  /** The model name recorded with each answer. */
  const DefaultModel: string := "gemini-2.0-flash"
}

=== FILE: crawl_control.dfy ===
/** The crawler controller: the HTTP handlers that start, inspect, restart
    and stop crawls. A website identifier that is not a well-formed object
    id is `None`: the request validator rejects it where there is one, and
    elsewhere the lookup throws a cast error that the handler turns into a
    500. Crawls are started without being awaited; here a started crawl
    runs to completion before the next request, so the state after a
    handler is the state after its crawl. */
module CrawlerControl {
  import opened Wrappers
  import opened Constants
  import opened Models
  import opened Store
  import opened Http
  import Crawler
  import Extraction

  /** A handler's reply, the status it reports, and the service afterwards. */
  datatype Outcome = Outcome(reply: Reply, reported: Option<CrawlStatus>, after: Crawler.Service)

  /** The guard shared by start and restart: the website exists and is not
      being crawled. */
  predicate CanStart(db: Db, id: Id) {
    FindWebsite(db.websites, id).Some? && FindWebsite(db.websites, id).value.crawlStatus != Crawling
  }

  /** `crawlWebsite` (the handler). */
  function StartCrawl(s: Crawler.Service, websiteId: Option<Id>, now: Time,
                      fetch: string -> Option<Extraction.Page>,
                      resolve: (string, string) -> Option<string>): (o: Outcome)
    ensures websiteId.None? ==> o == Outcome(Reply(BadRequest, "Validation errors"), None, s)
    ensures websiteId.Some? && FindWebsite(s.db.websites, websiteId.value).None? ==>
      o == Outcome(Reply(NotFound, "Website not found"), None, s)
    ensures websiteId.Some? && FindWebsite(s.db.websites, websiteId.value).Some?
            && !CanStart(s.db, websiteId.value) ==>
      o == Outcome(Reply(BadRequest, "Website is already being crawled"), None, s)
    ensures Succeeded(o.reply) <==> websiteId.Some? && CanStart(s.db, websiteId.value)
    ensures Succeeded(o.reply) ==>
      && o.reply == Reply(Success, "Crawling started successfully")
      && o.reported == Some(Crawling)
      && o.after == Crawler.Crawl(s, websiteId.value, now, fetch, resolve).after
  {
    match websiteId
    case None => Outcome(Reply(BadRequest, "Validation errors"), None, s)
    case Some(id) =>
      match FindWebsite(s.db.websites, id)
      case None => Outcome(Reply(NotFound, "Website not found"), None, s)
      case Some(w) =>
        if w.crawlStatus == Crawling then
          Outcome(Reply(BadRequest, "Website is already being crawled"), None, s)
        else
          Outcome(Reply(Success, "Crawling started successfully"), Some(Crawling),
                  Crawler.Crawl(s, id, now, fetch, resolve).after)
  }

  /** What `getCrawlStatus` reports. */
  datatype StatusView = StatusView(status: CrawlStatus, lastCrawled: Option<Time>, totalPages: int)

  /** `getCrawlStatus`. */
  function GetCrawlStatus(db: Db, websiteId: Option<Id>): (r: Result<StatusView, Reply>)
    ensures websiteId.None? ==> r == Err(Reply(ServerError, "Failed to get crawl status"))
    ensures websiteId.Some? ==>
      (r.Ok? <==> FindWebsite(db.websites, websiteId.value).Some?)
    ensures websiteId.Some? && r.Err? ==> r.error == Reply(NotFound, "Website not found")
    ensures r.Ok? ==>
      (exists i :: 0 <= i < |db.websites| && db.websites[i].id == websiteId.value &&
         r.value == StatusView(db.websites[i].crawlStatus, db.websites[i].lastCrawled, db.websites[i].totalPages))
  {
    match websiteId
    case None => Err(Reply(ServerError, "Failed to get crawl status"))
    case Some(id) =>
      match FindWebsite(db.websites, id)
      case None => Err(Reply(NotFound, "Website not found"))
      case Some(w) => Ok(StatusView(w.crawlStatus, w.lastCrawled, w.totalPages))
  }

  /** Once a started crawl has run, the status endpoint reports it settled:
      completed with one page when it succeeded, failed otherwise, and
      crawled at the time it started. */
  lemma StatusAfterStart(s: Crawler.Service, id: Id, now: Time,
                         fetch: string -> Option<Extraction.Page>,
                         resolve: (string, string) -> Option<string>)
    requires CanStart(s.db, id)
    ensures var run := Crawler.Crawl(s, id, now, fetch, resolve);
      var o := StartCrawl(s, Some(id), now, fetch, resolve);
      var v := GetCrawlStatus(o.after.db, Some(id));
      && v.Ok?
      && v.value.status == (if run.result.Ok? then Completed else Failed)
      && v.value.lastCrawled == Some(now)
      && (run.result.Ok? ==> v.value.totalPages == 1)
  {
    Crawler.CrawlSettlesStatus(s, id, now, fetch, resolve);
  }

  /** `recrawlWebsite` as written: the handler deletes the old documents
      through a model it never imports, so once both guards pass the call
      throws a reference error, the reply is a 500 and nothing has been
      reset or crawled. */
  function RecrawlAsWritten(s: Crawler.Service, websiteId: Option<Id>): (o: Outcome)
    ensures o.after == s
    ensures !Succeeded(o.reply)
  {
    match websiteId
    case None => Outcome(Reply(ServerError, "Failed to start re-crawling"), None, s)
    case Some(id) =>
      match FindWebsite(s.db.websites, id)
      case None => Outcome(Reply(NotFound, "Website not found"), None, s)
      case Some(w) =>
        if w.crawlStatus == Crawling then
          Outcome(Reply(BadRequest, "Website is already being crawled"), None, s)
        else
          Outcome(Reply(ServerError, "Failed to start re-crawling"), None, s)
  }

  /** The discrepancy: on every website the guards let through, the
      handler as written answers 500 and leaves old documents and status in
      place, where the corrected handler restarts the crawl. */
  lemma RecrawlAsWrittenNeverStarts(s: Crawler.Service, id: Id, now: Time,
                                    fetch: string -> Option<Extraction.Page>,
                                    resolve: (string, string) -> Option<string>)
    requires CanStart(s.db, id)
    ensures RecrawlAsWritten(s, Some(id)).reply.code == ServerError
    ensures RecrawlAsWritten(s, Some(id)).after == s
    ensures Recrawl(s, Some(id), now, fetch, resolve).reply == Reply(Success, "Re-crawling started successfully")
  {
  }

  function ResetForRecrawl(): Website -> Website {
    (w: Website) => w.(crawlStatus := Pending, totalPages := 0)
  }

  /** The store a recrawl crawls from: the website's documents deleted and
      the website reset to pending with no pages. */
  function Reset(db: Db, id: Id): (r: Db)
    ensures DocumentsOf(r.documents, id) == []
    ensures |r.websites| == |db.websites|
    ensures forall i :: 0 <= i < |db.websites| ==>
      r.websites[i] == if db.websites[i].id == id then db.websites[i].(crawlStatus := Pending, totalPages := 0)
                       else db.websites[i]
  {
    DocumentsOfAfterRemove(db.documents, id);
    var db1 := db.(documents := RemoveDocumentsOf(db.documents, id));
    db1.(websites := MapWebsite(db1.websites, id, ResetForRecrawl()))
  }

  lemma ResetPreservesWf(db: Db, id: Id)
    requires Wf(db)
    ensures Wf(Reset(db, id))
  {
    RemoveDocumentsPreservesWf(db, id);
    var db1 := db.(documents := RemoveDocumentsOf(db.documents, id));
    MapWebsitePreservesWf(db1, id, ResetForRecrawl());
  }

  /** `recrawlWebsite` as evidently intended: the same guards, then delete
      the website's documents, reset it to pending with no pages, and crawl. */
  function Recrawl(s: Crawler.Service, websiteId: Option<Id>, now: Time,
                   fetch: string -> Option<Extraction.Page>,
                   resolve: (string, string) -> Option<string>): (o: Outcome)
    ensures Succeeded(o.reply) <==> websiteId.Some? && CanStart(s.db, websiteId.value)
    ensures !Succeeded(o.reply) ==> o.after == s
    ensures Succeeded(o.reply) ==>
      && o.reply == Reply(Success, "Re-crawling started successfully")
      && o.reported == Some(Crawling)
      && o.after == Crawler.Crawl(Crawler.Service(Reset(s.db, websiteId.value), s.browser),
                                  websiteId.value, now, fetch, resolve).after
  {
    match websiteId
    case None => Outcome(Reply(ServerError, "Failed to start re-crawling"), None, s)
    case Some(id) =>
      match FindWebsite(s.db.websites, id)
      case None => Outcome(Reply(NotFound, "Website not found"), None, s)
      case Some(w) =>
        if w.crawlStatus == Crawling then
          Outcome(Reply(BadRequest, "Website is already being crawled"), None, s)
        else
          Outcome(Reply(Success, "Re-crawling started successfully"), Some(Crawling),
                  Crawler.Crawl(Crawler.Service(Reset(s.db, id), s.browser), id, now, fetch, resolve).after)
  }

  /** After a restart the website holds only what the new crawl saved: one
      document when it succeeded, none when it failed. The store stays well
      formed. */
  lemma RecrawlReplacesDocuments(s: Crawler.Service, id: Id, now: Time,
                                 fetch: string -> Option<Extraction.Page>,
                                 resolve: (string, string) -> Option<string>)
    requires Wf(s.db) && CanStart(s.db, id)
    ensures var o := Recrawl(s, Some(id), now, fetch, resolve);
      var run := Crawler.Crawl(Crawler.Service(Reset(s.db, id), s.browser), id, now, fetch, resolve);
      && Wf(o.after.db)
      && |DocumentsOf(o.after.db.documents, id)| == (if run.result.Ok? then 1 else 0)
  {
    var s1 := Crawler.Service(Reset(s.db, id), s.browser);
    var run := Crawler.Crawl(s1, id, now, fetch, resolve);
    ResetPreservesWf(s.db, id);
    Crawler.CrawlPreservesWf(s1, id, now, fetch, resolve);
    assert FindWebsite(s1.db.websites, id).Some? by {
      var w := FindWebsite(s.db.websites, id).value;
      var k :| 0 <= k < |s.db.websites| && s.db.websites[k] == w;
      assert s1.db.websites[k].id == id;
    }
    var w1 := FindWebsite(s1.db.websites, id).value;
    if run.result.Ok? {
      var d := Crawler.Harvest(w1.url, id, s1.db.nextId, now, fetch, resolve).value;
      DocumentsOfAppend(s1.db.documents, d);
    }
  }

  /** `stopCrawling`: the status becomes failed without checking that the
      website exists or that a crawl is running, and nothing is cancelled. */
  function Stop(s: Crawler.Service, websiteId: Option<Id>): (o: Outcome)
    ensures websiteId.None? ==> o == Outcome(Reply(ServerError, "Failed to stop crawling"), None, s)
    ensures websiteId.Some? ==>
      && o.reply == Reply(Success, "Crawling stopped")
      && o.reported == Some(Failed)
      && o.after.browser == s.browser
      && o.after.db.documents == s.db.documents && o.after.db.users == s.db.users
      && o.after.db.chats == s.db.chats && o.after.db.nextId == s.db.nextId
      && |o.after.db.websites| == |s.db.websites|
      && forall i :: 0 <= i < |s.db.websites| ==>
           o.after.db.websites[i] ==
             if s.db.websites[i].id == websiteId.value then s.db.websites[i].(crawlStatus := Failed)
             else s.db.websites[i]
  {
    match websiteId
    case None => Outcome(Reply(ServerError, "Failed to stop crawling"), None, s)
    case Some(id) =>
      Outcome(Reply(Success, "Crawling stopped"), Some(Failed),
              s.(db := s.db.(websites := MapWebsite(s.db.websites, id, Crawler.Fail()))))
  }

  /** Stopping an unknown website still succeeds and changes nothing, and
      a stopped website can be started again. */
  lemma StopWithoutCheck(s: Crawler.Service, id: Id)
    ensures FindWebsite(s.db.websites, id).None? ==>
      Stop(s, Some(id)) == Outcome(Reply(Success, "Crawling stopped"), Some(Failed), s)
    ensures FindWebsite(s.db.websites, id).Some? ==> CanStart(Stop(s, Some(id)).after.db, id)
  {
    if FindWebsite(s.db.websites, id).None? {
      MapWebsiteMissing(s.db.websites, id, Crawler.Fail());
    } else {
      FindAfterMap(s.db.websites, id, Crawler.Fail());
    }
  }
}

=== FILE: crawling.dfy ===
/** The crawler service's `crawlWebsite`: mark the website as crawling,
    fetch its page, extract and save one document, and settle the status as
    completed or failed. Navigation and reading the page are one parameter
    (`fetch`, `None` when either throws); URL resolution is another. The
    browser the service keeps between calls is a field of its state. */
module Crawler {
  import opened Wrappers
  import opened Constants
  import opened Models
  import opened Store
  import Extraction
  import Text
  import Seqs

  /** The service object: the database it writes and its browser handle. */
  datatype Service = Service(db: Db, browser: Option<nat>)

  /** What a successful crawl returns. */
  datatype Report = Report(contentId: Id, wordCount: nat)

  /** One crawl: the service afterwards, the result or the rethrown error,
      and the statuses written to the website, in order. */
  datatype Run = Run(after: Service, result: Result<Report, string>, statusWrites: seq<CrawlStatus>)

  /** The fields `crawlWebsite` extracts from a page before saving it. */
  datatype Extracted = Extracted(title: string, content: string, images: seq<string>,
                                 links: seq<string>, metadata: Metadata, wordCount: nat)

  /** Extraction of every field; it fails when a URL cannot be resolved. */
  function Extract(page: Extraction.Page, url: string,
                   resolve: (string, string) -> Option<string>): (r: Option<Extracted>)
    ensures r.Some? <==>
      Extraction.ExtractImages(page, url, resolve).Some? && Extraction.ExtractLinks(page, url, resolve).Some?
    ensures r.Some? ==>
      && r.value.title == Extraction.Title(page)
      && r.value.content == Extraction.ExtractText(page)
      && r.value.images == Extraction.ExtractImages(page, url, resolve).value
      && r.value.links == Extraction.ExtractLinks(page, url, resolve).value
      && r.value.metadata == Extraction.ExtractMetadata(page)
      && r.value.wordCount == Extraction.WordCount(r.value.content)
  {
    match Extraction.ExtractImages(page, url, resolve)
    case None => None
    case Some(images) =>
      match Extraction.ExtractLinks(page, url, resolve)
      case None => None
      case Some(links) =>
        var content := Extraction.ExtractText(page);
        Some(Extracted(Extraction.Title(page), content, images, links,
                       Extraction.ExtractMetadata(page), Extraction.WordCount(content)))
  }

  /** The extracted title is already trimmed, so the schema's trimming
      setter leaves it as it is. */
  lemma TitleIsTrimmed(page: Extraction.Page)
    ensures Text.Trim(Extraction.Title(page)) == Extraction.Title(page)
  {
    Text.TrimOfTrimmed(Extraction.Title(page));
  }

  /** The fetch-and-extract part: everything that can fail after the status
      has been set to crawling. */
  function Harvest(url: string, websiteId: Id, id: Id, now: Time,
                   fetch: string -> Option<Extraction.Page>,
                   resolve: (string, string) -> Option<string>): (r: Result<Document, string>)
    ensures r.Ok? <==>
      url != [] && fetch(url).Some? && Extract(fetch(url).value, url, resolve).Some?
      && Extract(fetch(url).value, url, resolve).value.content != []
    ensures r.Ok? ==> var e := Extract(fetch(url).value, url, resolve).value; var d := r.value;
      && d.id == id && d.websiteId == websiteId && d.url == url
      && d.title == e.title && d.content == e.content && d.images == e.images
      && d.links == e.links && d.metadata == e.metadata && d.wordCount == e.wordCount
  {
    match fetch(url)
    case None => Err("Failed to navigate to " + url)
    case Some(page) =>
      match Extract(page, url, resolve)
      case None => Err("Invalid URL")
      case Some(e) =>
        TitleIsTrimmed(page);
        NewDocument(id, websiteId, url, e.title, e.content, e.images, e.links,
                    e.metadata, e.wordCount, now)
  }

  function Begin(now: Time): Website -> Website {
    (w: Website) => w.(crawlStatus := Crawling, lastCrawled := Some(now))
  }

  function Complete(): Website -> Website {
    (w: Website) => w.(crawlStatus := Completed, totalPages := 1)
  }

  function Fail(): Website -> Website {
    (w: Website) => w.(crawlStatus := Failed)
  }

  /** The stored website once a crawl has finished: crawled at `now`,
      completed with one page or failed with its page count untouched. */
  function Settled(w: Website, now: Time, ok: bool): Website {
    w.(crawlStatus := if ok then Completed else Failed,
       lastCrawled := Some(now),
       totalPages := if ok then 1 else w.totalPages)
  }

  /** `crawlWebsite`. */
  function Crawl(s: Service, websiteId: Id, now: Time,
                 fetch: string -> Option<Extraction.Page>,
                 resolve: (string, string) -> Option<string>): (r: Run)
    ensures r.after.browser.None?
    ensures FindWebsite(s.db.websites, websiteId).None? ==>
      r.after.db == s.db && r.result == Err("Website not found") && r.statusWrites == []
    ensures FindWebsite(s.db.websites, websiteId).Some? ==>
      var w := FindWebsite(s.db.websites, websiteId).value;
      var ok := r.result.Ok?;
      && (ok <==> Harvest(w.url, websiteId, s.db.nextId, now, fetch, resolve).Ok?)
      && r.statusWrites == [Crawling, if ok then Completed else Failed]
      && r.after.db.users == s.db.users && r.after.db.chats == s.db.chats
      && r.after.db.websites == SettleWebsite(s.db.websites, websiteId, now, ok)
      && (!ok ==> r.after.db.documents == s.db.documents && r.after.db.nextId == s.db.nextId)
      && (ok ==> var d := Harvest(w.url, websiteId, s.db.nextId, now, fetch, resolve).value;
            && r.after.db.documents == s.db.documents + [d]
            && r.after.db.nextId == s.db.nextId + 1
            && r.result.value == Report(d.id, d.wordCount))
  {
    match FindWebsite(s.db.websites, websiteId)
    case None => Run(Service(s.db, None), Err("Website not found"), [])
    case Some(w) =>
      var db1 := s.db.(websites := MapWebsite(s.db.websites, websiteId, Begin(now)));
      match Harvest(w.url, websiteId, db1.nextId, now, fetch, resolve)
      case Err(e) =>
        TwoMapsSettle(s.db.websites, websiteId, now, false);
        var db2 := db1.(websites := MapWebsite(db1.websites, websiteId, Fail()));
        Run(Service(db2, None), Err(e), [Crawling, Failed])
      case Ok(d) =>
        TwoMapsSettle(s.db.websites, websiteId, now, true);
        var db2 := db1.(documents := db1.documents + [d], nextId := db1.nextId + 1,
                        websites := MapWebsite(db1.websites, websiteId, Complete()));
        Run(Service(db2, None), Ok(Report(d.id, d.wordCount as nat)), [Crawling, Completed])
  }

  /** The website list once the crawl of `id` has settled: that website
      settled, every other one as it was. */
  function SettleWebsite(ws: seq<Website>, id: Id, now: Time, ok: bool): (r: seq<Website>)
    ensures |r| == |ws|
    ensures forall i :: 0 <= i < |ws| ==> r[i] == if ws[i].id == id then Settled(ws[i], now, ok) else ws[i]
  {
    seq(|ws|, i requires 0 <= i < |ws| => if ws[i].id == id then Settled(ws[i], now, ok) else ws[i])
  }

  /** Marking a website as crawling and then settling it is one settling
      update. */
  lemma TwoMapsSettle(ws: seq<Website>, id: Id, now: Time, ok: bool)
    ensures MapWebsite(MapWebsite(ws, id, Begin(now)), id, if ok then Complete() else Fail())
      == SettleWebsite(ws, id, now, ok)
  {
  }

  /** A crawl keeps the store well formed: the new document takes a fresh
      identifier and the status updates touch neither ids nor URLs. */
  lemma CrawlPreservesWf(s: Service, websiteId: Id, now: Time,
                         fetch: string -> Option<Extraction.Page>,
                         resolve: (string, string) -> Option<string>)
    requires Wf(s.db)
    ensures Wf(Crawl(s, websiteId, now, fetch, resolve).after.db)
  {
    var r := Crawl(s, websiteId, now, fetch, resolve);
    if FindWebsite(s.db.websites, websiteId).Some? {
      var w := FindWebsite(s.db.websites, websiteId).value;
      var ok := r.result.Ok?;
      var h := Harvest(w.url, websiteId, s.db.nextId, now, fetch, resolve);
      var base := if ok then s.db.(documents := s.db.documents + [h.value], nextId := s.db.nextId + 1) else s.db;
      if ok {
        InsertDocumentPreservesWf(s.db, h.value);
      }
      SettlePreservesWf(base, websiteId, now, ok);
      assert r.after.db == base.(websites := SettleWebsite(base.websites, websiteId, now, ok));
    }
  }

  /** Settling a website keeps identifiers and URLs, so the store stays
      well formed. */
  lemma SettlePreservesWf(db: Db, id: Id, now: Time, ok: bool)
    requires Wf(db)
    ensures Wf(db.(websites := SettleWebsite(db.websites, id, now, ok)))
  {
  }

  /** After a crawl of an existing website, looking it up shows the settled
      record: completed exactly when the crawl succeeded, failed otherwise. */
  lemma CrawlSettlesStatus(s: Service, websiteId: Id, now: Time,
                           fetch: string -> Option<Extraction.Page>,
                           resolve: (string, string) -> Option<string>)
    requires FindWebsite(s.db.websites, websiteId).Some?
    ensures var r := Crawl(s, websiteId, now, fetch, resolve);
      FindWebsite(r.after.db.websites, websiteId) ==
        Some(Settled(FindWebsite(s.db.websites, websiteId).value, now, r.result.Ok?))
  {
    var r := Crawl(s, websiteId, now, fetch, resolve);
    var w := FindWebsite(s.db.websites, websiteId).value;
    var upd := (x: Website) => Settled(x, now, r.result.Ok?);
    assert r.after.db.websites == MapWebsite(s.db.websites, websiteId, upd);
    FindAfterMap(s.db.websites, websiteId, upd);
  }

  /** A page without any non-blank text yields empty content, which the
      schema refuses: the crawl fails. */
  lemma BlankPageFails(s: Service, websiteId: Id, now: Time,
                       fetch: string -> Option<Extraction.Page>,
                       resolve: (string, string) -> Option<string>)
    requires FindWebsite(s.db.websites, websiteId).Some?
    requires var url := FindWebsite(s.db.websites, websiteId).value.url;
      && fetch(url).Some?
      && Text.AllSpace(Extraction.Gathered(Seqs.Filter(fetch(url).value.elements, Extraction.IsTextElement)))
      && Text.AllSpace(fetch(url).value.bodyText)
    ensures Crawl(s, websiteId, now, fetch, resolve).result.Err?
    ensures Crawl(s, websiteId, now, fetch, resolve).statusWrites == [Crawling, Failed]
  {
    var url := FindWebsite(s.db.websites, websiteId).value.url;
    Extraction.ExtractTextEmpty(fetch(url).value);
  }
}

=== FILE: extraction.dfy ===
/** What the crawler extracts from a fetched page. The parsed page is given
    as the list of its elements in document order. Each element records its
    tag, its text, its `src` and `href` attributes, and whether it lies
    inside a `script`, `style`, `nav`, `header`, `footer` or `aside` subtree.
    Those subtrees are removed before anything is read, so images and links
    inside them are not seen either. URL resolution (`new URL(href, base)`)
    is a parameter: `None` is the exception it throws on input it cannot
    resolve. */
module Extraction {
  import opened Wrappers
  import Text
  import Seqs
  import Models

  datatype Element = Element(tag: string, text: string, src: Option<string>,
                             href: Option<string>, removed: bool)

  datatype Page = Page(
    titleText: string,
    elements: seq<Element>,
    bodyText: string,
    description: Option<string>,
    keywords: Option<string>,
    author: Option<string>)

  const MaxImages: nat := 50
  const MaxLinks: nat := 100
  const NoTitle: string := "No Title"

  const TextTags: seq<string> := ["h1", "h2", "h3", "h4", "h5", "h6", "p", "article", "section", "main"]

  /** An element the text query selects. */
  predicate IsTextElement(e: Element) { !e.removed && e.tag in TextTags }

  /** Each selected element's trimmed text followed by a newline. */
  function Gathered(es: seq<Element>): string
  {
    if |es| == 0 then [] else Text.Trim(es[0].text) + "\n" + Gathered(es[1..])
  }

  lemma TrimmedAllSpace(t: string)
    ensures Text.AllSpace(Text.Trim(t)) <==> Text.AllSpace(t)
  {
    Text.TrimEmptyIffAllSpace(t);
  }

  /** The gathered text is blank exactly when every selected element's text is. */
  lemma {:induction false} GatheredBlank(es: seq<Element>)
    ensures Text.AllSpace(Gathered(es)) <==> forall i :: 0 <= i < |es| ==> Text.AllSpace(es[i].text)
    decreases |es|
  {
    if |es| > 0 {
      GatheredBlank(es[1..]);
      var t := Text.Trim(es[0].text);
      Text.AllSpaceConcat(t + "\n", Gathered(es[1..]));
      Text.AllSpaceConcat(t, "\n");
      TrimmedAllSpace(es[0].text);
      assert forall i :: 1 <= i < |es| ==> es[i] == es[1..][i - 1];
    }
  }

  /** The gathered text trims to nothing exactly when every selected
      element's text is blank. */
  lemma ContentBlank(sel: seq<Element>)
    ensures Text.Trim(Gathered(sel)) == [] <==> forall i :: 0 <= i < |sel| ==> Text.AllSpace(sel[i].text)
  {
    GatheredBlank(sel);
    Text.TrimEmptyIffAllSpace(Gathered(sel));
  }

  /** `extractTextContent`: the text of the headings, paragraphs and
      sectioning elements, or the body text when that is blank, with every
      whitespace run collapsed to one space and the ends trimmed. */
  function ExtractText(page: Page): (r: string)
    ensures Text.Normalised(r)
    ensures var sel := Seqs.Filter(page.elements, IsTextElement);
      && ((forall i :: 0 <= i < |sel| ==> Text.AllSpace(sel[i].text)) ==> r == Text.Normalise(page.bodyText))
      && (!(forall i :: 0 <= i < |sel| ==> Text.AllSpace(sel[i].text)) ==> r == Text.Normalise(Gathered(sel)))
  {
    var sel := Seqs.Filter(page.elements, IsTextElement);
    var content := Gathered(sel);
    ContentBlank(sel);
    if Text.Trim(content) == [] then Text.Normalise(page.bodyText) else Text.Normalise(content)
  }

  /** Extracted text is empty only when the page has no non-blank text at
      all, neither in the selected elements nor in the body. */
  lemma ExtractTextEmpty(page: Page)
    ensures ExtractText(page) == [] <==>
      Text.AllSpace(Gathered(Seqs.Filter(page.elements, IsTextElement))) && Text.AllSpace(page.bodyText)
  {
    var sel := Seqs.Filter(page.elements, IsTextElement);
    var g := Gathered(sel);
    GatheredBlank(sel);
    Text.NormaliseEmptyIffAllSpace(page.bodyText);
    Text.NormaliseEmptyIffAllSpace(g);
    if Text.AllSpace(g) {
      assert ExtractText(page) == Text.Normalise(page.bodyText);
    } else {
      assert ExtractText(page) == Text.Normalise(g);
    }
  }

  // ------------------------------------------------------------- URLs

  /** An absolute-looking reference (`http…`) is kept verbatim; any other is
      resolved against the page URL. */
  function ResolveOne(ref: string, base: string, resolve: (string, string) -> Option<string>): Option<string> {
    if Text.StartsWith(ref, "http") then Some(ref) else resolve(ref, base)
  }

  /** Resolves every reference in order; one failure fails the whole list. */
  function ResolveAll(refs: seq<string>, base: string, resolve: (string, string) -> Option<string>)
    : (r: Option<seq<string>>)
    ensures r.Some? <==> forall i :: 0 <= i < |refs| ==> ResolveOne(refs[i], base, resolve).Some?
    ensures r.Some? ==> (|r.value| == |refs|
      && forall i :: 0 <= i < |refs| ==> r.value[i] == ResolveOne(refs[i], base, resolve).value)
    decreases |refs|
  {
    if |refs| == 0 then Some([])
    else
      match ResolveOne(refs[0], base, resolve)
      case None => None
      case Some(u) =>
        match ResolveAll(refs[1..], base, resolve)
        case None => None
        case Some(rest) => Some([u] + rest)
  }

  predicate IsImage(e: Element) {
    !e.removed && e.tag == "img" && e.src.Some? && e.src.value != []
  }

  function Sources(es: seq<Element>): (r: seq<string>)
  {
    seq(|es|, i requires 0 <= i < |es| => es[i].src.GetOr([]))
  }

  /** `extractImages`: the `src` of every image that has one, in document
      order, resolved, and cut to the first 50. */
  function ExtractImages(page: Page, base: string, resolve: (string, string) -> Option<string>)
    : (r: Option<seq<string>>)
    ensures var srcs := Sources(Seqs.Filter(page.elements, IsImage));
      && (r.Some? <==> ResolveAll(srcs, base, resolve).Some?)
      && (r.Some? ==> (|r.value| == Seqs.Min(MaxImages, |srcs|)
            && forall i :: 0 <= i < |r.value| ==> r.value[i] == ResolveOne(srcs[i], base, resolve).value))
  {
    var srcs := Sources(Seqs.Filter(page.elements, IsImage));
    match ResolveAll(srcs, base, resolve)
    case None => None
    case Some(all) => Some(Seqs.Take(all, MaxImages))
  }

  /** An anchor whose `href` is kept: present, non-empty, not a fragment and
      not a `mailto:` address. */
  predicate IsLink(e: Element) {
    && !e.removed && e.tag == "a" && e.href.Some? && e.href.value != []
    && !Text.StartsWith(e.href.value, "#") && !Text.StartsWith(e.href.value, "mailto:")
  }

  function Hrefs(es: seq<Element>): (r: seq<string>)
  {
    seq(|es|, i requires 0 <= i < |es| => es[i].href.GetOr([]))
  }

  /** `extractLinks`: the kept hrefs, resolved, without repeats (first
      occurrence wins), cut to the first 100. */
  function ExtractLinks(page: Page, base: string, resolve: (string, string) -> Option<string>)
    : (r: Option<seq<string>>)
    ensures var hrefs := Hrefs(Seqs.Filter(page.elements, IsLink));
      && (r.Some? <==> ResolveAll(hrefs, base, resolve).Some?)
      && (r.Some? ==> var all := ResolveAll(hrefs, base, resolve).value;
            && |r.value| <= MaxLinks
            && Seqs.NoDuplicates(r.value)
            && (forall i :: 0 <= i < |r.value| ==> r.value[i] in all)
            && r.value == Seqs.Take(Seqs.Dedupe(all), MaxLinks))
  {
    var hrefs := Hrefs(Seqs.Filter(page.elements, IsLink));
    match ResolveAll(hrefs, base, resolve)
    case None => None
    case Some(all) =>
      var d := Seqs.Dedupe(all);
      Seqs.DedupeSpec(all);
      var t := Seqs.Take(d, MaxLinks);
      assert forall i :: 0 <= i < |t| ==> t[i] == d[i];
      Some(t)
  }

  /** `extractMetadata`: absent or empty description and author become
      `''`; keywords are the comma-separated pieces, each trimmed, or none
      when the tag is absent. */
  function ExtractMetadata(page: Page): (m: Models.Metadata)
    ensures m.description == page.description.GetOr([])
    ensures m.author == page.author.GetOr([])
    ensures page.keywords.None? ==> m.keywords == []
    ensures page.keywords.Some? ==>
      var pieces := Text.SplitOn(page.keywords.value, ',');
      && |m.keywords| == |pieces|
      && forall k :: 0 <= k < |pieces| ==> m.keywords[k] == Text.Trim(pieces[k])
  {
    var kw := match page.keywords
      case None => []
      case Some(s) =>
        var pieces := Text.SplitOn(s, ',');
        seq(|pieces|, k requires 0 <= k < |pieces| => Text.Trim(pieces[k]));
    Models.Metadata(page.description.GetOr([]), kw, page.author.GetOr([]))
  }

  /** The keyword pieces are exactly the comma-separated parts of the tag's
      content: joined back with commas they give the content again, and
      none of them contains a comma. */
  lemma KeywordPieces(page: Page)
    requires page.keywords.Some?
    ensures Text.Join(Text.SplitOn(page.keywords.value, ','), ",") == page.keywords.value
    ensures forall k :: 0 <= k < |ExtractMetadata(page).keywords| ==> ',' !in ExtractMetadata(page).keywords[k]
  {
    Text.JoinSplitOn(page.keywords.value, ',');
    var pieces := Text.SplitOn(page.keywords.value, ',');
    forall k | 0 <= k < |pieces|
      ensures ',' !in Text.Trim(pieces[k])
    {
      var p := pieces[k];
      assert Text.Trim(p) == p[Text.TrimFrom(p)..Text.TrimTo(p)];
    }
  }

  /** The trimmed `<title>` text, or "No Title" when that is empty. */
  function Title(page: Page): (t: string)
    ensures t != []
    ensures Text.Trim(page.titleText) != [] ==> t == Text.Trim(page.titleText)
    ensures Text.AllSpace(page.titleText) ==> t == NoTitle
  {
    Text.TrimEmptyIffAllSpace(page.titleText);
    var tt := Text.Trim(page.titleText);
    if tt == [] then NoTitle else tt
  }

  /** `content.split(/\s+/).length`. */
  function WordCount(content: string): nat {
    |Text.SplitWs(content)|
  }

  /** On extracted text the word count is one more than the number of
      spaces, and so counts the words; empty text still counts 1. */
  lemma WordCountOfExtracted(page: Page)
    ensures var c := ExtractText(page);
      && (c == [] ==> WordCount(c) == 1)
      && (c != [] ==> WordCount(c) == Text.CountSpaces(c) + 1)
  {
    Text.SplitNormalised(ExtractText(page));
  }
}

=== FILE: filters.dfy ===
/** The client's list filters — the website list's search and two
    drop-downs, the admin page's user and website searches — and the admin
    page's updates of its website list after a create, crawl or delete. */
module Filters {
  import opened Wrappers
  import opened Constants
  import opened Models
  import Text
  import Seqs

  /** `field.toLowerCase().includes(term.toLowerCase())`. */
  predicate Mentions(field: string, term: string) {
    Text.Contains(Text.ToLower(field), Text.ToLower(term))
  }

  lemma MentionsEmpty(field: string)
    ensures Mentions(field, "")
  {
    Text.ContainsEmpty(Text.ToLower(field));
  }

  /** `p` when `on`, otherwise everything. */
  function When<T>(on: bool, p: T -> bool): T -> bool { (x: T) => !on || p(x) }

  /** A guarded filter step is a filter by the guarded predicate. */
  lemma FilterWhen<T>(xs: seq<T>, on: bool, p: T -> bool)
    ensures (if on then Seqs.Filter(xs, p) else xs) == Seqs.Filter(xs, When(on, p))
  {
    if on {
      Seqs.FilterCongruent(xs, p, When(on, p));
    } else {
      Seqs.FilterKeepsAll(xs, When(on, p));
    }
  }

  // ------------------------------------------------------- website list

  function SearchHit(term: string): Website -> bool {
    (w: Website) => Mentions(w.name, term) || Mentions(w.url, term) ||
      (w.description.Some? && w.description.value != [] && Mentions(w.description.value, term))
  }

  function StatusHit(status: string): Website -> bool {
    (w: Website) => StatusName(w.crawlStatus) == status
  }

  function ActiveHit(active: string): Website -> bool {
    (w: Website) => if active == "active" then w.isActive else !w.isActive
  }

  /** The three conditions of the website list, each applied only when
      its control is set. */
  function Shown(term: string, status: string, active: string): Website -> bool {
    (w: Website) =>
      && (term != [] ==> SearchHit(term)(w))
      && (status != "all" ==> StatusHit(status)(w))
      && (active != "all" ==> ActiveHit(active)(w))
  }

  /** `filterWebsites`: search, then status, then active state. */
  function FilterWebsites(ws: seq<Website>, term: string, status: string, active: string): (r: seq<Website>)
    ensures Seqs.IsSubsequence(r, ws)
    ensures forall w :: w in r <==> w in ws && Shown(term, status, active)(w)
    ensures Seqs.KeptInOrder(r, ws, Shown(term, status, active))
    ensures term == [] && status == "all" && active == "all" ==> r == ws
  {
    var searched := if term != [] then Seqs.Filter(ws, SearchHit(term)) else ws;
    var byStatus := if status != "all" then Seqs.Filter(searched, StatusHit(status)) else searched;
    var r := if active != "all" then Seqs.Filter(byStatus, ActiveHit(active)) else byStatus;
    FilterWebsitesIsOneFilter(ws, term, status, active, searched, byStatus, r);
    Seqs.FilterKeptInOrder(ws, Shown(term, status, active));
    NoControlsKeepAll(ws, term, status, active);
    r
  }

  lemma NoControlsKeepAll(ws: seq<Website>, term: string, status: string, active: string)
    ensures term == [] && status == "all" && active == "all" ==> Seqs.Filter(ws, Shown(term, status, active)) == ws
  {
    if term == [] && status == "all" && active == "all" {
      Seqs.FilterKeepsAll(ws, Shown(term, status, active));
    }
  }

  /** The three steps are one filter by the conjunction. */
  lemma FilterWebsitesIsOneFilter(ws: seq<Website>, term: string, status: string, active: string,
                                  searched: seq<Website>, byStatus: seq<Website>, r: seq<Website>)
    requires searched == (if term != [] then Seqs.Filter(ws, SearchHit(term)) else ws)
    requires byStatus == (if status != "all" then Seqs.Filter(searched, StatusHit(status)) else searched)
    requires r == (if active != "all" then Seqs.Filter(byStatus, ActiveHit(active)) else byStatus)
    ensures r == Seqs.Filter(ws, Shown(term, status, active))
  {
    var s := When(term != [], SearchHit(term));
    var t := When(status != "all", StatusHit(status));
    var a := When(active != "all", ActiveHit(active));
    FilterWhen(ws, term != [], SearchHit(term));
    FilterWhen(searched, status != "all", StatusHit(status));
    FilterWhen(byStatus, active != "all", ActiveHit(active));
    ShownIsConjunction(ws, term, status, active);
    ThreeFilters(ws, s, t, a, Shown(term, status, active));
  }

  lemma ShownIsConjunction(ws: seq<Website>, term: string, status: string, active: string)
    ensures forall i :: 0 <= i < |ws| ==>
      (Shown(term, status, active)(ws[i]) ==
       (When(term != [], SearchHit(term))(ws[i]) && When(status != "all", StatusHit(status))(ws[i])
        && When(active != "all", ActiveHit(active))(ws[i])))
  {
  }

  lemma ThreeFilters<T>(xs: seq<T>, p: T -> bool, q: T -> bool, u: T -> bool, all: T -> bool)
    requires forall i :: 0 <= i < |xs| ==> all(xs[i]) == (p(xs[i]) && q(xs[i]) && u(xs[i]))
    ensures Seqs.Filter(Seqs.Filter(Seqs.Filter(xs, p), q), u) == Seqs.Filter(xs, all)
  {
    var pq: T -> bool := (x: T) => p(x) && q(x);
    Seqs.FilterFusion(xs, p, q, pq);
    Seqs.FilterFusion(xs, pq, u, all);
  }

  // ------------------------------------------------------------- admin

  function UserHit(search: string): User -> bool {
    (u: User) => Mentions(u.name, search) || Mentions(u.email, search)
  }

  /** `filteredUsers`. */
  function FilteredUsers(us: seq<User>, search: string): (r: seq<User>)
    ensures forall u :: u in r <==> u in us && (Mentions(u.name, search) || Mentions(u.email, search))
    ensures Seqs.KeptInOrder(r, us, UserHit(search))
    ensures search == [] ==> r == us
  {
    EmptySearchKeepsUsers(us, search);
    Seqs.FilterKeptInOrder(us, UserHit(search));
    Seqs.Filter(us, UserHit(search))
  }

  lemma EmptySearchKeepsUsers(us: seq<User>, search: string)
    ensures search == [] ==> Seqs.Filter(us, UserHit(search)) == us
  {
    if search == [] {
      forall u: User ensures UserHit(search)(u) { MentionsEmpty(u.name); }
      Seqs.FilterKeepsAll(us, UserHit(search));
    }
  }

  /** The admin page's website filter: the name/url search and one
      drop-down that is `all`, an active state, or a status name. */
  function AdminHit(search: string, filter: string): Website -> bool {
    (w: Website) =>
      var matches := Mentions(w.name, search) || Mentions(w.url, search);
      if filter == "all" then matches
      else if filter == "active" then matches && w.isActive
      else if filter == "inactive" then matches && !w.isActive
      else matches && StatusName(w.crawlStatus) == filter
  }

  /** `filteredWebsites`. */
  function FilteredWebsites(ws: seq<Website>, search: string, filter: string): (r: seq<Website>)
    ensures forall w :: w in r ==> w in ws && (Mentions(w.name, search) || Mentions(w.url, search))
    ensures forall w :: w in r && filter == "active" ==> w.isActive
    ensures forall w :: w in r && filter == "inactive" ==> !w.isActive
    ensures forall w :: w in r && filter !in {"all", "active", "inactive"} ==> StatusName(w.crawlStatus) == filter
    ensures forall w :: w in ws && AdminHit(search, filter)(w) ==> w in r
    ensures Seqs.KeptInOrder(r, ws, AdminHit(search, filter))
    ensures search == [] && filter == "all" ==> r == ws
  {
    EmptySearchKeepsWebsites(ws, search, filter);
    Seqs.FilterKeptInOrder(ws, AdminHit(search, filter));
    Seqs.Filter(ws, AdminHit(search, filter))
  }

  lemma EmptySearchKeepsWebsites(ws: seq<Website>, search: string, filter: string)
    ensures search == [] && filter == "all" ==> Seqs.Filter(ws, AdminHit(search, filter)) == ws
  {
    if search == [] && filter == "all" {
      forall w: Website ensures AdminHit(search, filter)(w) { MentionsEmpty(w.name); }
      Seqs.FilterKeepsAll(ws, AdminHit(search, filter));
    }
  }

  /** With a status name in the drop-down, the admin filter keeps the
      sites the website list keeps for that status, when no site has a
      description to search. */
  lemma AdminStatusFilterAgrees(ws: seq<Website>, search: string, s: CrawlStatus)
    requires search != []
    requires forall i :: 0 <= i < |ws| ==> ws[i].description.None?
    ensures FilteredWebsites(ws, search, StatusName(s)) == FilterWebsites(ws, search, StatusName(s), "all")
  {
    var listed := FilterWebsites(ws, search, StatusName(s), "all");
    Seqs.KeptInOrderIsFilter(listed, ws, Shown(search, StatusName(s), "all"));
    AdminHitIsShown(ws, search, s);
  }

  /** Without descriptions, the admin page's test and the list's test
      agree on every site once a status name is chosen. */
  lemma AdminHitIsShown(ws: seq<Website>, search: string, s: CrawlStatus)
    requires search != []
    requires forall i :: 0 <= i < |ws| ==> ws[i].description.None?
    ensures Seqs.Filter(ws, AdminHit(search, StatusName(s))) == Seqs.Filter(ws, Shown(search, StatusName(s), "all"))
  {
    forall i | 0 <= i < |ws|
      ensures AdminHit(search, StatusName(s))(ws[i]) == Shown(search, StatusName(s), "all")(ws[i])
    {
      AdminHitIsShownAt(ws[i], search, s);
    }
    Seqs.FilterCongruent(ws, AdminHit(search, StatusName(s)), Shown(search, StatusName(s), "all"));
  }

  lemma AdminHitIsShownAt(w: Website, search: string, s: CrawlStatus)
    requires search != [] && w.description.None?
    ensures AdminHit(search, StatusName(s))(w) == Shown(search, StatusName(s), "all")(w)
  {
    var name := StatusName(s);
    assert name != "all" && name != "active" && name != "inactive" by {
      match s
      case Pending => assert name == "pending";
      case Crawling => assert name == "crawling";
      case Completed => assert name == "completed";
      case Failed => assert name == "failed";
    }
    var matches := Mentions(w.name, search) || Mentions(w.url, search);
    assert AdminHit(search, name)(w) == (matches && StatusName(w.crawlStatus) == name);
    assert SearchHit(search)(w) == matches;
    assert Shown(search, name, "all")(w) == (SearchHit(search)(w) && StatusHit(name)(w));
  }

  // ----------------------------------------------------- list updates

  /** After a create: the new site in front; a failed request changes
      nothing. */
  function AfterCreate(ws: seq<Website>, created: Result<Website, string>): (r: seq<Website>)
    ensures created.Ok? ==> |r| == |ws| + 1 && r[0] == created.value && r[1..] == ws
    ensures created.Err? ==> r == ws
  {
    if created.Ok? then [created.value] + ws else ws
  }

  function HasId(id: Id): Website -> bool { (w: Website) => w.id == id }

  function StartCrawling(w: Website): Website { w.(crawlStatus := Crawling) }

  /** After a crawl request: the sites with that id show `crawling`. */
  function AfterCrawl(ws: seq<Website>, id: Id, ok: bool): (r: seq<Website>)
    ensures |r| == |ws|
    ensures forall i :: 0 <= i < |ws| && ok && ws[i].id == id ==> r[i].crawlStatus == Crawling
    ensures forall i :: 0 <= i < |ws| ==> r[i].(crawlStatus := ws[i].crawlStatus) == ws[i]
    ensures forall i :: 0 <= i < |ws| && (!ok || ws[i].id != id) ==> r[i] == ws[i]
  {
    if ok then Seqs.MapWhere(ws, HasId(id), StartCrawling) else ws
  }

  function OtherId(id: Id): Website -> bool { (w: Website) => w.id != id }

  /** After a delete: the sites with that id are gone, the rest keep their
      order. */
  function AfterDelete(ws: seq<Website>, id: Id, ok: bool): (r: seq<Website>)
    ensures Seqs.IsSubsequence(r, ws)
    ensures ok ==> forall w :: w in r <==> w in ws && w.id != id
    ensures ok ==> Seqs.KeptInOrder(r, ws, OtherId(id))
    ensures !ok ==> r == ws
  {
    if ok then
      Seqs.FilterKeptInOrder(ws, OtherId(id));
      Seqs.Filter(ws, OtherId(id))
    else
      SubsequenceRefl(ws);
      ws
  }

  lemma {:induction false} SubsequenceRefl<T>(xs: seq<T>)
    ensures Seqs.IsSubsequence(xs, xs)
    decreases |xs|
  {
    if |xs| > 0 { SubsequenceRefl(xs[1..]); }
  }
}

=== FILE: forms.dfy ===
/** The client's form rules: the chat box's submit checks, the
    registration and profile forms' field rules, and their profile-image
    selection. Field rules run in the form library's order — required,
    minimum length, maximum length, pattern, custom check — and the first
    failure is reported. */
module Forms {
  import opened Wrappers
  import opened Constants
  import Text
  import Helpers
  import Validators

  datatype Check = Accepted | Rejected(message: string)

  // ----------------------------------------------------------- chat box

  const NoWebsiteError: string := "Please select a website first"
  const BlankQuestionError: string := "Please enter a question"
  const LongQuestionError: string := "Question is too long (max 1000 characters)"

  /** The chat box after a submit: the error shown, the question sent (if
      any), and the text left in the box. */
  datatype Submit = Submit(error: Option<string>, sent: Option<string>, box: string)

  /** `handleSubmit`: a website first, then a non-blank question, then at
      most 1000 characters as typed; the trimmed question is sent and the
      box emptied only when the send succeeds. */
  function HandleSubmit(websiteSelected: bool, question: string, outcome: Result<(), string>): (r: Submit)
    ensures !websiteSelected ==> r == Submit(Some(NoWebsiteError), None, question)
    ensures websiteSelected && Text.AllSpace(question) ==> r == Submit(Some(BlankQuestionError), None, question)
    ensures r.sent.Some? <==> websiteSelected && !Text.AllSpace(question) && |question| <= QuestionMaxLength
    ensures r.sent.Some? ==> r.sent.value == Text.Trim(question)
    ensures r.sent.Some? && outcome.Ok? ==> r.error.None? && r.box == []
    ensures r.sent.Some? && outcome.Err? ==> r.error == Some(outcome.error) && r.box == question
  {
    Text.TrimEmptyIffAllSpace(question);
    if !websiteSelected then Submit(Some(NoWebsiteError), None, question)
    else if Text.Trim(question) == [] then Submit(Some(BlankQuestionError), None, question)
    else if |question| > QuestionMaxLength then Submit(Some(LongQuestionError), None, question)
    else
      var sent := Text.Trim(question);
      match outcome
        case Ok(_) => Submit(None, Some(sent), [])
        case Err(message) => Submit(Some(message), Some(sent), question)
  }

  /** A question the chat box sends passes the server's question rule. */
  lemma SentQuestionPassesServer(websiteSelected: bool, question: string, outcome: Result<(), string>,
                                 userId: string, websiteId: string)
    requires HandleSubmit(websiteSelected, question, outcome).sent.Some?
    requires Validators.IsMongoId(userId) && Validators.IsMongoId(websiteId)
    ensures Validators.ValidateSendMessage(Some(userId), Some(websiteId),
              HandleSubmit(websiteSelected, question, outcome).sent).Ok?
  {
    var sent := Text.Trim(question);
    Text.TrimOfTrimmed(sent);
    assert |sent| <= |question|;
  }

  /** `handleKeyDown`: Enter submits the box unless Shift is held, so
      Shift+Enter types a new line instead; any other key submits nothing. */
  function KeyDown(key: string, shift: bool, websiteSelected: bool, question: string,
                   outcome: Result<(), string>): (r: Option<Submit>)
    ensures r.Some? <==> key == "Enter" && !shift
    ensures r.Some? ==> r.value == HandleSubmit(websiteSelected, question, outcome)
    ensures r.Some? && r.value.sent.Some? ==> websiteSelected && r.value.sent.value == Text.Trim(question)
  {
    if key == "Enter" && !shift then Some(HandleSubmit(websiteSelected, question, outcome)) else None
  }

  // -------------------------------------------------------- field rules

  /** The registration form's name: required, 2 to 100 characters. */
  function RegisterName(v: string): (r: Check)
    ensures r == Accepted <==> NameMinLength <= |v| <= NameMaxLength
  {
    if v == [] then Rejected("Name is required")
    else if |v| < 2 then Rejected("Name must be at least 2 characters")
    else if |v| > 100 then Rejected("Name must be less than 100 characters")
    else Accepted
  }

  /** The profile form's name: the same lengths, and not blank. */
  function ProfileName(v: string): (r: Check)
    ensures r == Accepted <==> Helpers.ValidateLength(Some(v), NameMinLength, NameMaxLength) && Helpers.ValidateRequired(Some(v))
  {
    if v == [] then Rejected("Name is required")
    else if |v| < NameMinLength then Rejected("Name must be at least 2 characters")
    else if |v| > NameMaxLength then Rejected("Name must be less than 100 characters")
    else if Text.Trim(v) == [] then Rejected("Name cannot be empty")
    else Accepted
  }

  /** A name of two spaces is long enough for both forms, but only the
      registration form accepts it. */
  lemma BlankNameOnlyProfileRejects()
    ensures RegisterName("  ") == Accepted
    ensures ProfileName("  ") == Rejected("Name cannot be empty")
  {
    assert Text.IsSpace(' ');
    Text.TrimEmptyIffAllSpace("  ");
  }

  /** Both forms' e-mail field: required, then `validateEmail`. */
  function EmailField(v: string): (r: Check)
    ensures r == Accepted <==> Helpers.EmailPattern(v)
  {
    Helpers.ValidateEmailIsPattern(v);
    if v == [] then Rejected("Email is required")
    else if !Helpers.ValidateEmail(v) then Rejected("Please enter a valid email address")
    else Accepted
  }

  /** The text `.` can range over from the start: up to the first line
      terminator. */
  function FirstLine(s: string): (r: string)
    ensures Text.StartsWith(s, r)
    ensures forall i :: 0 <= i < |r| ==> !Text.IsLineTerminator(r[i])
    ensures |r| < |s| ==> Text.IsLineTerminator(s[|r|])
    decreases |s|
  {
    if |s| == 0 || Text.IsLineTerminator(s[0]) then []
    else [s[0]] + FirstLine(s[1..])
  }

  predicate HasLower(s: string) { exists i :: 0 <= i < |s| && Text.IsLowerAscii(s[i]) }
  predicate HasUpper(s: string) { exists i :: 0 <= i < |s| && Text.IsUpperAscii(s[i]) }
  predicate HasDigit(s: string) { exists i :: 0 <= i < |s| && Text.IsDigit(s[i]) }

  /** `/^(?=.*[a-z])(?=.*[A-Z])(?=.*\d)/`: each class occurs before the
      first line break. */
  predicate StrongPattern(s: string) {
    var line := FirstLine(s);
    HasLower(line) && HasUpper(line) && HasDigit(line)
  }

  /** The registration password: required, at least 6 characters, then
      the pattern. */
  function PasswordField(v: string): (r: Check)
    ensures r == Accepted <==> |v| >= 6 && StrongPattern(v)
    ensures r == Accepted ==> HasLower(v) && HasUpper(v) && HasDigit(v)
  {
    var line := FirstLine(v);
    assert forall i :: 0 <= i < |line| ==> line[i] == v[i];
    if v == [] then Rejected("Password is required")
    else if |v| < 6 then Rejected("Password must be at least 6 characters")
    else if !StrongPattern(v) then Rejected("Password must contain uppercase, lowercase, and number")
    else Accepted
  }

  /** The confirmation: required, then equal to the password. */
  function ConfirmField(v: string, password: string): (r: Check)
    ensures r == Accepted <==> v != [] && v == password
  {
    if v == [] then Rejected("Please confirm your password")
    else if v != password then Rejected("Passwords do not match")
    else Accepted
  }

  /** Retyping an accepted password is an accepted confirmation. */
  lemma RetypedPasswordConfirms(password: string)
    requires PasswordField(password) == Accepted
    ensures ConfirmField(password, password) == Accepted
  {
  }

  // ------------------------------------------------------------- images

  /** A chosen file: its MIME type and size in bytes. */
  datatype File = File(mime: string, size: int)

  datatype ImageState = ImageState(selected: Option<File>, preview: Option<string>, error: string)

  const TypeError: string := "Please select a valid image file (JPEG, PNG, GIF, WebP)"
  const SizeError: string := "Image size must be less than 5MB"

  predicate ImageAllowed(f: File) { f.mime in AllowedImageTypes && f.size <= UploadMaxSize }

  /** `handleImageSelect`. Choosing no file resets the preview to `reset`
      (nothing on the registration form, the current profile image on the
      profile form); a rejected file keeps the previous selection and
      preview; an accepted one is previewed as `dataUrl`. */
  function SelectImage(st: ImageState, file: Option<File>, reset: Option<string>, dataUrl: string): (r: ImageState)
    ensures file.None? ==> r == ImageState(None, reset, "")
    ensures file.Some? && ImageAllowed(file.value) ==> r == ImageState(file, Some(dataUrl), "")
    ensures file.Some? && !ImageAllowed(file.value) ==>
      r.selected == st.selected && r.preview == st.preview && r.error != ""
    ensures file.Some? && file.value.mime !in AllowedImageTypes ==> r.error == TypeError
    ensures file.Some? && file.value.mime in AllowedImageTypes && file.value.size > UploadMaxSize ==> r.error == SizeError
  {
    match file
      case None => ImageState(None, reset, "")
      case Some(f) =>
        if f.mime !in AllowedImageTypes then st.(error := TypeError)
        else if f.size > UploadMaxSize then st.(error := SizeError)
        else ImageState(file, Some(dataUrl), "")
  }

  /** `clearImage`. */
  function ClearImage(reset: Option<string>): (r: ImageState)
    ensures r.selected.None? && r.error == "" && r.preview == reset
  {
    ImageState(None, reset, "")
  }

  /** The profile form's reset preview: `user?.profileImage || null`. */
  function ProfileReset(profileImage: Option<string>): (r: Option<string>)
    ensures r.Some? <==> profileImage.Some? && profileImage.value != []
    ensures r.Some? ==> r == profileImage
  {
    if profileImage.Some? && profileImage.value != [] then profileImage else None
  }

  /** Whatever happens, a selected file is an allowed one; clearing and
      choosing no file end in the same state. */
  lemma SelectedIsAllowed(st: ImageState, file: Option<File>, reset: Option<string>, dataUrl: string)
    requires st.selected.Some? ==> ImageAllowed(st.selected.value)
    ensures var r := SelectImage(st, file, reset, dataUrl);
      r.selected.Some? ==> ImageAllowed(r.selected.value)
    ensures SelectImage(st, None, reset, dataUrl) == ClearImage(reset)
  {
  }
}

=== FILE: health.dfy ===
/** The critical-issue rules and the health score of the system-health
    report. The counts come from the website collection; the average
    response time of the last day and the database connection state are
    inputs. */
module Health {
  import opened Constants
  import opened Models
  import Seqs

  const FailureRateIssue: string := "High crawling failure rate detected"
  const SlowResponseIssue: string := "Response times are higher than normal"
  const DatabaseIssue: string := "Database connection issues detected"

  /** Response times above this many milliseconds raise an issue. */
  const SlowResponseMs: int := 10000

  function HasStatus(s: CrawlStatus): Website -> bool { (w: Website) => w.crawlStatus == s }

  /** The websites' statuses, in order. */
  function Statuses(ws: seq<Website>): (r: seq<CrawlStatus>)
    ensures |r| == |ws| && forall i :: 0 <= i < |ws| ==> r[i] == ws[i].crawlStatus
  {
    if |ws| == 0 then [] else [ws[0].crawlStatus] + Statuses(ws[1..])
  }

  /** `Website.countDocuments({ crawlStatus })`: how many times the status
      occurs among the websites. */
  function CountStatus(ws: seq<Website>, s: CrawlStatus): (n: nat)
    ensures n <= |ws|
    ensures n == multiset(Statuses(ws))[s]
  {
    FilterCountsStatus(ws, s);
    |Seqs.Filter(ws, HasStatus(s))|
  }

  lemma {:induction false} FilterCountsStatus(ws: seq<Website>, s: CrawlStatus)
    ensures |Seqs.Filter(ws, HasStatus(s))| == multiset(Statuses(ws))[s]
    decreases |ws|
  {
    if |ws| > 0 {
      FilterCountsStatus(ws[1..], s);
      assert Statuses(ws) == [ws[0].crawlStatus] + Statuses(ws[1..]);
    }
  }

  /** The critical issues, in the order the report lists them. */
  function Issues(failed: nat, completed: nat, avgResponseTime: int, connected: bool): (r: seq<string>)
    ensures |r| <= 3
    ensures FailureRateIssue in r <==> failed > completed
    ensures SlowResponseIssue in r <==> avgResponseTime > SlowResponseMs
    ensures DatabaseIssue in r <==> !connected
    ensures forall i :: 0 <= i < |r| ==> r[i] in {FailureRateIssue, SlowResponseIssue, DatabaseIssue}
    ensures Seqs.NoDuplicates(r)
    ensures Seqs.IsSubsequence(r, [FailureRateIssue, SlowResponseIssue, DatabaseIssue])
  {
    InReportOrder(failed > completed, avgResponseTime > SlowResponseMs, !connected);
    (if failed > completed then [FailureRateIssue] else []) +
    (if avgResponseTime > SlowResponseMs then [SlowResponseIssue] else []) +
    (if !connected then [DatabaseIssue] else [])
  }

  /** Whichever conditions fire, their messages keep the report's order. */
  lemma InReportOrder(a: bool, b: bool, c: bool)
    ensures Seqs.IsSubsequence(
      (if a then [FailureRateIssue] else []) + (if b then [SlowResponseIssue] else []) + (if c then [DatabaseIssue] else []),
      [FailureRateIssue, SlowResponseIssue, DatabaseIssue])
  {
    var all := [FailureRateIssue, SlowResponseIssue, DatabaseIssue];
    var tail := (if b then [SlowResponseIssue] else []) + (if c then [DatabaseIssue] else []);
    var last: seq<string> := if c then [DatabaseIssue] else [];
    assert FailureRateIssue != SlowResponseIssue && FailureRateIssue != DatabaseIssue && SlowResponseIssue != DatabaseIssue;
    assert Seqs.IsSubsequence(last, all[2..]);
    assert Seqs.IsSubsequence(tail, all[1..]) by {
      if b { assert tail[1..] == last; } else { assert tail == last; }
    }
    if a {
      assert ([FailureRateIssue] + tail)[1..] == tail;
    } else {
      assert Seqs.IsSubsequence(tail, all) by {
        if |tail| > 0 { assert tail[0] != all[0]; }
      }
    }
  }

  /** `healthScore`: 100 without issues, otherwise 25 off per issue, never
      below 0. */
  function HealthScore(issues: seq<string>): (score: int)
    ensures 0 <= score <= 100
    ensures score == 100 <==> |issues| == 0
    ensures |issues| <= 4 ==> score == 100 - 25 * |issues|
    ensures |issues| >= 4 ==> score == 0
  {
    if |issues| == 0 then 100
    else if 100 - |issues| * 25 > 0 then 100 - |issues| * 25 else 0
  }

  /** The score of the system-health report, from the store's websites:
      full marks exactly when failures do not outnumber completions,
      responses are fast enough and the database is connected. */
  function Score(ws: seq<Website>, avgResponseTime: int, connected: bool): (r: int)
    ensures r == 100 <==>
      CountStatus(ws, Failed) <= CountStatus(ws, Completed) && avgResponseTime <= SlowResponseMs && connected
  {
    HealthScore(Issues(CountStatus(ws, Failed), CountStatus(ws, Completed), avgResponseTime, connected))
  }

  /** The report's score is always one of 25, 50, 75 and 100: there are at
      most three issues, so it never reaches 0. */
  lemma ScoreIsAQuarter(ws: seq<Website>, avgResponseTime: int, connected: bool)
    ensures Score(ws, avgResponseTime, connected) in {25, 50, 75, 100}
  {
  }

  /** Each issue costs exactly 25 points; the score drops to 25 exactly
      when all three rules fire. */
  lemma ScoreCountsIssues(ws: seq<Website>, avgResponseTime: int, connected: bool)
    ensures var fired := (if CountStatus(ws, Failed) > CountStatus(ws, Completed) then 1 else 0) +
                         (if avgResponseTime > SlowResponseMs then 1 else 0) +
                         (if !connected then 1 else 0);
      Score(ws, avgResponseTime, connected) == 100 - 25 * fired
  {
  }
}

=== FILE: helpers.dfy ===
/** The client's string, list and validation helpers. Values are strings
    (a missing value is `None`); case mapping covers the ASCII letters. */
module Helpers {
  import opened Wrappers
  import Text
  import Numbers
  import Seqs

  // ------------------------------------------------------------ truncate

  /** `truncateText`: a text longer than `maxLength` is cut to its first
      `maxLength` characters, trimmed, and given the suffix. */
  function Truncate(text: string, maxLength: nat, suffix: string): (r: string)
    ensures |text| <= maxLength ==> r == text
    ensures |text| > maxLength ==>
      && |suffix| <= |r| <= maxLength + |suffix|
      && r[|r| - |suffix|..] == suffix
      && var body := r[..|r| - |suffix|];
      && Text.Trim(body) == body
      && Text.OccursAt(text, body, Text.TrimFrom(text[..maxLength]))
      && Text.TrimFrom(text[..maxLength]) + |body| == Text.TrimTo(text[..maxLength])
      && Text.AllSpace(text[..Text.TrimFrom(text[..maxLength])])
      && Text.AllSpace(text[Text.TrimTo(text[..maxLength])..maxLength])
  {
    if |text| <= maxLength then text
    else
      var head := text[..maxLength];
      var body := Text.Trim(head);
      Text.TrimOfTrimmed(body);
      assert (body + suffix)[..|body|] == body;
      assert text[Text.TrimFrom(head)..Text.TrimFrom(head) + |body|] == body;
      assert text[Text.TrimTo(head)..maxLength] == head[Text.TrimTo(head)..];
      body + suffix
  }

  // ---------------------------------------------------------- capitalise

  /** `capitalizeFirst`. */
  function CapitalizeFirst(s: string): (r: string)
    ensures |r| == |s|
    ensures |s| > 0 ==> r[0] == Text.Upper(s[0]) && r[1..] == Text.ToLower(s[1..])
  {
    if |s| == 0 then [] else [Text.Upper(s[0])] + Text.ToLower(s[1..])
  }

  /** Capitalising twice is capitalising once: the first letter is no
      longer lower case and the rest no longer upper case. */
  lemma CapitalizeIdempotent(s: string)
    ensures CapitalizeFirst(CapitalizeFirst(s)) == CapitalizeFirst(s)
    ensures |s| > 0 ==> !Text.IsLowerAscii(CapitalizeFirst(s)[0]) && Text.NoUpper(CapitalizeFirst(s)[1..])
  {
    if |s| > 0 {
      var r := CapitalizeFirst(s);
      Text.ToLowerFixesNoUpper(r[1..]);
    }
  }

  // ------------------------------------------------------------- slugify

  /** A character a slug may contain. */
  predicate SlugChar(c: char) { (Text.IsWordChar(c) && !Text.IsUpperAscii(c)) || c == '-' }

  /** What `slugify` produces: slug characters only, no `--`, and no dash
      at either end. */
  predicate IsSlug(s: string) {
    && (forall i :: 0 <= i < |s| ==> SlugChar(s[i]))
    && NoDoubleDash(s)
    && (|s| == 0 || (s[0] != '-' && s[|s| - 1] != '-'))
  }

  predicate NoDoubleDash(s: string) {
    forall i :: 0 <= i < |s| - 1 ==> !(s[i] == '-' && s[i + 1] == '-')
  }

  /** Every character of `r` comes from `s` or is a dash. */
  predicate FromOrDash(r: string, s: string) {
    forall i :: 0 <= i < |r| ==> r[i] in s || r[i] == '-'
  }

  /** `.replace(/\s+/g, '-')`. */
  function DashSpaces(s: string): (r: string)
    ensures FromOrDash(r, s)
    ensures Text.NoSpace(s) ==> r == s
    decreases |s|
  {
    if |s| == 0 then []
    else if Text.IsSpace(s[0]) then
      var j := Text.SkipSpaces(s, 0);
      var rest := DashSpaces(s[j..]);
      assert forall i :: 0 <= i < |rest| ==> rest[i] in s[j..] || rest[i] == '-';
      "-" + rest
    else
      var rest := DashSpaces(s[1..]);
      assert forall i :: 0 <= i < |rest| ==> rest[i] in s[1..] || rest[i] == '-';
      [s[0]] + rest
  }

  predicate WordOrDash(c: char) { Text.IsWordChar(c) || c == '-' }

  /** `.replace(/[^\w\-]+/g, '')`. */
  function KeepWordOrDash(s: string): (r: string)
    ensures forall i :: 0 <= i < |r| ==> r[i] in s && WordOrDash(r[i])
    ensures (forall i :: 0 <= i < |s| ==> WordOrDash(s[i])) ==> r == s
  {
    if forall i :: 0 <= i < |s| ==> WordOrDash(s[i]) then
      Seqs.FilterKeepsAll(s, WordOrDash);
      Seqs.Filter(s, WordOrDash)
    else Seqs.Filter(s, WordOrDash)
  }

  /** `.replace(/\-\-+/g, '-')`: each run of dashes becomes one dash. */
  function CollapseDashes(s: string): (r: string)
    ensures NoDoubleDash(r)
    ensures forall i :: 0 <= i < |r| ==> r[i] in s
    ensures |s| > 0 ==> |r| > 0 && r[0] == s[0]
    ensures NoDoubleDash(s) ==> r == s
    decreases |s|
  {
    if |s| <= 1 then s
    else if s[0] == '-' && s[1] == '-' then
      var rest := CollapseDashes(s[1..]);
      assert forall i :: 0 <= i < |rest| ==> rest[i] in s[1..];
      rest
    else
      var rest := CollapseDashes(s[1..]);
      assert forall i :: 0 <= i < |rest| ==> rest[i] in s[1..];
      [s[0]] + rest
  }

  /** `.replace(/^-+/, '')`. */
  function StripLeadingDashes(s: string): (r: string)
    ensures |r| <= |s| && r == s[|s| - |r|..]
    ensures |r| == 0 || r[0] != '-'
    ensures |s| == 0 || s[0] != '-' ==> r == s
    decreases |s|
  {
    if |s| > 0 && s[0] == '-' then StripLeadingDashes(s[1..]) else s
  }

  /** `.replace(/-+$/, '')`. */
  function StripTrailingDashes(s: string): (r: string)
    ensures |r| <= |s| && r == s[..|r|]
    ensures |r| == 0 || r[|r| - 1] != '-'
    ensures |s| == 0 || s[|s| - 1] != '-' ==> r == s
    decreases |s|
  {
    if |s| > 0 && s[|s| - 1] == '-' then StripTrailingDashes(s[..|s| - 1]) else s
  }

  /** `slugify`. */
  function Slugify(text: string): (r: string)
    ensures IsSlug(r)
  {
    var lower := Text.ToLower(text);
    var trimmed := Text.Trim(lower);
    var dashed := DashSpaces(trimmed);
    var kept := KeepWordOrDash(dashed);
    var collapsed := CollapseDashes(kept);
    var front := StripLeadingDashes(collapsed);
    var r := StripTrailingDashes(front);
    SlugSteps(lower, trimmed, dashed, kept, collapsed, front, r);
    r
  }

  /** The shape of each intermediate result of `slugify`. */
  lemma SlugSteps(lower: string, trimmed: string, dashed: string, kept: string,
                  collapsed: string, front: string, r: string)
    requires Text.NoUpper(lower)
    requires trimmed == Text.Trim(lower) && dashed == DashSpaces(trimmed) && kept == KeepWordOrDash(dashed)
    requires collapsed == CollapseDashes(kept) && front == StripLeadingDashes(collapsed)
    requires r == StripTrailingDashes(front)
    ensures IsSlug(r)
  {
    NoUpperSlice(lower, Text.TrimFrom(lower), Text.TrimTo(lower));
    DashSpacesNoUpper(trimmed);
    KeptAreSlugChars(dashed);
    assert AllSlug(collapsed);
    StripLeadingShape(collapsed);
    StripTrailingShape(front);
  }

  predicate AllSlug(s: string) { forall i :: 0 <= i < |s| ==> SlugChar(s[i]) }

  lemma NoUpperSlice(s: string, a: nat, b: nat)
    requires a <= b <= |s| && Text.NoUpper(s)
    ensures Text.NoUpper(s[a..b])
  {
    assert forall i :: 0 <= i < b - a ==> s[a..b][i] == s[a + i];
  }

  lemma DashSpacesNoUpper(s: string)
    requires Text.NoUpper(s)
    ensures Text.NoUpper(DashSpaces(s))
  {
    var r := DashSpaces(s);
    forall i | 0 <= i < |r| ensures !Text.IsUpperAscii(r[i]) {
      if r[i] != '-' {
        var j :| 0 <= j < |s| && s[j] == r[i];
      }
    }
  }

  lemma KeptAreSlugChars(s: string)
    requires Text.NoUpper(s)
    ensures AllSlug(KeepWordOrDash(s))
  {
    var r := KeepWordOrDash(s);
    forall i | 0 <= i < |r| ensures SlugChar(r[i]) {
      var j :| 0 <= j < |s| && s[j] == r[i];
    }
  }

  lemma SuffixShape(s: string, k: nat)
    requires k <= |s| && AllSlug(s) && NoDoubleDash(s)
    ensures AllSlug(s[k..]) && NoDoubleDash(s[k..])
  {
    var r := s[k..];
    forall i | 0 <= i < |r| ensures SlugChar(r[i]) {
      assert r[i] == s[k + i];
    }
    forall i | 0 <= i < |r| - 1 ensures !(r[i] == '-' && r[i + 1] == '-') {
      assert r[i] == s[k + i] && r[i + 1] == s[k + i + 1];
    }
  }

  lemma StripLeadingShape(s: string)
    requires AllSlug(s) && NoDoubleDash(s)
    ensures var r := StripLeadingDashes(s); AllSlug(r) && NoDoubleDash(r)
  {
    SuffixShape(s, |s| - |StripLeadingDashes(s)|);
  }

  lemma StripTrailingShape(s: string)
    requires AllSlug(s) && NoDoubleDash(s) && (|s| == 0 || s[0] != '-')
    ensures IsSlug(StripTrailingDashes(s))
  {
    var r := StripTrailingDashes(s);
    assert forall i :: 0 <= i < |r| ==> r[i] == s[i];
  }

  /** A slug is its own slug, so `slugify` is idempotent. */
  lemma SlugifyIdempotent(text: string)
    ensures Slugify(Slugify(text)) == Slugify(text)
  {
    SlugIsFixed(Slugify(text));
  }

  lemma SlugIsFixed(s: string)
    requires IsSlug(s)
    ensures Slugify(s) == s
  {
    SlugTrimsToItself(s);
    SlugKeepsItsCharacters(s);
    assert StripLeadingDashes(s) == s;
    assert StripTrailingDashes(s) == s;
  }

  /** Lower-casing and trimming leave a slug as it is. */
  lemma SlugTrimsToItself(s: string)
    requires IsSlug(s)
    ensures Text.Trim(Text.ToLower(s)) == s
  {
    assert Text.NoUpper(s);
    Text.ToLowerFixesNoUpper(s);
    assert Text.NoSpace(s) by {
      forall i | 0 <= i < |s| ensures !Text.IsSpace(s[i]) { assert SlugChar(s[i]); }
    }
    Text.TrimOfTrimmed(s);
  }

  /** Dashing spaces, dropping other characters and collapsing dashes leave
      a slug as it is. */
  lemma SlugKeepsItsCharacters(s: string)
    requires IsSlug(s)
    ensures CollapseDashes(KeepWordOrDash(DashSpaces(s))) == s
  {
    assert Text.NoSpace(s) by {
      forall i | 0 <= i < |s| ensures !Text.IsSpace(s[i]) { assert SlugChar(s[i]); }
    }
    assert DashSpaces(s) == s;
    assert forall i :: 0 <= i < |s| ==> WordOrDash(s[i]);
    assert KeepWordOrDash(s) == s;
  }

  // ------------------------------------------------------------- groupBy

  function KeyIs<T>(key: T -> string, k: string): T -> bool { (x: T) => key(x) == k }

  /** `groupBy`: the items of each key, in their original order. */
  function GroupBy<T>(items: seq<T>, key: T -> string): (r: map<string, seq<T>>)
    ensures forall i :: 0 <= i < |items| ==> key(items[i]) in r
    ensures forall k :: k in r ==> r[k] == Seqs.Filter(items, KeyIs(key, k)) && |r[k]| > 0
    decreases |items|
  {
    if |items| == 0 then map[]
    else
      var init := items[..|items| - 1];
      var x := items[|items| - 1];
      assert items == init + [x];
      Extend(GroupBy(init, key), init, x, key)
  }

  /** The groups of `init + [x]` from the groups of `init`. */
  function Extend<T>(g: map<string, seq<T>>, init: seq<T>, x: T, key: T -> string): (r: map<string, seq<T>>)
    requires forall i :: 0 <= i < |init| ==> key(init[i]) in g
    requires forall k :: k in g ==> g[k] == Seqs.Filter(init, KeyIs(key, k)) && |g[k]| > 0
    ensures forall i :: 0 <= i < |init + [x]| ==> key((init + [x])[i]) in r
    ensures forall k :: k in r ==> r[k] == Seqs.Filter(init + [x], KeyIs(key, k)) && |r[k]| > 0
  {
    ExtendGroups(g, init, x, key);
    AddItem(g, x, key)
  }

  /** `x` appended to the group of its key, which is created if missing. */
  function AddItem<T>(g: map<string, seq<T>>, x: T, key: T -> string): map<string, seq<T>> {
    g[key(x) := (if key(x) in g then g[key(x)] else []) + [x]]
  }

  lemma ExtendGroups<T>(g: map<string, seq<T>>, init: seq<T>, x: T, key: T -> string)
    requires forall i :: 0 <= i < |init| ==> key(init[i]) in g
    requires forall k :: k in g ==> g[k] == Seqs.Filter(init, KeyIs(key, k)) && |g[k]| > 0
    ensures forall i :: 0 <= i < |init + [x]| ==> key((init + [x])[i]) in AddItem(g, x, key)
    ensures forall k :: k in AddItem(g, x, key) ==>
      AddItem(g, x, key)[k] == Seqs.Filter(init + [x], KeyIs(key, k)) && |AddItem(g, x, key)[k]| > 0
  {
    var r := AddItem(g, x, key);
    forall k | k in r ensures r[k] == Seqs.Filter(init + [x], KeyIs(key, k)) && |r[k]| > 0 {
      if k !in g {
        forall i | 0 <= i < |init| ensures key(init[i]) != k {
          assert key(init[i]) in g;
        }
      }
      GroupKeyStep(init, x, key, g, k);
    }
    forall i | 0 <= i < |init + [x]| ensures key((init + [x])[i]) in r {
      if i < |init| { assert (init + [x])[i] == init[i]; }
    }
  }

  /** Adding one more item to the groups of the items before it. */
  lemma GroupKeyStep<T>(init: seq<T>, x: T, key: T -> string, g: map<string, seq<T>>, k: string)
    requires k in g ==> g[k] == Seqs.Filter(init, KeyIs(key, k)) && |g[k]| > 0
    requires k !in g ==> forall i :: 0 <= i < |init| ==> key(init[i]) != k
    requires k in g || k == key(x)
    ensures k in AddItem(g, x, key)
    ensures AddItem(g, x, key)[k] == Seqs.Filter(init + [x], KeyIs(key, k)) && |AddItem(g, x, key)[k]| > 0
  {
    var p := KeyIs(key, k);
    Seqs.FilterSnoc(init, x, p);
    assert p(x) <==> key(x) == k;
    if k !in g {
      forall i | 0 <= i < |init| ensures !p(init[i]) {
        assert key(init[i]) != k;
      }
      Seqs.FilterNone(init, p);
    }
  }

  /** Every group key is the key of some item. */
  lemma GroupKeysComeFromItems<T>(items: seq<T>, key: T -> string, k: string)
    requires k in GroupBy(items, key)
    ensures exists i :: 0 <= i < |items| && key(items[i]) == k
  {
    var g := GroupBy(items, key)[k];
    assert g[0] in Seqs.Filter(items, KeyIs(key, k));
  }

  // ------------------------------------------------------------ duration

  /** `formatDuration` for a whole number of milliseconds. */
  function FormatDuration(ms: int): (r: string)
    ensures ms < 1000 ==> r == Numbers.IntToString(ms) + "ms"
    ensures 1000 <= ms < 60000 ==> r == Numbers.NatToString(ms / 1000) + "s"
    ensures ms >= 60000 ==> r == Numbers.NatToString(ms / 60000) + "m " + Numbers.NatToString((ms / 1000) % 60) + "s"
  {
    if ms < 1000 then Numbers.IntToString(ms) + "ms"
    else
      var seconds := ms / 1000;
      if seconds < 60 then Numbers.NatToString(seconds) + "s"
      else
        MinutesOfMs(ms);
        Numbers.NatToString(seconds / 60) + "m " + Numbers.NatToString(seconds % 60) + "s"
  }

  /** Whole minutes of whole seconds are whole minutes of the milliseconds. */
  lemma MinutesOfMs(ms: nat)
    ensures (ms / 1000) / 60 == ms / 60000
    ensures 60 * (ms / 60000) + (ms / 1000) % 60 == ms / 1000
  {
    var s := ms / 1000;
    var m := s / 60;
    assert ms == 1000 * s + ms % 1000;
    assert s == 60 * m + s % 60;
    assert ms == 60000 * m + (1000 * (s % 60) + ms % 1000);
    assert 0 <= 1000 * (s % 60) + ms % 1000 < 60000;
  }

  // --------------------------------------------------------------- email

  /** One of the `[^\s@]+` pieces of the e-mail pattern. */
  predicate Clean(s: string) {
    |s| > 0 && forall i :: 0 <= i < |s| ==> !Text.IsSpace(s[i]) && s[i] != '@'
  }

  /** `/^[^\s@]+@[^\s@]+\.[^\s@]+$/`, read directly: a clean local part, an
      `@`, a clean name, a dot, and a clean ending. */
  predicate EmailPattern(e: string) {
    exists a, b :: 0 < a && a + 1 < b && b + 1 < |e| && e[a] == '@' && e[b] == '.' &&
      Clean(e[..a]) && Clean(e[a + 1..b]) && Clean(e[b + 1..])
  }

  /** `validateEmail`, computed: no whitespace, one `@` not at the start,
      and a dot after it with something on both sides. */
  function ValidateEmail(e: string): (ok: bool)
    ensures ok ==> Text.NoSpace(e) && |e| >= 5
  {
    var a := Text.NextChar(e, '@', 0);
    && Text.NoSpace(e) && 0 < a < |e|
    && Text.NextChar(e, '@', a + 1) == |e|
    && a + 2 <= |e| && Text.NextChar(e, '.', a + 2) < |e| - 1
  }

  /** The computed check is the pattern. */
  lemma ValidateEmailIsPattern(e: string)
    ensures ValidateEmail(e) <==> EmailPattern(e)
  {
    if ValidateEmail(e) { ValidImpliesPattern(e); }
    if EmailPattern(e) {
      var a, b :| 0 < a && a + 1 < b && b + 1 < |e| && e[a] == '@' && e[b] == '.' &&
        Clean(e[..a]) && Clean(e[a + 1..b]) && Clean(e[b + 1..]);
      PatternImpliesValid(e, a, b);
    }
  }

  lemma ValidImpliesPattern(e: string)
    requires ValidateEmail(e)
    ensures EmailPattern(e)
  {
    var a := Text.NextChar(e, '@', 0);
    var b := Text.NextChar(e, '.', a + 2);
    assert Clean(e[..a]);
    assert Clean(e[a + 1..b]);
    assert Clean(e[b + 1..]);
  }

  lemma PatternImpliesValid(e: string, a: nat, b: nat)
    requires 0 < a && a + 1 < b && b + 1 < |e| && e[a] == '@' && e[b] == '.'
    requires Clean(e[..a]) && Clean(e[a + 1..b]) && Clean(e[b + 1..])
    ensures ValidateEmail(e)
  {
    assert forall i :: 0 <= i < a ==> e[i] == e[..a][i];
    assert forall i :: a + 1 <= i < b ==> e[i] == e[a + 1..b][i - a - 1];
    assert forall i :: b + 1 <= i < |e| ==> e[i] == e[b + 1..][i - b - 1];
    assert Text.NoSpace(e);
    Text.NextCharAt(e, '@', 0, a);
    Text.NextCharAt(e, '@', a + 1, |e|);
    var d := Text.NextChar(e, '.', a + 2);
    assert d <= b;
  }

  /** A valid address has exactly one `@`, a non-empty local part, and a
      dot after the `@` with text on both sides. */
  lemma ValidEmailShape(e: string)
    requires ValidateEmail(e)
    ensures var a := Text.NextChar(e, '@', 0);
      && 0 < a < |e| && e[a] == '@'
      && (forall i :: 0 <= i < |e| && i != a ==> e[i] != '@')
      && exists b :: a + 1 < b < |e| - 1 && e[b] == '.'
  {
    var a := Text.NextChar(e, '@', 0);
    var b := Text.NextChar(e, '.', a + 2);
    assert a + 1 < b < |e| - 1 && e[b] == '.';
  }

  // ------------------------------------------------------ other checks

  /** `validateRequired`: present and not blank. */
  function ValidateRequired(value: Option<string>): (ok: bool)
    ensures ok <==> value.Some? && !Text.AllSpace(value.value)
  {
    Text.TrimEmptyIffAllSpace(value.GetOr([]));
    value.Some? && Text.Trim(value.value) != []
  }

  /** `validateLength`: a missing value has length 0. */
  function ValidateLength(value: Option<string>, min: int, max: int): (ok: bool)
    ensures value.None? ==> (ok <==> min <= 0 <= max)
    ensures value.Some? ==> (ok <==> min <= |value.value| <= max)
  {
    var length := if value.Some? && value.value != [] then |value.value| else 0;
    min <= length <= max
  }

  /** The length check counts blanks: a name of two spaces has an
      acceptable length but is not filled in. */
  lemma LengthDoesNotImplyRequired()
    ensures ValidateLength(Some("  "), 2, 100) && !ValidateRequired(Some("  "))
  {
    assert Text.IsSpace(' ');
  }

  // ---------------------------------------------------------- classNames

  function Truthy(c: Option<string>): bool { c.Some? && c.value != [] }

  /** The truthy class names, in order: `classes.filter(Boolean)`. */
  function TruthyNames(classes: seq<Option<string>>): (r: seq<string>)
    ensures |r| == |Seqs.Filter(classes, Truthy)|
    ensures forall i :: 0 <= i < |r| ==> Some(r[i]) == Seqs.Filter(classes, Truthy)[i]
    ensures |r| <= |classes|
    ensures forall i :: 0 <= i < |r| ==> r[i] != [] && Some(r[i]) in classes
    ensures forall i :: 0 <= i < |classes| && Truthy(classes[i]) ==> classes[i].value in r
  {
    if |classes| == 0 then []
    else (if Truthy(classes[0]) then [classes[0].value] else []) + TruthyNames(classes[1..])
  }

  /** `classNames`: the truthy arguments joined by single spaces; empty
      exactly when no argument is truthy, and a lone truthy argument as it
      is. */
  function ClassNames(classes: seq<Option<string>>): (r: string)
    ensures r == [] <==> forall i :: 0 <= i < |classes| ==> !Truthy(classes[i])
    ensures |TruthyNames(classes)| == 1 ==> r == TruthyNames(classes)[0]
  {
    var names := TruthyNames(classes);
    assert |names| > 0 ==> Truthy(Seqs.Filter(classes, Truthy)[0]);
    Text.Join(names, " ")
  }

  /** Splitting the result on spaces gives back the truthy arguments, when
      they contain no spaces themselves. */
  lemma ClassNamesSplit(classes: seq<Option<string>>)
    requires forall i :: 0 <= i < |classes| && classes[i].Some? ==> ' ' !in classes[i].value
    requires |TruthyNames(classes)| > 0
    ensures Text.SplitOn(ClassNames(classes), ' ') == TruthyNames(classes)
  {
    var names := TruthyNames(classes);
    forall i | 0 <= i < |names| ensures ' ' !in names[i] {
      var j :| 0 <= j < |classes| && classes[j] == Some(names[i]);
    }
    SplitJoin(names, ' ');
  }

  /** Splitting on a separator that no part contains undoes joining. */
  lemma {:induction false} SplitJoin(parts: seq<string>, c: char)
    requires |parts| > 0
    requires forall i :: 0 <= i < |parts| ==> c !in parts[i]
    ensures Text.SplitOn(Text.Join(parts, [c]), c) == parts
    decreases |parts|
  {
    if |parts| == 1 {
      Text.SplitOnNone(parts[0], c);
    } else {
      assert Text.Join(parts, [c]) == parts[0] + [c] + Text.Join(parts[1..], [c]);
      Text.SplitOnCons(parts[0], c, Text.Join(parts[1..], [c]));
      SplitJoin(parts[1..], c);
    }
  }
}

=== FILE: http.dfy ===
/** The status-and-message part of a controller's JSON reply. */
module Http {
  datatype Reply = Reply(code: nat, message: string)

  const Success: nat := 200
  const Created: nat := 201
  const BadRequest: nat := 400
  const Unauthorized: nat := 401
  const Forbidden: nat := 403
  const NotFound: nat := 404
  const ServerError: nat := 500

  /** Replies with a 2xx code are the ones sent with `success: true`. */
  predicate Succeeded(r: Reply) { 200 <= r.code < 300 }
}

=== FILE: models.dfy ===
/** The persisted records and what the database schema does when one is
    saved: default values, trimming setters and required-field checks.
    Identifiers are natural numbers handed out by the store and times are
    milliseconds supplied by the caller. */
module Models {
  import opened Wrappers
  import opened Constants
  import Text

  type Id = nat
  type Time = int

  /** A registered website. */
  datatype Website = Website(
    id: Id,
    name: string,
    url: string,
    description: Option<string>,
    lastCrawled: Option<Time>,
    isActive: bool,
    crawlStatus: CrawlStatus,
    totalPages: int,
    crawlDepth: int,
    createdAt: Time)

  datatype Metadata = Metadata(description: string, keywords: seq<string>, author: string)

  /** One crawled page of a website. */
  datatype Document = Document(
    id: Id,
    websiteId: Id,
    url: string,
    title: string,
    content: string,
    images: seq<string>,
    links: seq<string>,
    metadata: Metadata,
    contentType: string,
    wordCount: int,
    createdAt: Time)

  /** One answered question. */
  datatype ChatRecord = ChatRecord(
    id: Id,
    userId: Id,
    websiteId: Id,
    question: string,
    answer: string,
    responseTime: int,
    aiModel: string,
    relevanceScore: real,
    createdAt: Time)

  datatype Role = Member | Admin

  /** An account. `password` stands for the stored credential; comparing a
      candidate with it is a parameter of the operations that do so. */
  datatype User = User(
    id: Id,
    name: string,
    email: string,
    password: Option<string>,
    profileImage: Option<string>,
    role: Role,
    isActive: bool,
    totalQueries: int,
    lastActiveAt: Option<Time>,
    refreshToken: Option<string>,
    createdAt: Time)

  /** The schema's `required` check on a string: absent and empty fail. */
  predicate Present(s: string) { |s| > 0 }

  /** Saving a new website: `name` and `description` pass through the
      trimming setter, `name` and `url` are required, and every other field
      takes its schema default. */
  function NewWebsite(id: Id, name: string, url: string, description: Option<string>,
                      crawlDepth: int, now: Time): (r: Result<Website, string>)
    ensures r.Ok? <==> Present(Text.Trim(name)) && Present(url)
    ensures r.Ok? ==> var w := r.value;
      && w.id == id && w.url == url && w.name == Text.Trim(name)
      && (description.Some? <==> w.description.Some?)
      && (description.Some? ==> w.description.value == Text.Trim(description.value))
      && w.crawlStatus == Pending && w.isActive && w.totalPages == 0
      && w.lastCrawled.None? && w.crawlDepth == crawlDepth && w.createdAt == now
  {
    var n := Text.Trim(name);
    if !Present(n) then Err("Path `name` is required.")
    else if !Present(url) then Err("Path `url` is required.")
    else Ok(Website(id, n, url,
                    if description.Some? then Some(Text.Trim(description.value)) else None,
                    None, true, Pending, 0, crawlDepth, now))
  }

  /** Saving a crawled page: `url` and `content` are required, `title` is
      trimmed, and `contentType` takes its default. */
  function NewDocument(id: Id, websiteId: Id, url: string, title: string, content: string,
                       images: seq<string>, links: seq<string>, metadata: Metadata,
                       wordCount: int, now: Time): (r: Result<Document, string>)
    ensures r.Ok? <==> Present(url) && Present(content)
    ensures r.Ok? ==> var d := r.value;
      && d.id == id && d.websiteId == websiteId && d.url == url && d.content == content
      && d.title == Text.Trim(title) && d.images == images && d.links == links
      && d.metadata == metadata && d.contentType == "text/html" && d.wordCount == wordCount
  {
    if !Present(url) then Err("Path `url` is required.")
    else if !Present(content) then Err("Path `content` is required.")
    else Ok(Document(id, websiteId, url, Text.Trim(title), content, images, links, metadata,
                     "text/html", wordCount, now))
  }

  /** A relevance score the schema accepts. */
  predicate ScoreInRange(s: real) { 0.0 <= s <= 1.0 }

  /** Saving a chat record: `question` is trimmed and required, `answer` is
      required, and `relevanceScore` must lie in [0, 1]. */
  function NewChatRecord(id: Id, userId: Id, websiteId: Id, question: string, answer: string,
                         responseTime: int, aiModel: string, relevanceScore: real,
                         now: Time): (r: Result<ChatRecord, string>)
    ensures r.Ok? <==> Present(Text.Trim(question)) && Present(answer) && ScoreInRange(relevanceScore)
    ensures r.Ok? ==> var c := r.value;
      && c.id == id && c.userId == userId && c.websiteId == websiteId
      && c.question == Text.Trim(question) && c.answer == answer
      && c.responseTime == responseTime && c.aiModel == aiModel
      && c.relevanceScore == relevanceScore && c.createdAt == now
  {
    var q := Text.Trim(question);
    if !Present(q) then Err("Path `question` is required.")
    else if !Present(answer) then Err("Path `answer` is required.")
    else if relevanceScore < 0.0 then Err("Path `relevanceScore` is less than minimum allowed value (0).")
    else if relevanceScore > 1.0 then Err("Path `relevanceScore` is more than maximum allowed value (1).")
    else Ok(ChatRecord(id, userId, websiteId, q, answer, responseTime, aiModel, relevanceScore, now))
  }

  /** A new account: an ordinary member, active, with no queries and no
      session. */
  function NewUser(id: Id, name: string, email: string, password: Option<string>,
                   profileImage: Option<string>, now: Time): (u: User)
    ensures u.id == id && u.name == name && u.email == email && u.profileImage == profileImage
    ensures u.password == password && u.createdAt == now && u.lastActiveAt.None?
    ensures u.role == Member && u.isActive && u.totalQueries == 0 && u.refreshToken.None?
  {
    User(id, name, email, password, profileImage, Member, true, 0, None, None, now)
  }
}

=== FILE: navigation.dfy ===
/** The header's navigation: which links a visitor sees and which one is
    highlighted for the current path. */
module Navigation {
  import opened Wrappers
  import Text

  datatype NavItem = NavItem(name: string, href: string)

  const Dashboard: NavItem := NavItem("Dashboard", "/")
  const Chat: NavItem := NavItem("Chat", "/chat")
  const Profile: NavItem := NavItem("Profile", "/profile")
  const Admin: NavItem := NavItem("Admin", "/admin")

  /** `getNavigationItems`: the dashboard for everyone; chat and profile
      once signed in; the admin page for a signed-in admin. */
  function NavigationItems(isAuthenticated: bool, role: Option<string>): (r: seq<NavItem>)
    ensures |r| >= 1 && r[0] == Dashboard
    ensures Chat in r <==> isAuthenticated
    ensures Profile in r <==> isAuthenticated
    ensures Admin in r <==> isAuthenticated && role == Some("admin")
    ensures forall i :: 0 <= i < |r| ==> r[i] in {Dashboard, Chat, Profile, Admin}
    ensures forall i, j :: 0 <= i < j < |r| ==> r[i].href != r[j].href
  {
    if !isAuthenticated then [Dashboard]
    else if role == Some("admin") then [Dashboard, Chat, Profile, Admin]
    else [Dashboard, Chat, Profile]
  }

  /** `isActive`: the dashboard only on `/` itself, the others on every
      path under their link. */
  predicate IsActive(path: string, href: string) {
    if href == "/" then path == "/" else Text.StartsWith(path, href)
  }

  /** A link other than the dashboard is highlighted exactly on the paths
      that extend it. */
  lemma ActiveIsExtension(path: string, href: string)
    requires href != "/"
    ensures IsActive(path, href) <==> exists rest :: path == href + rest
  {
    if IsActive(path, href) {
      assert path == href + path[|href|..];
    }
    if exists rest :: path == href + rest {
      var rest :| path == href + rest;
      assert path[..|href|] == href;
    }
  }

  /** On any path at most one of the header's links is highlighted. */
  lemma AtMostOneActive(isAuthenticated: bool, role: Option<string>, path: string)
    ensures var items := NavigationItems(isAuthenticated, role);
      forall i, j :: 0 <= i < j < |items| && IsActive(path, items[i].href) ==> !IsActive(path, items[j].href)
  {
    var items := NavigationItems(isAuthenticated, role);
    forall i, j | 0 <= i < j < |items| && IsActive(path, items[i].href)
      ensures !IsActive(path, items[j].href)
    {
      var a := items[i].href;
      var b := items[j].href;
      if a == "/" {
        assert path == "/";
        assert |b| > 1;
      } else {
        assert path[..|a|] == a;
        assert |a| > 1 && |b| > 1 && a[1] != b[1];
        assert path[1] == a[1];
        assert |path| < |b| || path[..|b|][1] != b[1];
      }
    }
  }

  /** The link of a page is highlighted on that page and below it. */
  lemma OwnLinkActive(isAuthenticated: bool, role: Option<string>, rest: string)
    ensures forall i :: 0 <= i < |NavigationItems(isAuthenticated, role)| ==>
      var item := NavigationItems(isAuthenticated, role)[i];
      IsActive(item.href, item.href) && (item.href != "/" ==> IsActive(item.href + rest, item.href))
  {
    forall i | 0 <= i < |NavigationItems(isAuthenticated, role)|
      ensures var item := NavigationItems(isAuthenticated, role)[i];
        IsActive(item.href, item.href) && (item.href != "/" ==> IsActive(item.href + rest, item.href))
    {
      var h := NavigationItems(isAuthenticated, role)[i].href;
      assert (h + rest)[..|h|] == h;
      assert h[..|h|] == h;
    }
  }
}

=== FILE: numbers.dfy ===
/** Integer parsing and printing as the application does it: JavaScript's
    `parseInt` on query strings, the `parseInt(x) || d` default idiom, and
    decimal rendering of counts inside messages. */
module Numbers {
  import opened Wrappers
  import Text

  predicate IsHexDigit(c: char) {
    Text.IsDigit(c) || ('a' <= c <= 'f') || ('A' <= c <= 'F')
  }

  /** The value of one digit in base 10 or 16. */
  function DigitValue(c: char, hex: bool): (v: nat)
    requires IsRadixDigit(c, hex)
    ensures v < (if hex then 16 else 10)
  {
    if Text.IsDigit(c) then c as int - '0' as int
    else if 'a' <= c <= 'f' then c as int - 'a' as int + 10
    else c as int - 'A' as int + 10
  }

  predicate IsRadixDigit(c: char, hex: bool) {
    if hex then IsHexDigit(c) else Text.IsDigit(c)
  }

  /** The number of leading digits of `s` in the given base. */
  function DigitRun(s: string, hex: bool): (n: nat)
    ensures n <= |s|
    ensures forall i :: 0 <= i < n ==> IsRadixDigit(s[i], hex)
    ensures n < |s| ==> !IsRadixDigit(s[n], hex)
  {
    if |s| == 0 || !IsRadixDigit(s[0], hex) then 0 else 1 + DigitRun(s[1..], hex)
  }

  /** The value of a string of digits, most significant first. */
  function DigitsValue(s: string, hex: bool): nat
    requires forall i :: 0 <= i < |s| ==> IsRadixDigit(s[i], hex)
  {
    if |s| == 0 then 0
    else DigitsValue(s[..|s| - 1], hex) * (if hex then 16 else 10) + DigitValue(s[|s| - 1], hex)
  }

  /** JavaScript `parseInt(s)` with no radix: leading white space is skipped,
      one sign is read, a `0x`/`0X` prefix selects base 16, and the longest
      run of digits that follows is the value. `None` is `NaN`. */
  function ParseInt(s: string): (r: Option<int>)
    ensures r.None? <==>
      var t := s[Text.SkipSpaces(s, 0)..];
      var u := if |t| > 0 && (t[0] == '-' || t[0] == '+') then t[1..] else t;
      var hex := |u| >= 2 && u[0] == '0' && (u[1] == 'x' || u[1] == 'X');
      DigitRun(if hex then u[2..] else u, hex) == 0
  {
    var t := s[Text.SkipSpaces(s, 0)..];
    var negative := |t| > 0 && t[0] == '-';
    var u := if |t| > 0 && (t[0] == '-' || t[0] == '+') then t[1..] else t;
    var hex := |u| >= 2 && u[0] == '0' && (u[1] == 'x' || u[1] == 'X');
    var body := if hex then u[2..] else u;
    var n := DigitRun(body, hex);
    if n == 0 then None
    else
      var v: int := DigitsValue(body[..n], hex);
      Some(if negative then -v else v)
  }

  /** `parseInt(x) || d`: `NaN` and zero both fall back to `d`. */
  function OrDefault(v: Option<int>, d: int): (r: int)
    ensures r != 0 || d == 0
    ensures v.Some? && v.value != 0 ==> r == v.value
    ensures v.None? || v == Some(0) ==> r == d
  {
    if v.Some? && v.value != 0 then v.value else d
  }

  /** A query parameter read with a destructuring default (`page = 1`):
      the default applies only when the parameter is absent. */
  function ParamOr(q: Option<string>, d: int): (r: Option<int>)
    ensures q.None? ==> r == Some(d)
    ensures r.None? <==> q.Some? && ParseInt(q.value).None?
    ensures q.Some? && r.Some? ==> r == ParseInt(q.value)
  {
    if q.None? then Some(d) else ParseInt(q.value)
  }

  /** Unlike `parseInt(x) || d`, a destructuring default keeps a given
      zero and turns a given non-number into `NaN`. */
  lemma ParamOrKeepsZero(d: int)
    requires d != 0
    ensures ParamOr(Some("0"), d) == Some(0) && OrDefault(ParseInt("0"), d) == d
    ensures ParamOr(Some("x"), d).None? && OrDefault(ParseInt("x"), d) == d
  {
    assert Text.SkipSpaces("0", 0) == 0 && Text.SkipSpaces("x", 0) == 0;
    assert DigitRun("0", false) == 1 && DigitRun("x", false) == 0;
    assert DigitsValue("0"[..1], false) == 0;
  }

  function DigitChar(d: nat): (c: char)
    requires d < 10
    ensures Text.IsDigit(c) && DigitValue(c, false) == d
  {
    ('0' as int + d) as char
  }

  /** Decimal rendering of a natural number, without leading zeros. */
  function NatToString(n: nat): (r: string)
    ensures |r| >= 1
    ensures forall i :: 0 <= i < |r| ==> Text.IsDigit(r[i])
    ensures |r| > 1 ==> r[0] != '0'
  {
    if n < 10 then [DigitChar(n)] else NatToString(n / 10) + [DigitChar(n % 10)]
  }

  /** JavaScript's `String(i)` for an integer. */
  function IntToString(i: int): (r: string)
    ensures |r| >= 1
  {
    if i < 0 then "-" + NatToString(-i) else NatToString(i)
  }

  lemma {:induction false} NatToStringValue(n: nat)
    ensures DigitsValue(NatToString(n), false) == n
    decreases n
  {
    if n >= 10 {
      NatToStringValue(n / 10);
      var s := NatToString(n);
      assert s[..|s| - 1] == NatToString(n / 10);
    }
  }

  lemma DigitRunAll(s: string, hex: bool)
    requires forall i :: 0 <= i < |s| ==> IsRadixDigit(s[i], hex)
    ensures DigitRun(s, hex) == |s|
  {
  }

  /** Rendering a count and parsing it back gives the count: `parseInt`
      inverts `String` on integers. */
  lemma {:induction false} ParseIntToString(i: int)
    ensures ParseInt(IntToString(i)) == Some(i)
  {
    var n: nat := if i < 0 then -i else i;
    var d := NatToString(n);
    NatToStringValue(n);
    DigitRunAll(d, false);
    assert !Text.IsSpace(d[0]);
    var s := IntToString(i);
    assert !Text.IsSpace(s[0]);
    assert Text.SkipSpaces(s, 0) == 0;
    assert s[0..] == s;
    if i < 0 {
      assert s[1..] == d;
    }
    assert d[..|d|] == d;
  }
}

=== FILE: pagination.dfy ===
/** The pagination arithmetic the list endpoints share: `skip = (page − 1) ·
    limit`, `pages = ⌈total / limit⌉`, `hasNext = page < pages`, `hasPrev =
    page > 1`. Only a page and a limit of at least 1 are modelled; any other
    parsed value (NaN, zero, negative) makes the endpoint answer with an
    error here. */
module Pagination {
  import opened Wrappers
  import Numbers
  import Seqs

  /** The `pagination` object of a list reply. */
  datatype Info = Info(current: int, pages: nat, total: nat, hasNext: bool, hasPrev: bool)

  /** A page request that the model accepts. */
  datatype Request = Request(page: int, limit: int)

  predicate Valid(q: Request) { q.page >= 1 && q.limit >= 1 }

  /** `Math.ceil(total / limit)`. */
  function CeilDiv(total: nat, limit: nat): (q: nat)
    requires limit >= 1
  {
    (total + limit - 1) / limit
  }

  /** The page count is the least number of pages of `limit` items that
      hold all `total` items. */
  lemma CeilDivIsCeiling(total: nat, limit: nat)
    requires limit >= 1
    ensures CeilDiv(total, limit) * limit >= total
    ensures CeilDiv(total, limit) == 0 || (CeilDiv(total, limit) - 1) * limit < total
    ensures CeilDiv(total, limit) == 0 <==> total == 0
  {
    var n := total + limit - 1;
    var q := n / limit;
    var r := n % limit;
    assert n == q * limit + r && 0 <= r < limit;
    assert (q - 1) * limit == q * limit - limit;
  }

  /** `skip`. */
  function Skip(q: Request): nat
    requires Valid(q)
  {
    (q.page - 1) * q.limit
  }

  /** The pagination object for `total` matching items. */
  function Paginate(q: Request, total: nat): (info: Info)
    requires Valid(q)
    ensures info.current == q.page && info.total == total
    ensures info.pages * q.limit >= total
    ensures info.hasPrev <==> q.page > 1
    ensures info.hasNext <==> q.page * q.limit < total
  {
    var pages := CeilDiv(total, q.limit);
    CeilDivIsCeiling(total, q.limit);
    NextPageLemma(q, total, pages);
    Info(q.page, pages, total, q.page < pages, q.page > 1)
  }

  lemma MulMono(a: int, b: int, c: int)
    requires a <= b && c >= 0
    ensures a * c <= b * c
  {
    assert b * c - a * c == (b - a) * c;
  }

  lemma NextPageLemma(q: Request, total: nat, pages: nat)
    requires Valid(q) && pages == CeilDiv(total, q.limit)
    ensures q.page < pages <==> q.page * q.limit < total
  {
    CeilDivIsCeiling(total, q.limit);
    if q.page < pages {
      MulMono(q.page, pages - 1, q.limit);
    } else {
      MulMono(pages, q.page, q.limit);
    }
  }

  /** The items a page shows: `.skip(skip).limit(limit)` on the sorted list. */
  function PageOf<T>(items: seq<T>, q: Request): seq<T>
    requires Valid(q)
  {
    Seqs.Window(items, Skip(q), q.limit)
  }

  /** `shown` is page `q` of `items` read newest first: as many items as
      remain after skipping, up to the limit, and entry i is the item
      `Skip(q) + i` counted from the end. */
  ghost predicate IsNewestFirstPage<T>(shown: seq<T>, items: seq<T>, q: Request)
    requires Valid(q)
  {
    && |shown| <= q.limit
    && (Skip(q) <= |items| ==> |shown| == Seqs.Min(q.limit, |items| - Skip(q)))
    && (Skip(q) >= |items| ==> |shown| == 0)
    && forall i :: 0 <= i < |shown| ==> Skip(q) + i < |items| && shown[i] == items[|items| - 1 - (Skip(q) + i)]
  }

  /** Taking a page of the reversed items gives that page. */
  lemma NewestFirstPage<T>(items: seq<T>, q: Request)
    requires Valid(q)
    ensures IsNewestFirstPage(PageOf(Seqs.Reverse(items), q), items, q)
  {
    var all := Seqs.Reverse(items);
    var shown := PageOf(all, q);
    assert forall i :: 0 <= i < |shown| ==> Skip(q) + i < |all| && shown[i] == all[Skip(q) + i];
  }

  /** `hasNext` holds exactly when items remain after the shown page, and
      `hasPrev` exactly when items come before it. */
  lemma HasNextMeansMore<T>(items: seq<T>, q: Request)
    requires Valid(q)
    ensures var info := Paginate(q, |items|); var shown := PageOf(items, q);
      && (info.hasNext <==> Skip(q) + |shown| < |items|)
      && (info.hasPrev <==> Skip(q) > 0)
  {
    assert Skip(q) + q.limit == q.page * q.limit;
    if q.page > 1 {
      assert Skip(q) >= q.limit;
    }
  }

  /** Every item appears on exactly the page its position names, and that
      page is within the page count. */
  lemma EveryItemOnItsPage<T>(items: seq<T>, limit: int, k: nat)
    requires limit >= 1 && k < |items|
    ensures var q := Request(k / limit + 1, limit);
      && q.page <= CeilDiv(|items|, limit)
      && |PageOf(items, q)| > k % limit
      && PageOf(items, q)[k % limit] == items[k]
  {
    var q := Request(k / limit + 1, limit);
    var pages := CeilDiv(|items|, limit);
    assert k == (k / limit) * limit + k % limit;
    assert Skip(q) == (k / limit) * limit;
    CeilDivIsCeiling(|items|, limit);
    if q.page > pages {
      MulMono(pages, k / limit, limit);
    }
  }

  /** Query parameters with destructuring defaults (`page = 1, limit = d`):
      a default applies only when the parameter is absent. */
  function FromQuery(page: Option<string>, limit: Option<string>, defaultLimit: int): (r: Option<Request>)
    ensures r.Some? ==> Valid(r.value)
    ensures page.None? && limit.None? && defaultLimit >= 1 ==> r == Some(Request(1, defaultLimit))
    ensures r.Some? && page.Some? ==> Numbers.ParseInt(page.value) == Some(r.value.page)
    ensures r.Some? && limit.Some? ==> Numbers.ParseInt(limit.value) == Some(r.value.limit)
    ensures page.Some? && Numbers.ParseInt(page.value) == Some(0) ==> r.None?
  {
    match (Numbers.ParamOr(page, 1), Numbers.ParamOr(limit, defaultLimit))
    case (Some(p), Some(l)) => if p >= 1 && l >= 1 then Some(Request(p, l)) else None
    case _ => None
  }

  /** Query parameters with `parseInt(x) || d` defaults: an absent,
      unparseable or zero parameter takes its default. */
  function FromQueryOr(page: Option<string>, limit: Option<string>, defaultPage: int, defaultLimit: int)
    : (r: Option<Request>)
    ensures r.Some? ==> Valid(r.value)
    ensures defaultPage >= 1 && defaultLimit >= 1 &&
            (page.None? || Numbers.ParseInt(page.value).None?) &&
            (limit.None? || Numbers.ParseInt(limit.value).None?) ==>
      r == Some(Request(defaultPage, defaultLimit))
    ensures r.Some? && page.Some? && Numbers.ParseInt(page.value).Some? && Numbers.ParseInt(page.value).value != 0 ==>
      r.value.page == Numbers.ParseInt(page.value).value
    ensures r.Some? && page.Some? && Numbers.ParseInt(page.value) == Some(0) ==> r.value.page == defaultPage
  {
    var p := Numbers.OrDefault(if page.None? then None else Numbers.ParseInt(page.value), defaultPage);
    var l := Numbers.OrDefault(if limit.None? then None else Numbers.ParseInt(limit.value), defaultLimit);
    if p >= 1 && l >= 1 then Some(Request(p, l)) else None
  }
}

=== FILE: seqs.dfy ===
/** Sequence operations behind the array idioms of the application:
    `filter`, order-preserving sub-lists, `new Set(xs)` de-duplication,
    `slice`, newest-first ordering and sorting by a string key. */
module Seqs {
  import opened Wrappers

  /** `xs.filter(p)`. */
  function Filter<T>(xs: seq<T>, p: T -> bool): (r: seq<T>)
    ensures |r| <= |xs|
    ensures forall i :: 0 <= i < |r| ==> r[i] in xs && p(r[i])
    ensures forall i :: 0 <= i < |xs| && p(xs[i]) ==> xs[i] in r
  {
    if |xs| == 0 then [] else (if p(xs[0]) then [xs[0]] else []) + Filter(xs[1..], p)
  }

  /** `a` is obtained from `b` by deleting elements, keeping the order of the rest. */
  predicate IsSubsequence<T(==)>(a: seq<T>, b: seq<T>)
    decreases |b|
  {
    if |a| == 0 then true
    else if |b| == 0 then false
    else if a[0] == b[0] then IsSubsequence(a[1..], b[1..])
    else IsSubsequence(a, b[1..])
  }

  lemma {:induction false} SubsequenceOfTail<T>(a: seq<T>, b: seq<T>)
    requires |b| > 0 && IsSubsequence(a, b[1..])
    ensures IsSubsequence(a, b)
    decreases |b|, 0
  {
    if |a| > 0 && a[0] == b[0] {
      SubsequenceDropHead(a, b[1..]);
    }
  }

  lemma {:induction false} SubsequenceDropHead<T>(a: seq<T>, b: seq<T>)
    requires |a| > 0 && IsSubsequence(a, b)
    ensures IsSubsequence(a[1..], b)
    decreases |b|, 1
  {
    if |b| > 0 {
      if a[0] == b[0] {
        SubsequenceOfTail(a[1..], b);
      } else {
        SubsequenceDropHead(a, b[1..]);
        SubsequenceOfTail(a[1..], b);
      }
    }
  }

  /** Filtering keeps the surviving elements in their original order. */
  lemma {:induction false} FilterIsSubsequence<T>(xs: seq<T>, p: T -> bool)
    ensures IsSubsequence(Filter(xs, p), xs)
    decreases |xs|
  {
    if |xs| > 0 {
      FilterIsSubsequence(xs[1..], p);
      if p(xs[0]) {
        assert Filter(xs, p) == [xs[0]] + Filter(xs[1..], p);
        assert Filter(xs, p)[1..] == Filter(xs[1..], p);
      } else {
        assert Filter(xs, p) == Filter(xs[1..], p);
        SubsequenceOfTail(Filter(xs, p), xs);
      }
    }
  }

  /** Two filters in a row are one filter by the conjunction. */
  lemma {:induction false} FilterFusion<T>(xs: seq<T>, p: T -> bool, q: T -> bool, both: T -> bool)
    requires forall i :: 0 <= i < |xs| ==> both(xs[i]) == (p(xs[i]) && q(xs[i]))
    ensures Filter(Filter(xs, p), q) == Filter(xs, both)
    decreases |xs|
  {
    if |xs| > 0 {
      FilterFusion(xs[1..], p, q, both);
      var f := Filter(xs, p);
      if p(xs[0]) {
        assert f == [xs[0]] + Filter(xs[1..], p);
        assert f[0] == xs[0] && f[1..] == Filter(xs[1..], p);
      } else {
        assert f == Filter(xs[1..], p);
      }
    }
  }

  /** A filter whose predicate holds everywhere returns its input. */
  lemma {:induction false} FilterKeepsAll<T>(xs: seq<T>, p: T -> bool)
    requires forall i :: 0 <= i < |xs| ==> p(xs[i])
    ensures Filter(xs, p) == xs
    decreases |xs|
  {
    if |xs| > 0 {
      FilterKeepsAll(xs[1..], p);
    }
  }

  /** A filter whose predicate holds nowhere returns nothing. */
  lemma {:induction false} FilterNone<T>(xs: seq<T>, p: T -> bool)
    requires forall i :: 0 <= i < |xs| ==> !p(xs[i])
    ensures Filter(xs, p) == []
    decreases |xs|
  {
    if |xs| > 0 {
      FilterNone(xs[1..], p);
    }
  }

  /** Filtering is pointwise: equal predicates on the elements give equal results. */
  lemma {:induction false} FilterCongruent<T>(xs: seq<T>, p: T -> bool, q: T -> bool)
    requires forall i :: 0 <= i < |xs| ==> p(xs[i]) == q(xs[i])
    ensures Filter(xs, p) == Filter(xs, q)
    decreases |xs|
  {
    if |xs| > 0 {
      FilterCongruent(xs[1..], p, q);
    }
  }

  lemma {:induction false} FilterAppend<T>(a: seq<T>, b: seq<T>, p: T -> bool)
    ensures Filter(a + b, p) == Filter(a, p) + Filter(b, p)
    decreases |a|
  {
    if |a| == 0 {
      assert a + b == b;
    } else {
      assert (a + b)[1..] == a[1..] + b;
      FilterAppend(a[1..], b, p);
    }
  }

  /** Filtering one more element at the end. */
  lemma FilterSnoc<T>(xs: seq<T>, x: T, p: T -> bool)
    ensures Filter(xs + [x], p) == Filter(xs, p) + (if p(x) then [x] else [])
  {
    FilterAppend(xs, [x], p);
    assert Filter([x], p) == (if p(x) then [x] else []) + Filter([x][1..], p);
    assert [x][1..] == [];
  }

  /** `r` is what `xs.filter(p)` returns, described without computing it:
      the elements that satisfy `p`, in their order in `xs`, each as often
      as it occurs there, and nothing else. */
  ghost predicate KeptInOrder<T(!new)>(r: seq<T>, xs: seq<T>, p: T -> bool) {
    && IsSubsequence(r, xs)
    && forall x :: multiset(r)[x] == (if p(x) then multiset(xs)[x] else 0)
  }

  /** Filtering keeps each satisfying element as often as it occurs. */
  lemma {:induction false} FilterCounts<T>(xs: seq<T>, p: T -> bool)
    ensures forall x :: multiset(Filter(xs, p))[x] == (if p(x) then multiset(xs)[x] else 0)
    decreases |xs|
  {
    if |xs| > 0 {
      FilterCounts(xs[1..], p);
      assert xs == [xs[0]] + xs[1..];
      assert Filter(xs, p) == (if p(xs[0]) then [xs[0]] else []) + Filter(xs[1..], p);
    }
  }

  /** A filter meets the description. */
  lemma FilterKeptInOrder<T(!new)>(xs: seq<T>, p: T -> bool)
    ensures KeptInOrder(Filter(xs, p), xs, p)
  {
    FilterIsSubsequence(xs, p);
    FilterCounts(xs, p);
  }

  /** A subsequence holds no element more often than its source. */
  lemma {:induction false} SubsequenceCounts<T>(a: seq<T>, b: seq<T>)
    requires IsSubsequence(a, b)
    ensures multiset(a) <= multiset(b)
    decreases |b|
  {
    if |a| > 0 {
      assert b == [b[0]] + b[1..];
      if a[0] == b[0] {
        SubsequenceCounts(a[1..], b[1..]);
        assert a == [a[0]] + a[1..];
      } else {
        SubsequenceCounts(a, b[1..]);
      }
    }
  }

  /** Dropping the head of a sequence drops one occurrence of it. */
  lemma TailCounts<T>(xs: seq<T>)
    requires |xs| > 0
    ensures forall x :: multiset(xs)[x] == multiset(xs[1..])[x] + (if x == xs[0] then 1 else 0)
  {
    assert xs == [xs[0]] + xs[1..];
  }

  lemma ConsTail<T>(r: seq<T>)
    requires |r| > 0
    ensures r == [r[0]] + r[1..]
  {
  }

  /** One step of the filter, as a fact to cite. */
  lemma FilterStep<T>(xs: seq<T>, p: T -> bool)
    requires |xs| > 0
    ensures Filter(xs, p) == (if p(xs[0]) then [xs[0]] else []) + Filter(xs[1..], p)
  {
  }

  /** A description whose first element is the head of `xs` describes the
      rest of `xs` without it. */
  lemma KeptHead<T(!new)>(r: seq<T>, xs: seq<T>, p: T -> bool)
    requires KeptInOrder(r, xs, p) && |r| > 0 && |xs| > 0 && r[0] == xs[0]
    ensures p(xs[0]) && KeptInOrder(r[1..], xs[1..], p)
  {
    TailCounts(xs);
    TailCounts(r);
    assert multiset(r)[xs[0]] > 0;
  }

  /** A description that does not start with the head of `xs` leaves the
      head out and describes the rest of `xs`. */
  lemma KeptSkip<T(!new)>(r: seq<T>, xs: seq<T>, p: T -> bool)
    requires KeptInOrder(r, xs, p) && |xs| > 0 && !(|r| > 0 && r[0] == xs[0])
    ensures !p(xs[0]) && KeptInOrder(r, xs[1..], p)
  {
    TailCounts(xs);
    assert IsSubsequence(r, xs[1..]);
    SubsequenceCounts(r, xs[1..]);
    // The head occurs in r less often than in xs, so p rejects it.
    assert multiset(r)[xs[0]] <= multiset(xs[1..])[xs[0]] < multiset(xs)[xs[0]];
  }

  /** Only the filter meets the description, so it pins the result down. */
  lemma {:induction false} KeptInOrderIsFilter<T(!new)>(r: seq<T>, xs: seq<T>, p: T -> bool)
    requires KeptInOrder(r, xs, p)
    ensures r == Filter(xs, p)
    decreases |xs|
  {
    if |xs| == 0 {
      assert multiset(r) == multiset{};
    } else if |r| > 0 && r[0] == xs[0] {
      KeptHead(r, xs, p);
      KeptInOrderIsFilter(r[1..], xs[1..], p);
      FilterStep(xs, p);
      ConsTail(r);
    } else {
      KeptSkip(r, xs, p);
      KeptInOrderIsFilter(r, xs[1..], p);
      FilterStep(xs, p);
    }
  }

  /** No two elements share a key. */
  predicate UniqueBy<T>(xs: seq<T>, key: T -> int) {
    forall i, j :: 0 <= i < j < |xs| ==> key(xs[i]) != key(xs[j])
  }

  /** Filtering never introduces a repeated key. */
  lemma {:induction false} FilterUniqueBy<T>(xs: seq<T>, p: T -> bool, key: T -> int)
    requires UniqueBy(xs, key)
    ensures UniqueBy(Filter(xs, p), key)
    decreases |xs|
  {
    if |xs| > 0 {
      var t := xs[1..];
      FilterUniqueBy(t, p, key);
      var ft := Filter(t, p);
      forall j | 0 <= j < |ft|
        ensures key(xs[0]) != key(ft[j])
      {
        var k :| 0 <= k < |t| && t[k] == ft[j];
        assert xs[k + 1] == ft[j];
      }
    }
  }

  /** Newest first: the reverse of insertion order. */
  function Reverse<T>(xs: seq<T>): (r: seq<T>)
    ensures |r| == |xs|
    ensures forall i :: 0 <= i < |xs| ==> r[i] == xs[|xs| - 1 - i]
  {
    if |xs| == 0 then [] else Reverse(xs[1..]) + [xs[0]]
  }

  /** Reversal keeps the elements. */
  lemma ReverseSameMembers<T>(xs: seq<T>)
    ensures forall x :: x in Reverse(xs) <==> x in xs
  {
    var r := Reverse(xs);
    forall x | x in xs ensures x in r {
      var k :| 0 <= k < |xs| && xs[k] == x;
      assert r[|xs| - 1 - k] == x;
    }
  }

  /** The matching elements, newest first: a filter of the reversed list
      that keeps the elements, their multiplicity and reversed order. */
  lemma NewestFirst<T>(xs: seq<T>, p: T -> bool)
    ensures Filter(Reverse(xs), p) == Reverse(Filter(xs, p))
    ensures IsSubsequence(Filter(Reverse(xs), p), Reverse(xs))
    ensures |Filter(Reverse(xs), p)| == |Filter(xs, p)|
    ensures forall x :: x in Filter(Reverse(xs), p) <==> x in xs && p(x)
  {
    FilterReverse(xs, p);
    FilterIsSubsequence(Reverse(xs), p);
    ReverseSameMembers(xs);
  }

  /** Reversal of a concatenation reverses the parts and swaps them. */
  lemma ReverseAppend<T>(a: seq<T>, b: seq<T>)
    ensures Reverse(a + b) == Reverse(b) + Reverse(a)
  {
  }

  /** Filtering a newest-first list gives the filtered items newest first. */
  lemma {:induction false} FilterReverse<T>(xs: seq<T>, p: T -> bool)
    ensures Filter(Reverse(xs), p) == Reverse(Filter(xs, p))
    decreases |xs|
  {
    if |xs| > 0 {
      var x, t := xs[0], xs[1..];
      var h := if p(x) then [x] else [];
      assert Reverse(xs) == Reverse(t) + [x];
      FilterAppend(Reverse(t), [x], p);
      FilterReverse(t, p);
      assert Filter([x], p) == h + Filter([x][1..], p);
      assert Filter(xs, p) == h + Filter(t, p);
      ReverseAppend(h, Filter(t, p));
      assert Reverse(h) == h;
    }
  }

  /** `xs.find(p)`: the first element that satisfies `p`, if any. */
  function FindFirst<T>(xs: seq<T>, p: T -> bool): (r: Option<T>)
    ensures r.Some? ==> r.value in xs && p(r.value)
    ensures r.None? ==> forall i :: 0 <= i < |xs| ==> !p(xs[i])
  {
    if |xs| == 0 then None
    else if p(xs[0]) then Some(xs[0])
    else FindFirst(xs[1..], p)
  }

  /** `xs.map(x => p(x) ? f(x) : x)`: rewrites the matching elements in
      place and leaves the others alone. */
  function MapWhere<T>(xs: seq<T>, p: T -> bool, f: T -> T): (r: seq<T>)
    ensures |r| == |xs|
    ensures forall i :: 0 <= i < |xs| ==> r[i] == (if p(xs[i]) then f(xs[i]) else xs[i])
  {
    seq(|xs|, i requires 0 <= i < |xs| => if p(xs[i]) then f(xs[i]) else xs[i])
  }

  function Min(a: int, b: int): int { if a <= b then a else b }

  /** `xs.slice(0, n)`. */
  function Take<T>(xs: seq<T>, n: nat): (r: seq<T>)
    ensures |r| == Min(n, |xs|)
    ensures r == xs[..|r|]
  {
    xs[..Min(n, |xs|)]
  }

  /** The page of a query with `.skip(skip).limit(limit)`. */
  function Window<T>(xs: seq<T>, skip: nat, limit: nat): (r: seq<T>)
    ensures |r| <= limit
    ensures skip <= |xs| ==> skip + |r| <= |xs| && r == xs[skip..skip + |r|]
    ensures skip <= |xs| ==> |r| == Min(limit, |xs| - skip)
    ensures skip + limit <= |xs| ==> |r| == limit
    ensures skip >= |xs| ==> r == []
    ensures forall i :: 0 <= i < |r| ==> r[i] in xs
  {
    xs[Min(skip, |xs|)..Min(skip + limit, |xs|)]
  }

  // ------------------------------------------------------- de-duplication

  predicate NoDuplicates<T(==)>(xs: seq<T>) {
    forall i, j :: 0 <= i < j < |xs| ==> xs[i] != xs[j]
  }

  /** The index of the first occurrence of `x` in `xs`. */
  function FirstIndex<T(==)>(xs: seq<T>, x: T): (k: nat)
    requires x in xs
    ensures k < |xs| && xs[k] == x
    ensures forall j :: 0 <= j < k ==> xs[j] != x
  {
    if xs[0] == x then 0 else 1 + FirstIndex(xs[1..], x)
  }

  /** `[...new Set(xs)]`: a Set iterates in first-insertion order. */
  function Dedupe<T(==)>(xs: seq<T>): seq<T>
  {
    if |xs| == 0 then []
    else
      var r := Dedupe(xs[..|xs| - 1]);
      if xs[|xs| - 1] in r then r else r + [xs[|xs| - 1]]
  }

  lemma {:induction false} FirstIndexOfPrefix<T>(xs: seq<T>, n: nat, x: T)
    requires n <= |xs| && x in xs[..n]
    ensures x in xs && FirstIndex(xs, x) == FirstIndex(xs[..n], x)
  {
    var k := FirstIndex(xs[..n], x);
    assert xs[k] == x;
  }

  /** De-duplication keeps exactly the elements of its input, once each,
      in the order of their first occurrences. */
  lemma {:induction false} DedupeSpec<T>(xs: seq<T>)
    ensures forall x :: x in Dedupe(xs) <==> x in xs
    ensures forall k :: 0 <= k < |Dedupe(xs)| ==> Dedupe(xs)[k] in xs
    ensures NoDuplicates(Dedupe(xs))
    ensures forall i, j :: 0 <= i < j < |Dedupe(xs)| ==>
              FirstIndex(xs, Dedupe(xs)[i]) < FirstIndex(xs, Dedupe(xs)[j])
    decreases |xs|
  {
    if |xs| > 0 {
      var n := |xs| - 1;
      var pre := xs[..n];
      var last := xs[n];
      DedupeSpec(pre);
      var r := Dedupe(pre);
      assert xs == pre + [last];
      forall k | 0 <= k < |r|
        ensures r[k] in pre && FirstIndex(xs, r[k]) == FirstIndex(pre, r[k])
      {
        FirstIndexOfPrefix(xs, n, r[k]);
      }
      if last !in r {
        assert last !in pre;
        assert FirstIndex(xs, last) == n;
        var r' := r + [last];
        forall i, j | 0 <= i < j < |r'|
          ensures FirstIndex(xs, r'[i]) < FirstIndex(xs, r'[j])
        {
          if j < |r| {
            assert r'[i] == r[i] && r'[j] == r[j];
          } else {
            assert r'[i] == r[i];
          }
        }
      }
    }
  }

  /** `Dedupe` computed the way the source computes it: one pass with a set
      of the values already kept. */
  method DedupeByPass<T(==)>(xs: seq<T>) returns (r: seq<T>)
    ensures r == Dedupe(xs)
  {
    var seen: set<T> := {};
    r := [];
    var i := 0;
    while i < |xs|
      invariant 0 <= i <= |xs|
      invariant r == Dedupe(xs[..i])
      invariant forall x :: x in seen <==> x in r
    {
      assert xs[..i + 1][..i] == xs[..i];
      if xs[i] !in seen {
        seen := seen + {xs[i]};
        r := r + [xs[i]];
      }
      i := i + 1;
    }
    assert xs[..i] == xs;
  }

  // ------------------------------------------------------------ sorting

  /** Code-point order on strings (the database's binary string order). */
  predicate StringLe(a: string, b: string)
    decreases |a|
  {
    if |a| == 0 then true
    else if |b| == 0 then false
    else if a[0] != b[0] then a[0] < b[0]
    else StringLe(a[1..], b[1..])
  }

  lemma {:induction false} StringLeTotal(a: string, b: string)
    ensures StringLe(a, b) || StringLe(b, a)
    decreases |a|
  {
    if |a| > 0 && |b| > 0 && a[0] == b[0] {
      StringLeTotal(a[1..], b[1..]);
    }
  }

  lemma {:induction false} StringLeTransitive(a: string, b: string, c: string)
    requires StringLe(a, b) && StringLe(b, c)
    ensures StringLe(a, c)
    decreases |a|
  {
    if |a| > 0 && |b| > 0 && |c| > 0 && a[0] == b[0] && b[0] == c[0] {
      StringLeTransitive(a[1..], b[1..], c[1..]);
    }
  }

  predicate SortedBy<T>(xs: seq<T>, key: T -> string) {
    forall i, j :: 0 <= i < j < |xs| ==> StringLe(key(xs[i]), key(xs[j]))
  }

  function Insert<T>(x: T, xs: seq<T>, key: T -> string): (r: seq<T>)
    requires SortedBy(xs, key)
    ensures multiset(r) == multiset(xs) + multiset{x}
    ensures SortedBy(r, key)
  {
    if |xs| == 0 then [x]
    else if StringLe(key(x), key(xs[0])) then
      BelowHeadBelowAll(x, xs, key);
      [x] + xs
    else
      StringLeTotal(key(x), key(xs[0]));
      var t := Insert(x, xs[1..], key);
      HeadBelowInserted(x, xs, key, t);
      [xs[0]] + t
  }

  /** A key no greater than a sorted list's head is no greater than any
      of its keys. */
  lemma BelowHeadBelowAll<T>(x: T, xs: seq<T>, key: T -> string)
    requires SortedBy(xs, key) && |xs| > 0 && StringLe(key(x), key(xs[0]))
    ensures SortedBy([x] + xs, key)
  {
    forall j | 0 <= j < |xs| ensures StringLe(key(x), key(xs[j])) {
      if j > 0 { StringLeTransitive(key(x), key(xs[0]), key(xs[j])); }
    }
  }

  /** A sorted list's head stays first once `x` is inserted into its tail. */
  lemma HeadBelowInserted<T>(x: T, xs: seq<T>, key: T -> string, t: seq<T>)
    requires SortedBy(xs, key) && |xs| > 0 && StringLe(key(xs[0]), key(x))
    requires multiset(t) == multiset(xs[1..]) + multiset{x} && SortedBy(t, key)
    ensures multiset([xs[0]] + t) == multiset(xs) + multiset{x}
    ensures SortedBy([xs[0]] + t, key)
  {
    assert xs == [xs[0]] + xs[1..];
    assert forall y :: y in multiset(t) ==> y == x || y in multiset(xs[1..]);
    forall j | 0 <= j < |t| ensures StringLe(key(xs[0]), key(t[j])) {
      assert t[j] in multiset(t);
    }
  }

  /** Two permutations of each other hold the same elements. */
  lemma PermutationSameMembers<T>(a: seq<T>, b: seq<T>)
    requires multiset(a) == multiset(b)
    ensures forall x :: x in a <==> x in b
  {
    forall x ensures x in a <==> x in b {
      assert x in a <==> x in multiset(a);
      assert x in b <==> x in multiset(b);
    }
  }

  /** `.sort({ key: 1 })`: an ascending permutation of the input. */
  function SortBy<T>(xs: seq<T>, key: T -> string): (r: seq<T>)
    ensures multiset(r) == multiset(xs)
    ensures SortedBy(r, key)
  {
    if |xs| == 0 then []
    else
      assert xs == [xs[0]] + xs[1..];
      Insert(xs[0], SortBy(xs[1..], key), key)
  }
}

=== FILE: storage.dfy ===
/** The client's local-storage manager: the signed-in user, the selected
    website, a time-limited chat-history cache and a general cache with a
    per-entry lifetime. Local storage is a map from keys to stored text;
    text written with `JSON.stringify` is kept as the fields the manager
    reads back, and any other text is `Raw`. Times are milliseconds and
    the clock is a parameter. */
module Storage {
  import opened Wrappers
  import opened Constants
  import Text

  /** What `JSON.parse` makes of a stored item. A missing field is `None`. */
  datatype Entry =
    | Record(timestamp: Option<int>, maxAge: Option<int>, data: string)
    | Raw(text: string)   // text that `JSON.parse` rejects

  type LocalStorage = map<string, Entry>

  /** Default lifetimes of a chat-history read and of a cache entry. */
  const ChatHistoryMaxAge: int := 5 * 60 * 1000
  const CacheMaxAge: int := 10 * 60 * 1000

  const CachePrefix: string := "cache_"

  function ChatKey(userId: string, websiteId: string): string {
    ChatHistoryKey + "_" + userId + "_" + websiteId
  }

  function CacheKey(key: string): string { CachePrefix + key }

  /** Entries whose keys start with `prefix`, removed. */
  function RemovePrefixed(st: LocalStorage, prefix: string): (r: LocalStorage)
    ensures forall k :: k in r <==> k in st && !Text.StartsWith(k, prefix)
    ensures forall k :: k in r ==> r[k] == st[k]
  {
    map k | k in st && !Text.StartsWith(k, prefix) :: st[k]
  }

  /** The freshness test of both caches: `now - timestamp > maxAge` is
      false whenever either side is missing. */
  predicate Stale(e: Entry, now: int, maxAge: Option<int>) {
    e.Record? && e.timestamp.Some? && maxAge.Some? && now - e.timestamp.value > maxAge.value
  }

  /** A read of a cache: the value found, and the storage afterwards (a
      stale entry is removed). */
  datatype Read = Read(value: Option<string>, store: LocalStorage)

  /** Reads `key` with the given lifetime. */
  function ReadFresh(st: LocalStorage, key: string, now: int, maxAge: Option<int>): (r: Read)
    ensures r.value.Some? <==> key in st && st[key].Record? && !Stale(st[key], now, maxAge)
    ensures r.value.Some? ==> r.value.value == st[key].data
    ensures key in st && Stale(st[key], now, maxAge) ==> r.store == st - {key}
    ensures !(key in st && Stale(st[key], now, maxAge)) ==> r.store == st
  {
    if key !in st then Read(None, st)
    else match st[key]
      case Raw(_) => Read(None, st)
      case Record(_, _, data) =>
        if Stale(st[key], now, maxAge) then Read(None, st - {key}) else Read(Some(data), st)
  }

  // ----------------------------------------------------------------- user

  function SetUser(st: LocalStorage, userId: string, userData: string): (r: LocalStorage)
    ensures r.Keys == st.Keys + {UserIdKey, UserDataKey}
    ensures forall k :: k in st && k != UserIdKey && k != UserDataKey ==> r[k] == st[k]
  {
    st[UserIdKey := Raw(userId)][UserDataKey := Record(None, None, userData)]
  }

  /** `getUser`: the stored user data, or nothing when it is missing or
      does not parse. */
  function GetUser(st: LocalStorage): (r: Option<string>)
    ensures r.Some? <==> UserDataKey in st && st[UserDataKey].Record?
    ensures r.Some? ==> r.value == st[UserDataKey].data
  {
    if UserDataKey in st && st[UserDataKey].Record? then Some(st[UserDataKey].data) else None
  }

  function ClearUser(st: LocalStorage): (r: LocalStorage)
    ensures r.Keys == st.Keys - {UserIdKey, UserDataKey}
    ensures forall k :: k in r ==> r[k] == st[k]
  {
    st - {UserIdKey, UserDataKey}
  }

  /** `clearUser` removes exactly what `setUser` wrote; the stored user
      reads back until then. */
  lemma UserRoundTrip(st: LocalStorage, userId: string, userData: string)
    ensures GetUser(SetUser(st, userId, userData)) == Some(userData)
    ensures ClearUser(SetUser(st, userId, userData)) == ClearUser(st)
    ensures GetUser(ClearUser(st)) == None
  {
    assert ClearUser(SetUser(st, userId, userData)).Keys == ClearUser(st).Keys;
  }

  // ------------------------------------------------------ selected website

  function SetSelectedWebsite(st: LocalStorage, website: string): (r: LocalStorage)
    ensures r.Keys == st.Keys + {SelectedWebsiteKey}
    ensures forall k :: k in st && k != SelectedWebsiteKey ==> r[k] == st[k]
  {
    st[SelectedWebsiteKey := Record(None, None, website)]
  }

  function GetSelectedWebsite(st: LocalStorage): (r: Option<string>)
    ensures r.Some? <==> SelectedWebsiteKey in st && st[SelectedWebsiteKey].Record?
    ensures r.Some? ==> r.value == st[SelectedWebsiteKey].data
  {
    if SelectedWebsiteKey in st && st[SelectedWebsiteKey].Record? then Some(st[SelectedWebsiteKey].data) else None
  }

  function ClearSelectedWebsite(st: LocalStorage): (r: LocalStorage)
    ensures r.Keys == st.Keys - {SelectedWebsiteKey}
    ensures forall k :: k in r ==> r[k] == st[k]
  {
    st - {SelectedWebsiteKey}
  }

  /** The selection reads back, and clearing it touches nothing else. */
  lemma SelectedWebsiteRoundTrip(st: LocalStorage, website: string)
    ensures GetSelectedWebsite(SetSelectedWebsite(st, website)) == Some(website)
    ensures GetSelectedWebsite(ClearSelectedWebsite(st)) == None
    ensures forall k :: k in st && k != SelectedWebsiteKey ==> k in ClearSelectedWebsite(st) && ClearSelectedWebsite(st)[k] == st[k]
  {
  }

  // ---------------------------------------------------------- chat history

  function SetChatHistory(st: LocalStorage, userId: string, websiteId: string, history: string, now: int): (r: LocalStorage)
    ensures r.Keys == st.Keys + {ChatKey(userId, websiteId)}
    ensures r[ChatKey(userId, websiteId)] == Record(Some(now), None, history)
    ensures forall k :: k in st && k != ChatKey(userId, websiteId) ==> r[k] == st[k]
  {
    st[ChatKey(userId, websiteId) := Record(Some(now), None, history)]
  }

  /** `getChatHistory`: the cached history if it is at most `maxAge` old;
      a stale entry is removed, while text that does not parse is left in
      place and nothing is returned. */
  function GetChatHistory(st: LocalStorage, userId: string, websiteId: string, now: int, maxAge: int): (r: Read)
    ensures var key := ChatKey(userId, websiteId);
      && (r.value.Some? <==> key in st && st[key].Record? && !Stale(st[key], now, Some(maxAge)))
      && (r.value.Some? ==> r.value.value == st[key].data)
      && (r.value.None? && key in st && st[key].Record? ==> r.store == st - {key})
      && (r.value.Some? || key !in st || st[key].Raw? ==> r.store == st)
  {
    ReadFresh(st, ChatKey(userId, websiteId), now, Some(maxAge))
  }

  /** A history written at `t` reads back until `maxAge` has passed, and is
      gone, read or not, afterwards. */
  lemma ChatHistoryLifetime(st: LocalStorage, userId: string, websiteId: string, history: string, t: int, now: int, maxAge: int)
    ensures var r := GetChatHistory(SetChatHistory(st, userId, websiteId, history, t), userId, websiteId, now, maxAge);
      && (now - t <= maxAge ==> r.value == Some(history))
      && (now - t > maxAge ==> r.value.None? && ChatKey(userId, websiteId) !in r.store)
  {
  }

  /** `clearChatHistory`: one entry when both ids are given, otherwise every
      key that starts with the chat-history prefix. */
  function ClearChatHistory(st: LocalStorage, userId: Option<string>, websiteId: Option<string>): (r: LocalStorage)
    ensures userId.Some? && userId.value != [] && websiteId.Some? && websiteId.value != [] ==>
      r == st - {ChatKey(userId.value, websiteId.value)}
    ensures !(userId.Some? && userId.value != [] && websiteId.Some? && websiteId.value != []) ==>
      forall k :: k in r <==> k in st && !Text.StartsWith(k, ChatHistoryKey)
    ensures r.Keys <= st.Keys
    ensures forall k :: k in r ==> r[k] == st[k]
    ensures (forall u, w :: ChatKey(u, w) !in r) || (userId.Some? && websiteId.Some?)
    ensures forall k :: k in st && !Text.StartsWith(k, ChatHistoryKey) ==> k in r
  {
    if userId.Some? && userId.value != [] && websiteId.Some? && websiteId.value != [] then
      ChatKeyIsPrefixed(userId.value, websiteId.value);
      st - {ChatKey(userId.value, websiteId.value)}
    else
      forall u, w ensures ChatKey(u, w) !in RemovePrefixed(st, ChatHistoryKey) { ChatKeyIsPrefixed(u, w); }
      RemovePrefixed(st, ChatHistoryKey)
  }

  lemma ChatKeyIsPrefixed(u: string, w: string)
    ensures Text.StartsWith(ChatKey(u, w), ChatHistoryKey)
  {
    assert ChatKey(u, w) == ChatHistoryKey + ("_" + u + "_" + w);
  }

  // ----------------------------------------------------------------- cache

  function SetCache(st: LocalStorage, key: string, data: string, now: int, maxAge: int): (r: LocalStorage)
    ensures r.Keys == st.Keys + {CacheKey(key)}
    ensures r[CacheKey(key)] == Record(Some(now), Some(maxAge), data)
    ensures forall k :: k in st && k != CacheKey(key) ==> r[k] == st[k]
  {
    st[CacheKey(key) := Record(Some(now), Some(maxAge), data)]
  }

  /** `getCache`: the entry's own lifetime decides freshness; a stale
      entry is removed, text that does not parse is left in place. */
  function GetCache(st: LocalStorage, key: string, now: int): (r: Read)
    ensures var k := CacheKey(key);
      && (r.value.Some? <==> k in st && st[k].Record? && !Stale(st[k], now, st[k].maxAge))
      && (r.value.Some? ==> r.value.value == st[k].data)
      && (r.value.None? && k in st && st[k].Record? ==> r.store == st - {k})
      && (r.value.Some? || k !in st || st[k].Raw? ==> r.store == st)
  {
    var k := CacheKey(key);
    ReadFresh(st, k, now, if k in st && st[k].Record? then st[k].maxAge else None)
  }

  /** A cached value reads back until its own lifetime has passed. */
  lemma CacheLifetime(st: LocalStorage, key: string, data: string, t: int, now: int, maxAge: int)
    ensures var r := GetCache(SetCache(st, key, data, t, maxAge), key, now);
      && (now - t <= maxAge ==> r.value == Some(data) && r.store == SetCache(st, key, data, t, maxAge))
      && (now - t > maxAge ==> r.value.None? && CacheKey(key) !in r.store)
  {
  }

  /** `clearCache`: one entry for a non-empty key, otherwise every
      `cache_` key; nothing else is touched. */
  function ClearCache(st: LocalStorage, key: Option<string>): (r: LocalStorage)
    ensures r.Keys <= st.Keys
    ensures forall k :: k in r ==> r[k] == st[k]
    ensures key.Some? && key.value != [] ==> r.Keys == st.Keys - {CacheKey(key.value)}
    ensures !(key.Some? && key.value != []) ==> forall k :: k in r <==> k in st && !Text.StartsWith(k, CachePrefix)
  {
    if key.Some? && key.value != [] then st - {CacheKey(key.value)} else RemovePrefixed(st, CachePrefix)
  }

  /** Clearing every cache entry leaves the chat history, the user and the
      selected website as they were. */
  lemma ClearCacheKeepsOthers(st: LocalStorage, u: string, w: string)
    ensures var r := ClearCache(st, None);
      && (ChatKey(u, w) in st ==> ChatKey(u, w) in r && r[ChatKey(u, w)] == st[ChatKey(u, w)])
      && (UserIdKey in st ==> UserIdKey in r && r[UserIdKey] == st[UserIdKey])
      && (UserDataKey in st ==> UserDataKey in r && r[UserDataKey] == st[UserDataKey])
      && (SelectedWebsiteKey in st ==> SelectedWebsiteKey in r && r[SelectedWebsiteKey] == st[SelectedWebsiteKey])
  {
    assert !Text.StartsWith(SelectedWebsiteKey, CachePrefix) by { assert SelectedWebsiteKey[..6][0] == 's'; }
    assert ChatKey(u, w)[1] == 'h';
    assert !Text.StartsWith(UserIdKey, CachePrefix) by { assert UserIdKey[..6][0] == 'u'; }
    assert !Text.StartsWith(UserDataKey, CachePrefix) by { assert UserDataKey[..6][0] == 'u'; }
  }

  // --------------------------------------------------------------- cleanup

  /** The keys `cleanup` looks at. */
  predicate Tracked(k: string) { Text.StartsWith(k, CachePrefix) || Text.StartsWith(k, ChatHistoryKey) }

  /** `data.timestamp && data.maxAge`, then the age test; text that does not
      parse is removed as corrupted. */
  predicate Expired(e: Entry, now: int) {
    match e
      case Raw(_) => true
      case Record(t, m, _) =>
        t.Some? && t.value != 0 && m.Some? && m.value != 0 && now - t.value > m.value
  }

  /** `cleanup`. */
  function Cleanup(st: LocalStorage, now: int): (r: LocalStorage)
    ensures r.Keys <= st.Keys
    ensures forall k :: k in r ==> r[k] == st[k] && !(Tracked(k) && Expired(r[k], now))
    ensures forall k :: k in st && !(Tracked(k) && Expired(st[k], now)) ==> k in r
    ensures forall k :: k in st && !Tracked(k) ==> k in r
  {
    map k | k in st && !(Tracked(k) && Expired(st[k], now)) :: st[k]
  }

  /** Cleaning up twice at the same moment is cleaning up once. */
  lemma CleanupIdempotent(st: LocalStorage, now: int)
    ensures Cleanup(Cleanup(st, now), now) == Cleanup(st, now)
  {
    var once := Cleanup(st, now);
    assert Cleanup(once, now).Keys == once.Keys;
  }

  /** Chat-history entries carry no lifetime, so cleanup never expires
      them however old they are. */
  lemma CleanupKeepsChatHistory(st: LocalStorage, userId: string, websiteId: string, history: string, t: int, now: int)
    ensures var written := SetChatHistory(st, userId, websiteId, history, t);
      ChatKey(userId, websiteId) in Cleanup(written, now)
  {
  }

  /** For a cache entry with a non-zero timestamp and lifetime, cleanup
      removes it exactly when `getCache` would find it stale. */
  lemma CleanupAgreesWithGetCache(st: LocalStorage, key: string, now: int)
    requires CacheKey(key) in st && st[CacheKey(key)].Record?
    requires st[CacheKey(key)].timestamp.Some? && st[CacheKey(key)].timestamp.value != 0
    requires st[CacheKey(key)].maxAge.Some? && st[CacheKey(key)].maxAge.value != 0
    ensures CacheKey(key) !in Cleanup(st, now) <==> GetCache(st, key, now).value.None?
  {
    assert Text.StartsWith(CacheKey(key), CachePrefix) by {
      assert CacheKey(key)[..|CachePrefix|] == CachePrefix;
    }
  }
}

=== FILE: store.dfy ===
/** The database as the controllers see it: four collections kept in
    insertion order (so "newest first" is the reverse order) and a counter
    that hands out fresh identifiers. */
module Store {
  import opened Wrappers
  import opened Models
  import Seqs

  datatype Db = Db(
    websites: seq<Website>,
    documents: seq<Document>,
    users: seq<User>,
    chats: seq<ChatRecord>,
    nextId: nat)

  const Empty: Db := Db([], [], [], [], 0)

  /** Identifiers are unique within each collection and below the counter;
      website URLs are unique (the schema's unique index). */
  predicate Wf(db: Db) {
    && (forall i, j :: 0 <= i < j < |db.websites| ==> db.websites[i].id != db.websites[j].id)
    && (forall i, j :: 0 <= i < j < |db.websites| ==> db.websites[i].url != db.websites[j].url)
    && (forall i, j :: 0 <= i < j < |db.documents| ==> db.documents[i].id != db.documents[j].id)
    && (forall i, j :: 0 <= i < j < |db.users| ==> db.users[i].id != db.users[j].id)
    && (forall i, j :: 0 <= i < j < |db.chats| ==> db.chats[i].id != db.chats[j].id)
    && (forall i :: 0 <= i < |db.websites| ==> db.websites[i].id < db.nextId)
    && (forall i :: 0 <= i < |db.documents| ==> db.documents[i].id < db.nextId)
    && (forall i :: 0 <= i < |db.users| ==> db.users[i].id < db.nextId)
    && (forall i :: 0 <= i < |db.chats| ==> db.chats[i].id < db.nextId)
  }

  function WebsiteWithId(id: Id): Website -> bool { (w: Website) => w.id == id }
  function WebsiteWithUrl(url: string): Website -> bool { (w: Website) => w.url == url }
  function UserWithId(id: Id): User -> bool { (u: User) => u.id == id }
  function UserWithEmail(email: string): User -> bool { (u: User) => u.email == email }
  function UserWithToken(token: string): User -> bool { (u: User) => u.refreshToken == Some(token) }
  function ChatOf(id: Id, userId: Id): ChatRecord -> bool { (c: ChatRecord) => c.id == id && c.userId == userId }

  /** `Website.findById`. */
  function FindWebsite(ws: seq<Website>, id: Id): (r: Option<Website>)
    ensures r.Some? ==> r.value in ws && r.value.id == id
    ensures r.None? ==> forall i :: 0 <= i < |ws| ==> ws[i].id != id
  {
    Seqs.FindFirst(ws, WebsiteWithId(id))
  }

  /** `Website.findOne({ url })`. */
  function FindWebsiteByUrl(ws: seq<Website>, url: string): (r: Option<Website>)
    ensures r.Some? ==> r.value in ws && r.value.url == url
    ensures r.None? ==> forall i :: 0 <= i < |ws| ==> ws[i].url != url
  {
    Seqs.FindFirst(ws, WebsiteWithUrl(url))
  }

  /** `User.findById`. */
  function FindUser(us: seq<User>, id: Id): (r: Option<User>)
    ensures r.Some? ==> r.value in us && r.value.id == id
    ensures r.None? ==> forall i :: 0 <= i < |us| ==> us[i].id != id
  {
    Seqs.FindFirst(us, UserWithId(id))
  }

  /** `User.findOne({ email })`. */
  function FindUserByEmail(us: seq<User>, email: string): (r: Option<User>)
    ensures r.Some? ==> r.value in us && r.value.email == email
    ensures r.None? ==> forall i :: 0 <= i < |us| ==> us[i].email != email
  {
    Seqs.FindFirst(us, UserWithEmail(email))
  }

  /** `User.findOne({ refreshToken })`. */
  function FindUserByToken(us: seq<User>, token: string): (r: Option<User>)
    ensures r.Some? ==> r.value in us && r.value.refreshToken == Some(token)
    ensures r.None? ==> forall i :: 0 <= i < |us| ==> us[i].refreshToken != Some(token)
  {
    Seqs.FindFirst(us, UserWithToken(token))
  }

  /** `ChatHistory.findOne({ _id, userId })`. */
  function FindChat(cs: seq<ChatRecord>, id: Id, userId: Id): (r: Option<ChatRecord>)
    ensures r.Some? ==> r.value in cs && r.value.id == id && r.value.userId == userId
    ensures r.None? ==> forall i :: 0 <= i < |cs| ==> !(cs[i].id == id && cs[i].userId == userId)
  {
    Seqs.FindFirst(cs, ChatOf(id, userId))
  }

  /** `findByIdAndUpdate` on websites: every website with the id gets the
      update, the others stay as they are. A missing id changes nothing. */
  function MapWebsite(ws: seq<Website>, id: Id, upd: Website -> Website): (r: seq<Website>)
    ensures |r| == |ws|
    ensures forall i :: 0 <= i < |ws| ==> r[i] == (if ws[i].id == id then upd(ws[i]) else ws[i])
  {
    seq(|ws|, i requires 0 <= i < |ws| => if ws[i].id == id then upd(ws[i]) else ws[i])
  }

  /** An update that keeps identifiers and URLs keeps the store well formed. */
  lemma MapWebsitePreservesWf(db: Db, id: Id, upd: Website -> Website)
    requires Wf(db)
    requires forall w :: upd(w).id == w.id && upd(w).url == w.url
    ensures Wf(db.(websites := MapWebsite(db.websites, id, upd)))
  {
  }

  /** After an update of an existing website, looking it up yields the
      updated record. */
  lemma FindAfterMap(ws: seq<Website>, id: Id, upd: Website -> Website)
    requires FindWebsite(ws, id).Some?
    requires upd(FindWebsite(ws, id).value).id == id
    ensures FindWebsite(MapWebsite(ws, id, upd), id) == Some(upd(FindWebsite(ws, id).value))
    decreases |ws|
  {
    if ws[0].id != id {
      assert MapWebsite(ws, id, upd)[1..] == MapWebsite(ws[1..], id, upd);
      FindAfterMap(ws[1..], id, upd);
    }
  }

  /** `findByIdAndUpdate` on users. */
  function MapUser(us: seq<User>, id: Id, upd: User -> User): (r: seq<User>)
    ensures |r| == |us|
    ensures forall i :: 0 <= i < |us| ==> r[i] == (if us[i].id == id then upd(us[i]) else us[i])
  {
    seq(|us|, i requires 0 <= i < |us| => if us[i].id == id then upd(us[i]) else us[i])
  }

  /** An update that keeps identifiers keeps the store well formed. */
  lemma MapUserPreservesWf(db: Db, id: Id, upd: User -> User)
    requires Wf(db)
    requires forall u :: upd(u).id == u.id
    ensures Wf(db.(users := MapUser(db.users, id, upd)))
  {
  }

  /** After an update of an existing user, looking it up yields the
      updated record. */
  lemma FindUserAfterMap(us: seq<User>, id: Id, upd: User -> User)
    requires FindUser(us, id).Some?
    requires upd(FindUser(us, id).value).id == id
    ensures FindUser(MapUser(us, id, upd), id) == Some(upd(FindUser(us, id).value))
    decreases |us|
  {
    if us[0].id != id {
      assert MapUser(us, id, upd)[1..] == MapUser(us[1..], id, upd);
      FindUserAfterMap(us[1..], id, upd);
    }
  }

  /** With unique identifiers a user is found by its own identifier. */
  lemma {:induction false} FindUserAt(us: seq<User>, k: nat)
    requires k < |us|
    requires forall i, j :: 0 <= i < j < |us| ==> us[i].id != us[j].id
    ensures FindUser(us, us[k].id) == Some(us[k])
    decreases k
  {
    if k > 0 {
      assert us[0].id != us[k].id;
      assert us[1..][k - 1] == us[k];
      FindUserAt(us[1..], k - 1);
    }
  }

  function OfWebsite(websiteId: Id): Document -> bool { (d: Document) => d.websiteId == websiteId }
  function NotOfWebsite(websiteId: Id): Document -> bool { (d: Document) => d.websiteId != websiteId }

  /** An update by an identifier no website has changes nothing. */
  lemma MapWebsiteMissing(ws: seq<Website>, id: Id, upd: Website -> Website)
    requires FindWebsite(ws, id).None?
    ensures MapWebsite(ws, id, upd) == ws
  {
  }

  /** Saving a website under the next identifier, with a URL no stored
      website has, keeps the store well formed. */
  lemma InsertWebsitePreservesWf(db: Db, w: Website)
    requires Wf(db) && w.id == db.nextId
    requires forall i :: 0 <= i < |db.websites| ==> db.websites[i].url != w.url
    ensures Wf(db.(websites := db.websites + [w], nextId := db.nextId + 1))
  {
  }

  /** Saving a user under the next identifier keeps the store well formed. */
  lemma InsertUserPreservesWf(db: Db, u: User)
    requires Wf(db) && u.id == db.nextId
    ensures Wf(db.(users := db.users + [u], nextId := db.nextId + 1))
  {
  }

  /** Saving a document under the next identifier keeps the store well
      formed and advances the counter past it. */
  lemma InsertDocumentPreservesWf(db: Db, d: Document)
    requires Wf(db) && d.id == db.nextId
    ensures Wf(db.(documents := db.documents + [d], nextId := db.nextId + 1))
  {
  }

  /** Saving a chat record under the next identifier keeps the store well
      formed. */
  lemma InsertChatPreservesWf(db: Db, c: ChatRecord)
    requires Wf(db) && c.id == db.nextId
    ensures Wf(db.(chats := db.chats + [c], nextId := db.nextId + 1))
  {
  }

  /** `CrawledContent.deleteMany({ websiteId })`. */
  function RemoveDocumentsOf(ds: seq<Document>, websiteId: Id): (r: seq<Document>)
  {
    Seqs.Filter(ds, NotOfWebsite(websiteId))
  }

  /** `CrawledContent.find({ websiteId })`, in insertion order. */
  function DocumentsOf(ds: seq<Document>, websiteId: Id): (r: seq<Document>)
  {
    Seqs.Filter(ds, OfWebsite(websiteId))
  }

  /** After the removal no document of the website is left, and every
      document of another website is. */
  lemma DocumentsOfAfterRemove(ds: seq<Document>, websiteId: Id)
    ensures DocumentsOf(RemoveDocumentsOf(ds, websiteId), websiteId) == []
    ensures forall i :: 0 <= i < |ds| && ds[i].websiteId != websiteId ==> ds[i] in RemoveDocumentsOf(ds, websiteId)
  {
    var r := RemoveDocumentsOf(ds, websiteId);
    assert forall i :: 0 <= i < |r| ==> !OfWebsite(websiteId)(r[i]);
    Seqs.FilterNone(r, OfWebsite(websiteId));
    var p := NotOfWebsite(websiteId);
    forall i | 0 <= i < |ds| && ds[i].websiteId != websiteId
      ensures ds[i] in RemoveDocumentsOf(ds, websiteId)
    {
      assert p(ds[i]);
      assert ds[i] in Seqs.Filter(ds, p);
    }
  }

  /** Appending a document adds exactly it to its website's list. */
  lemma DocumentsOfAppend(ds: seq<Document>, d: Document)
    ensures DocumentsOf(ds + [d], d.websiteId) == DocumentsOf(ds, d.websiteId) + [d]
  {
    var p := OfWebsite(d.websiteId);
    Seqs.FilterAppend(ds, [d], p);
    assert Seqs.Filter([d], p) == [d] + Seqs.Filter([], p);
  }

  /** Removing a website's documents keeps the store well formed. */
  lemma RemoveDocumentsPreservesWf(db: Db, websiteId: Id)
    requires Wf(db)
    ensures Wf(db.(documents := RemoveDocumentsOf(db.documents, websiteId)))
  {
    Seqs.FilterUniqueBy(db.documents, NotOfWebsite(websiteId), (d: Document) => d.id);
  }
}

=== FILE: text.dfy ===
/** JavaScript string primitives used throughout the application: the `\s`
    character class, `trim`, `replace(/\s+/g, ' ')`, `split(/\s+/)`,
    `split(',')`, `join`, `startsWith`, `includes` and ASCII case mapping.
    A string is a sequence of characters; each character is one element of
    the JavaScript string. */
module Text {
  import opened Wrappers

  /** The characters matched by the regular-expression class `\s`, which are
      also the characters `String.prototype.trim` removes. */
  predicate IsSpace(c: char) {
    var n := c as int;
    n == 0x20 || (0x09 <= n <= 0x0D) || n == 0xA0 || n == 0x1680
    || (0x2000 <= n <= 0x200A) || n == 0x2028 || n == 0x2029
    || n == 0x202F || n == 0x205F || n == 0x3000 || n == 0xFEFF
  }

  /** The characters that `.` in a regular expression does not match. */
  predicate IsLineTerminator(c: char) {
    var n := c as int;
    n == 0x0A || n == 0x0D || n == 0x2028 || n == 0x2029
  }

  predicate IsUpperAscii(c: char) { 'A' <= c <= 'Z' }
  predicate IsLowerAscii(c: char) { 'a' <= c <= 'z' }
  predicate IsDigit(c: char) { '0' <= c <= '9' }

  /** The class `\w`: ASCII letters, digits and underscore. */
  predicate IsWordChar(c: char) {
    IsUpperAscii(c) || IsLowerAscii(c) || IsDigit(c) || c == '_'
  }

  function Lower(c: char): (r: char)
    ensures !IsUpperAscii(r)
    ensures IsUpperAscii(c) || r == c
  {
    if IsUpperAscii(c) then (c as int + 32) as char else c
  }

  function Upper(c: char): (r: char)
    ensures !IsLowerAscii(r)
    ensures IsLowerAscii(c) || r == c
  {
    if IsLowerAscii(c) then (c as int - 32) as char else c
  }

  /** `toLowerCase`, restricted to the ASCII letters. */
  function ToLower(s: string): (r: string)
    ensures |r| == |s|
    ensures forall i :: 0 <= i < |s| ==> r[i] == Lower(s[i])
  {
    seq(|s|, i requires 0 <= i < |s| => Lower(s[i]))
  }

  predicate NoUpper(s: string) {
    forall i :: 0 <= i < |s| ==> !IsUpperAscii(s[i])
  }

  lemma ToLowerFixesNoUpper(s: string)
    requires NoUpper(s)
    ensures ToLower(s) == s
  {
  }

  predicate StartsWith(s: string, p: string) {
    |p| <= |s| && s[..|p|] == p
  }

  predicate OccursAt(s: string, t: string, i: int) {
    0 <= i && i + |t| <= |s| && s[i..i + |t|] == t
  }

  /** `s.includes(t)`. */
  predicate Contains(s: string, t: string) {
    exists i :: 0 <= i <= |s| - |t| && OccursAt(s, t, i)
  }

  lemma ContainsEmpty(s: string)
    ensures Contains(s, "")
  {
    assert OccursAt(s, "", 0);
  }

  predicate AllSpace(s: string) {
    forall i :: 0 <= i < |s| ==> IsSpace(s[i])
  }

  predicate NoSpace(s: string) {
    forall i :: 0 <= i < |s| ==> !IsSpace(s[i])
  }

  // ---------------------------------------------------------------- trim

  /** The end of the run of whitespace that starts at `i`. */
  function SkipSpaces(s: string, i: nat): (j: nat)
    requires i <= |s|
    ensures i <= j <= |s|
    ensures forall k :: i <= k < j ==> IsSpace(s[k])
    ensures j < |s| ==> !IsSpace(s[j])
    decreases |s| - i
  {
    if i < |s| && IsSpace(s[i]) then SkipSpaces(s, i + 1) else i
  }

  /** The end of `s[a..b]` once its trailing whitespace is dropped. */
  function SkipSpacesBack(s: string, a: nat, b: nat): (e: nat)
    requires a <= b <= |s|
    ensures a <= e <= b
    ensures forall k :: e <= k < b ==> IsSpace(s[k])
    ensures e > a ==> !IsSpace(s[e - 1])
    decreases b
  {
    if b > a && IsSpace(s[b - 1]) then SkipSpacesBack(s, a, b - 1) else b
  }

  function TrimFrom(s: string): nat { SkipSpaces(s, 0) }

  function TrimTo(s: string): (b: nat)
    ensures TrimFrom(s) <= b <= |s|
  {
    SkipSpacesBack(s, TrimFrom(s), |s|)
  }

  /** `String.prototype.trim`: the slice of `s` between its leading and its
      trailing run of whitespace. */
  function Trim(s: string): (r: string)
    ensures r == s[TrimFrom(s)..TrimTo(s)]
    ensures AllSpace(s[..TrimFrom(s)]) && AllSpace(s[TrimTo(s)..])
    ensures |r| > 0 ==> !IsSpace(r[0]) && !IsSpace(r[|r| - 1])
  {
    s[TrimFrom(s)..TrimTo(s)]
  }

  lemma TrimEmptyIffAllSpace(s: string)
    ensures Trim(s) == [] <==> AllSpace(s)
  {
    if AllSpace(s) {
      assert TrimFrom(s) == |s|;
    }
  }

  lemma TrimOfTrimmed(s: string)
    requires |s| == 0 || (!IsSpace(s[0]) && !IsSpace(s[|s| - 1]))
    ensures Trim(s) == s
  {
  }

  // ----------------------------------------------- whitespace collapsing

  /** The first whitespace position at or after `i`, or `|s|`. */
  function NextSpace(s: string, i: nat): (j: nat)
    requires i <= |s|
    ensures i <= j <= |s|
    ensures forall k :: i <= k < j ==> !IsSpace(s[k])
    ensures j < |s| ==> IsSpace(s[j])
    decreases |s| - i
  {
    if i < |s| && !IsSpace(s[i]) then NextSpace(s, i + 1) else i
  }

  /** `s.replace(/\s+/g, ' ')`: every maximal run of whitespace becomes one space. */
  function Collapse(s: string): string
    decreases |s|
  {
    if |s| == 0 then []
    else if IsSpace(s[0]) then " " + Collapse(s[SkipSpaces(s, 0)..])
    else [s[0]] + Collapse(s[1..])
  }

  /** Every whitespace character is a plain space and no two whitespace
      characters are adjacent. */
  predicate SingleSpaced(r: string) {
    && (forall i :: 0 <= i < |r| && IsSpace(r[i]) ==> r[i] == ' ')
    && (forall i :: 0 <= i < |r| - 1 ==> !(IsSpace(r[i]) && IsSpace(r[i + 1])))
  }

  /** Trimmed and single-spaced: the shape of extracted page text. */
  predicate Normalised(r: string) {
    SingleSpaced(r) && (|r| == 0 || (!IsSpace(r[0]) && !IsSpace(r[|r| - 1])))
  }

  lemma {:induction false} CollapseStart(s: string)
    ensures |s| == 0 <==> |Collapse(s)| == 0
    ensures |s| > 0 ==> (IsSpace(Collapse(s)[0]) <==> IsSpace(s[0]))
  {
  }

  lemma {:induction false} CollapseSingleSpaced(s: string)
    ensures SingleSpaced(Collapse(s))
    decreases |s|
  {
    if |s| == 0 {
    } else if IsSpace(s[0]) {
      var j := SkipSpaces(s, 0);
      var rest := s[j..];
      CollapseSingleSpaced(rest);
      CollapseStart(rest);
      var r := Collapse(s);
      assert r == " " + Collapse(rest);
      forall i | 0 <= i < |r| - 1
        ensures !(IsSpace(r[i]) && IsSpace(r[i + 1]))
      {
        if i > 0 {
          assert r[i] == Collapse(rest)[i - 1] && r[i + 1] == Collapse(rest)[i];
        }
      }
    } else {
      CollapseSingleSpaced(s[1..]);
      var r := Collapse(s);
      assert r == [s[0]] + Collapse(s[1..]);
      forall i | 0 <= i < |r| - 1
        ensures !(IsSpace(r[i]) && IsSpace(r[i + 1]))
      {
        if i > 0 {
          assert r[i] == Collapse(s[1..])[i - 1] && r[i + 1] == Collapse(s[1..])[i];
        }
      }
    }
  }

  lemma SliceSingleSpaced(r: string, a: nat, b: nat)
    requires a <= b <= |r| && SingleSpaced(r)
    ensures SingleSpaced(r[a..b])
  {
    var t := r[a..b];
    assert forall i :: 0 <= i < |t| ==> t[i] == r[a + i];
  }

  /** `s.replace(/\s+/g, ' ').trim()`: the text normalisation of the crawler. */
  function Normalise(s: string): (r: string)
    ensures Normalised(r)
  {
    var c := Collapse(s);
    CollapseSingleSpaced(s);
    SliceSingleSpaced(c, TrimFrom(c), TrimTo(c));
    Trim(c)
  }

  lemma AllSpaceConcat(a: string, b: string)
    ensures AllSpace(a + b) <==> AllSpace(a) && AllSpace(b)
  {
    if AllSpace(a + b) {
      assert forall i :: 0 <= i < |b| ==> b[i] == (a + b)[|a| + i];
      assert forall i :: 0 <= i < |a| ==> a[i] == (a + b)[i];
    }
    if AllSpace(a) && AllSpace(b) {
      assert forall i :: 0 <= i < |a + b| ==> (a + b)[i] == if i < |a| then a[i] else b[i - |a|];
    }
  }

  lemma {:induction false} CollapseAllSpace(s: string)
    ensures AllSpace(Collapse(s)) <==> AllSpace(s)
    decreases |s|
  {
    if |s| > 0 {
      if IsSpace(s[0]) {
        var j := SkipSpaces(s, 0);
        CollapseAllSpace(s[j..]);
        AllSpaceConcat(" ", Collapse(s[j..]));
        assert s == s[..j] + s[j..];
        AllSpaceConcat(s[..j], s[j..]);
      } else {
        assert Collapse(s)[0] == s[0];
      }
    }
  }

  lemma NormaliseEmptyIffAllSpace(s: string)
    ensures Normalise(s) == [] <==> AllSpace(s)
  {
    CollapseAllSpace(s);
    TrimEmptyIffAllSpace(Collapse(s));
  }

  // ------------------------------------------------------------- split

  /** `s.split(/\s+/)`: the pieces between maximal whitespace runs; leading
      or trailing whitespace yields an empty first or last piece, and the
      empty string yields one empty piece. */
  function SplitWs(s: string): (r: seq<string>)
    ensures |r| >= 1
    ensures forall k :: 0 <= k < |r| ==> NoSpace(r[k])
    decreases |s|
  {
    var i := NextSpace(s, 0);
    if i == |s| then [s]
    else
      var rest := SplitWs(s[SkipSpaces(s, i)..]);
      [s[..i]] + rest
  }

  /** `parts.join(sep)`. */
  function Join(parts: seq<string>, sep: string): string
  {
    if |parts| == 0 then []
    else if |parts| == 1 then parts[0]
    else parts[0] + sep + Join(parts[1..], sep)
  }

  lemma {:induction false} CollapseNoSpacePrefix(s: string, i: nat)
    requires i <= |s| && NoSpace(s[..i])
    ensures Collapse(s) == s[..i] + Collapse(s[i..])
    decreases i
  {
    if i > 0 {
      var t := s[1..];
      assert !IsSpace(s[0]) by { assert s[..i][0] == s[0]; }
      assert Collapse(s) == [s[0]] + Collapse(t);
      assert NoSpace(t[..i - 1]) by {
        forall k | 1 <= k < i ensures !IsSpace(s[k]) {
          assert s[k] == s[..i][k];
        }
      }
      CollapseNoSpacePrefix(t, i - 1);
      assert t[i - 1..] == s[i..];
      assert s[..i] == [s[0]] + t[..i - 1];
    } else {
      assert s[..0] == [] && s[0..] == s;
    }
  }

  /** Splitting on whitespace and joining with single spaces is exactly the
      whitespace collapse of the crawler. */
  lemma {:induction false} JoinSplitIsCollapse(s: string)
    ensures Join(SplitWs(s), " ") == Collapse(s)
    decreases |s|
  {
    var i := NextSpace(s, 0);
    if i == |s| {
      assert s[..i] == s;
      CollapseNoSpacePrefix(s, i);
      assert s[i..] == [];
    } else {
      var j := SkipSpaces(s, i);
      JoinSplitIsCollapse(s[j..]);
      CollapseNoSpacePrefix(s, i);
      var u := s[i..];
      assert SkipSpaces(u, 0) == j - i by {
        SkipShift(s, i, i);
      }
      assert u[j - i..] == s[j..];
      assert Collapse(u) == " " + Collapse(s[j..]);
    }
  }

  lemma {:induction false} SkipShift(s: string, i: nat, k: nat)
    requires i <= |s| && i <= k <= SkipSpaces(s, i)
    ensures SkipSpaces(s[i..], k - i) == SkipSpaces(s, i) - i
    ensures SkipSpaces(s, k) == SkipSpaces(s, i)
    decreases SkipSpaces(s, i) - k
  {
    if k < SkipSpaces(s, i) {
      SkipShift(s, i, k + 1);
    }
  }

  function CountSpaces(s: string): nat
  {
    if |s| == 0 then 0 else (if IsSpace(s[0]) then 1 else 0) + CountSpaces(s[1..])
  }

  lemma {:induction false} CountSpacesAppend(a: string, b: string)
    ensures CountSpaces(a + b) == CountSpaces(a) + CountSpaces(b)
    decreases |a|
  {
    if |a| > 0 {
      assert (a + b)[1..] == a[1..] + b;
      CountSpacesAppend(a[1..], b);
    } else {
      assert a + b == b;
    }
  }

  lemma NoSpaceCount(s: string)
    requires NoSpace(s)
    ensures CountSpaces(s) == 0
  {
    if |s| > 0 {
      assert NoSpace(s[1..]);
      NoSpaceCount(s[1..]);
    }
  }

  /** On normalised text, `split(/\s+/)` yields one piece per word: the
      empty text gives the single piece `""`, any other text gives non-empty
      words, one more than its spaces. */
  lemma {:induction false} SplitNormalised(r: string)
    requires Normalised(r)
    ensures r == [] ==> SplitWs(r) == [[]]
    ensures r != [] ==> |SplitWs(r)| == CountSpaces(r) + 1
    ensures r != [] ==> forall k :: 0 <= k < |SplitWs(r)| ==> SplitWs(r)[k] != []
    decreases |r|
  {
    if r != [] {
      var i := NextSpace(r, 0);
      if i == |r| {
        assert r[..i] == r;
        NoSpaceCount(r);
      } else {
        var j := SkipSpaces(r, i);
        assert i + 1 < |r| && !IsSpace(r[i + 1]);
        assert SkipSpaces(r, i + 1) == i + 1;
        assert i > 0 && j == i + 1;
        var rest := r[j..];
        assert rest != [] && !IsSpace(rest[0]) && !IsSpace(rest[|rest| - 1]);
        SliceSingleSpaced(r, j, |r|);
        SplitNormalised(rest);
        assert r == r[..i] + [r[i]] + rest;
        CountSpacesAppend(r[..i] + [r[i]], rest);
        CountSpacesAppend(r[..i], [r[i]]);
        NoSpaceCount(r[..i]);
        assert CountSpaces([r[i]]) == 1;
      }
    }
  }

  // --------------------------------------------------- split on one char

  function NextChar(s: string, c: char, i: nat): (j: nat)
    requires i <= |s|
    ensures i <= j <= |s|
    ensures forall k :: i <= k < j ==> s[k] != c
    ensures j < |s| ==> s[j] == c
    decreases |s| - i
  {
    if i < |s| && s[i] != c then NextChar(s, c, i + 1) else i
  }

  /** `NextChar` finds the first `c` from `i`. */
  lemma NextCharAt(s: string, c: char, i: nat, j: nat)
    requires i <= j <= |s|
    requires j < |s| ==> s[j] == c
    requires forall k :: i <= k < j ==> s[k] != c
    ensures NextChar(s, c, i) == j
  {
  }

  /** `s.split(c)` for a one-character separator. */
  function SplitOn(s: string, c: char): (r: seq<string>)
    ensures |r| >= 1
    ensures forall k :: 0 <= k < |r| ==> c !in r[k]
    decreases |s|
  {
    var i := NextChar(s, c, 0);
    if i == |s| then [s] else [s[..i]] + SplitOn(s[i + 1..], c)
  }

  /** A piece without the separator splits off whole. */
  lemma SplitOnCons(p: string, c: char, rest: string)
    requires c !in p
    ensures SplitOn(p + [c] + rest, c) == [p] + SplitOn(rest, c)
  {
    var s := p + [c] + rest;
    assert forall k :: 0 <= k < |p| ==> s[k] == p[k];
    NextCharAt(s, c, 0, |p|);
    assert s[..|p|] == p && s[|p| + 1..] == rest;
  }

  /** Text without the separator is one piece. */
  lemma SplitOnNone(p: string, c: char)
    requires c !in p
    ensures SplitOn(p, c) == [p]
  {
    NextCharAt(p, c, 0, |p|);
    assert p[..|p|] == p;
  }

  /** Joining the pieces of `s.split(c)` with `c` gives back `s`. */
  lemma {:induction false} JoinSplitOn(s: string, c: char)
    ensures Join(SplitOn(s, c), [c]) == s
    decreases |s|
  {
    var i := NextChar(s, c, 0);
    if i == |s| {
      assert s[..i] == s;
    } else {
      JoinSplitOn(s[i + 1..], c);
      assert s == s[..i] + [c] + s[i + 1..];
    }
  }

  // --------------------------------------------------- first occurrence

  /** `s.indexOf(t)`, with `None` for -1. */
  function IndexOf(s: string, t: string, from: nat): (r: Option<nat>)
    requires from <= |s|
    ensures r.Some? ==> from <= r.value && OccursAt(s, t, r.value)
    ensures r.Some? ==> forall k :: from <= k < r.value ==> !OccursAt(s, t, k)
    ensures r.None? ==> forall k :: from <= k <= |s| - |t| ==> !OccursAt(s, t, k)
    decreases |s| - from
  {
    if from + |t| > |s| then None
    else if s[from..from + |t|] == t then Some(from)
    else if from == |s| then None
    else IndexOf(s, t, from + 1)
  }

  /** `s.replace(t, u)` with a string pattern: only the first occurrence is replaced. */
  function ReplaceFirst(s: string, t: string, u: string): (r: string)
    ensures !Contains(s, t) ==> r == s
  {
    match IndexOf(s, t, 0)
    case None => s
    case Some(i) => s[..i] + u + s[i + |t|..]
  }

  /** `s || fallback` on an optional string: absent and empty both count
      as false. */
  function OrElse(s: Option<string>, fallback: string): (r: string)
    ensures r == fallback || (s.Some? && r == s.value && r != [])
    ensures s.Some? && s.value != [] ==> r == s.value
  {
    if s.Some? && s.value != [] then s.value else fallback
  }
}

=== FILE: users.dfy ===
/** The user controller: create, update, list and look up by e-mail. An
    uploaded profile image is represented by the URL the file service gives
    it; processing, saving and deleting image files are outside the model. */
module Users {
  import opened Wrappers
  import opened Models
  import opened Store
  import opened Http
  import Text
  import Seqs
  import Validators
  import Pagination

  /** No two accounts share an e-mail address. */
  predicate EmailsUnique(us: seq<User>) {
    forall i, j :: 0 <= i < j < |us| ==> us[i].email != us[j].email
  }

  /** `createUser`, validation included. */
  function Create(db: Db, body: Validators.UserBody, isEmail: string -> bool,
                  normalize: string -> string, upload: Option<string>, now: Time): (r: (Reply, Db))
    ensures Validators.ValidateCreateUser(body, isEmail, normalize).Err? ==>
      r == (Reply(BadRequest, "Validation errors"), db)
    ensures Validators.ValidateCreateUser(body, isEmail, normalize).Ok? &&
            FindUserByEmail(db.users, normalize(body.email.value)).Some? ==>
      r == (Reply(BadRequest, "User with this email already exists"), db)
    ensures r.0.code == Created <==>
      && Validators.ValidateCreateUser(body, isEmail, normalize).Ok?
      && FindUserByEmail(db.users, normalize(body.email.value)).None?
    ensures r.0.code != Created ==> r.1 == db
    ensures r.0.code == Created ==>
      && |r.1.users| == |db.users| + 1
      && var u := r.1.users[|db.users|];
      && r.1 == db.(users := db.users + [u], nextId := db.nextId + 1)
      && u.id == db.nextId && u.name == Text.Trim(body.name.value) && u.email == normalize(body.email.value)
      && u.profileImage == upload && u.totalQueries == 0 && u.isActive
  {
    match Validators.ValidateCreateUser(body, isEmail, normalize)
    case Err(_) => (Reply(BadRequest, "Validation errors"), db)
    case Ok(b) =>
      if FindUserByEmail(db.users, b.email.value).Some? then
        (Reply(BadRequest, "User with this email already exists"), db)
      else
        var u := NewUser(db.nextId, b.name.value, b.email.value, None, upload, now);
        (Reply(Created, "User created successfully"), db.(users := db.users + [u], nextId := db.nextId + 1))
  }

  /** Creating keeps the store well formed and e-mail addresses unique. */
  lemma CreateKeepsEmailsUnique(db: Db, body: Validators.UserBody, isEmail: string -> bool,
                                normalize: string -> string, upload: Option<string>, now: Time)
    requires Wf(db) && EmailsUnique(db.users)
    ensures var db' := Create(db, body, isEmail, normalize, upload, now).1;
      Wf(db') && EmailsUnique(db'.users)
  {
    var r := Create(db, body, isEmail, normalize, upload, now);
    if r.0.code == Created {
      var u := r.1.users[|db.users|];
      InsertUserPreservesWf(db, u);
      assert forall i :: 0 <= i < |db.users| ==> db.users[i].email != u.email;
      assert r.1.users == db.users + [u];
    }
  }

  /** The record `updateUser` writes: name and e-mail keep their old values
      unless a non-empty new one is given, a new upload replaces the image,
      and the account is marked active now. */
  function Merge(u: User, b: Validators.UserBody, upload: Option<string>, now: Time): (r: User)
    ensures r.id == u.id && r.role == u.role && r.isActive == u.isActive
    ensures r.totalQueries == u.totalQueries && r.refreshToken == u.refreshToken && r.password == u.password
    ensures r.lastActiveAt == Some(now)
    ensures r.profileImage == if upload.Some? then upload else u.profileImage
    ensures b.name.Some? && b.name.value != [] ==> r.name == b.name.value
    ensures (b.name.None? || b.name.value == []) ==> r.name == u.name
    ensures b.email.Some? && b.email.value != [] ==> r.email == b.email.value
    ensures (b.email.None? || b.email.value == []) ==> r.email == u.email
  {
    u.(name := Text.OrElse(b.name, u.name), email := Text.OrElse(b.email, u.email),
       profileImage := if upload.Some? then upload else u.profileImage,
       lastActiveAt := Some(now))
  }

  function MergeWith(b: Validators.UserBody, upload: Option<string>, now: Time): User -> User {
    (u: User) => Merge(u, b, upload, now)
  }

  /** A stored image the handler would try to delete (a truthy URL). */
  predicate HasImage(u: User) { u.profileImage.Some? && u.profileImage.value != [] }

  /** `updateUser` as written: replacing an existing image evaluates
      `path.basename`, but `path` is never imported in the controller, so
      that request fails with a server error before anything is written. */
  function UpdateAsWritten(db: Db, id: Option<Id>, body: Validators.UserBody, isEmail: string -> bool,
                           normalize: string -> string, upload: Option<string>, now: Time): (r: (Reply, Db))
    ensures Validators.ValidateUpdateUser(body, isEmail, normalize).Ok? && id.Some? &&
            FindUser(db.users, id.value).Some? && upload.Some? && HasImage(FindUser(db.users, id.value).value) ==>
      r == (Reply(ServerError, "Failed to update user"), db)
    ensures !Succeeded(r.0) ==> r.1 == db
  {
    match Validators.ValidateUpdateUser(body, isEmail, normalize)
    case Err(_) => (Reply(BadRequest, "Validation errors"), db)
    case Ok(b) =>
      match id
      case None => (Reply(ServerError, "Failed to update user"), db)
      case Some(i) =>
        match FindUser(db.users, i)
        case None => (Reply(NotFound, "User not found"), db)
        case Some(u) =>
          if upload.Some? && HasImage(u) then (Reply(ServerError, "Failed to update user"), db)
          else (Reply(Success, "User updated successfully"),
                db.(users := MapUser(db.users, i, MergeWith(b, upload, now))))
  }

  /** `updateUser` as intended: the old image is dropped and the new one
      stored. */
  function Update(db: Db, id: Option<Id>, body: Validators.UserBody, isEmail: string -> bool,
                  normalize: string -> string, upload: Option<string>, now: Time): (r: (Reply, Db))
    ensures Validators.ValidateUpdateUser(body, isEmail, normalize).Err? ==>
      r == (Reply(BadRequest, "Validation errors"), db)
    ensures Validators.ValidateUpdateUser(body, isEmail, normalize).Ok? && id.None? ==>
      r == (Reply(ServerError, "Failed to update user"), db)
    ensures Validators.ValidateUpdateUser(body, isEmail, normalize).Ok? && id.Some? &&
            FindUser(db.users, id.value).None? ==>
      r == (Reply(NotFound, "User not found"), db)
    ensures Succeeded(r.0) <==>
      Validators.ValidateUpdateUser(body, isEmail, normalize).Ok? && id.Some? && FindUser(db.users, id.value).Some?
    ensures Succeeded(r.0) ==>
      var b := Validators.ValidateUpdateUser(body, isEmail, normalize).value;
      && r.1 == db.(users := r.1.users)
      && |r.1.users| == |db.users|
      && forall k :: 0 <= k < |db.users| ==>
           r.1.users[k] == if db.users[k].id == id.value then Merge(db.users[k], b, upload, now) else db.users[k]
  {
    match Validators.ValidateUpdateUser(body, isEmail, normalize)
    case Err(_) => (Reply(BadRequest, "Validation errors"), db)
    case Ok(b) =>
      match id
      case None => (Reply(ServerError, "Failed to update user"), db)
      case Some(i) =>
        match FindUser(db.users, i)
        case None => (Reply(NotFound, "User not found"), db)
        case Some(u) =>
          (Reply(Success, "User updated successfully"),
           db.(users := MapUser(db.users, i, MergeWith(b, upload, now))))
  }

  /** The two versions differ exactly on an upload that replaces an
      existing image: there the written code fails and the intended one
      stores the new image. Everywhere else they agree. */
  lemma UpdateAsWrittenFailsOnReplace(db: Db, id: Option<Id>, body: Validators.UserBody, isEmail: string -> bool,
                                      normalize: string -> string, upload: Option<string>, now: Time)
    ensures var replace := Validators.ValidateUpdateUser(body, isEmail, normalize).Ok? && id.Some? &&
                           FindUser(db.users, id.value).Some? && upload.Some? && HasImage(FindUser(db.users, id.value).value);
      && (!replace ==> UpdateAsWritten(db, id, body, isEmail, normalize, upload, now) ==
                       Update(db, id, body, isEmail, normalize, upload, now))
      && (replace ==>
            && UpdateAsWritten(db, id, body, isEmail, normalize, upload, now).0.code == ServerError
            && Update(db, id, body, isEmail, normalize, upload, now).0.code == Success
            && FindUser(Update(db, id, body, isEmail, normalize, upload, now).1.users, id.value).value.profileImage == upload)
  {
    if Validators.ValidateUpdateUser(body, isEmail, normalize).Ok? && id.Some? && FindUser(db.users, id.value).Some? {
      var b := Validators.ValidateUpdateUser(body, isEmail, normalize).value;
      FindUserAfterMap(db.users, id.value, MergeWith(b, upload, now));
    }
  }

  /** Updating keeps the store well formed. E-mail uniqueness is not
      checked again: an update may take another account's address. */
  lemma UpdateMayTakeAnotherEmail(db: Db, id: Id, body: Validators.UserBody, isEmail: string -> bool,
                                  normalize: string -> string, upload: Option<string>, now: Time)
    requires Wf(db)
    requires Validators.ValidateUpdateUser(body, isEmail, normalize).Ok?
    requires FindUser(db.users, id).Some?
    requires body.email.Some? && normalize(body.email.value) != []
    ensures var r := Update(db, Some(id), body, isEmail, normalize, upload, now);
      && Wf(r.1)
      && r.0.code == Success
      && FindUser(r.1.users, id).value.email == normalize(body.email.value)
  {
    var b := Validators.ValidateUpdateUser(body, isEmail, normalize).value;
    MapUserPreservesWf(db, id, MergeWith(b, upload, now));
    FindUserAfterMap(db.users, id, MergeWith(b, upload, now));
  }

  /** `getAllUsers`: newest first, `page` and `limit` read with
      `parseInt(x) || default`. */
  function List(db: Db, page: Option<string>, limit: Option<string>)
    : (r: Result<(seq<User>, Pagination.Info), Reply>)
    ensures r.Err? <==> Pagination.FromQueryOr(page, limit, 1, 10).None?
    ensures r.Ok? ==>
      var q := Pagination.FromQueryOr(page, limit, 1, 10).value;
      && r.value.1 == Pagination.Paginate(q, |db.users|)
      && Pagination.IsNewestFirstPage(r.value.0, db.users, q)
  {
    match Pagination.FromQueryOr(page, limit, 1, 10)
    case None => Err(Reply(ServerError, "Failed to get users"))
    case Some(q) =>
      Pagination.NewestFirstPage(db.users, q);
      Ok((Pagination.PageOf(Seqs.Reverse(db.users), q), Pagination.Paginate(q, |db.users|)))
  }

  /** Without query parameters the first page holds the ten newest
      accounts, newest first. */
  lemma ListDefaults(db: Db)
    ensures List(db, None, None).Ok?
    ensures var r := List(db, None, None).value;
      && r.1.current == 1
      && |r.0| == Seqs.Min(10, |db.users|)
      && forall i :: 0 <= i < |r.0| ==> r.0[i] == db.users[|db.users| - 1 - i]
  {
  }

  function Touch(now: Time): User -> User { (u: User) => u.(lastActiveAt := Some(now)) }

  /** `getUserByEmail`: the account with that address, marked active now. */
  function GetByEmail(db: Db, email: string, now: Time): (r: (Reply, Option<User>, Db))
    ensures r.1.Some? <==> FindUserByEmail(db.users, email).Some?
    ensures r.1.None? ==> r.0 == Reply(NotFound, "User not found") && r.2 == db
    ensures r.1.Some? ==>
      var u := FindUserByEmail(db.users, email).value;
      && r.0.code == Success
      && r.1.value == u.(lastActiveAt := Some(now))
      && r.1.value.email == email
      && r.2 == db.(users := MapUser(db.users, u.id, Touch(now)))
  {
    match FindUserByEmail(db.users, email)
    case None => (Reply(NotFound, "User not found"), None, db)
    case Some(u) => (Reply(Success, ""), Some(Touch(now)(u)), db.(users := MapUser(db.users, u.id, Touch(now))))
  }

  /** Looking a user up changes only that user's last-active time. */
  lemma GetByEmailTouchesOnlyThatUser(db: Db, email: string, now: Time)
    requires Wf(db) && FindUserByEmail(db.users, email).Some?
    ensures var r := GetByEmail(db, email, now); var u := FindUserByEmail(db.users, email).value;
      && Wf(r.2)
      && FindUser(r.2.users, u.id) == Some(u.(lastActiveAt := Some(now)))
      && forall k :: 0 <= k < |db.users| && db.users[k].id != u.id ==> r.2.users[k] == db.users[k]
  {
    var u := FindUserByEmail(db.users, email).value;
    var k :| 0 <= k < |db.users| && db.users[k] == u;
    FindUserAt(db.users, k);
    MapUserPreservesWf(db, u.id, Touch(now));
    FindUserAfterMap(db.users, u.id, Touch(now));
  }
}

=== FILE: validators.dfy ===
/** The request validators the routes run before their handlers. A body
    field that is absent is `None`; the sanitisers (`trim`,
    `normalizeEmail`) rewrite the body the handler then reads. The URL and
    e-mail syntax checks of the validator library and its e-mail
    normaliser are parameters. */
module Validators {
  import opened Wrappers
  import Text
  import Numbers
  import Constants
  import Models
  import Seqs

  /** `isMongoId`: 24 hexadecimal digits. */
  predicate IsMongoId(s: string) {
    |s| == 24 && forall i :: 0 <= i < |s| ==> Numbers.IsHexDigit(s[i])
  }

  /** The identifier a well-formed id string denotes. */
  function ObjectId(s: string): (r: Option<Models.Id>)
    ensures r.Some? <==> IsMongoId(s)
  {
    if IsMongoId(s) then Some(Numbers.DigitsValue(s, true)) else None
  }

  /** One validation rule and the message it reports when it fails. */
  datatype Check = Check(ok: bool, message: string)

  predicate Failing(c: Check) { !c.ok }

  /** The messages of the failing rules, in rule order (`errors.array()`). */
  function Failures(cs: seq<Check>): (r: seq<string>)
    ensures FailuresOf(r, cs)
    ensures |r| <= |cs|
    ensures r == [] <==> forall i :: 0 <= i < |cs| ==> cs[i].ok
    ensures forall i :: 0 <= i < |cs| && !cs[i].ok ==> cs[i].message in r
    ensures forall m :: m in r ==> exists c :: c in cs && !c.ok && c.message == m
  {
    if |cs| == 0 then
      FailuresOfFacts([], cs);
      []
    else
      var r := (if cs[0].ok then [] else [cs[0].message]) + Failures(cs[1..]);
      FailuresStep(cs, Failures(cs[1..]));
      FailuresOfFacts(r, cs);
      r
  }

  /** `r` lists the messages of the failing rules of `cs`, in rule order. */
  predicate FailuresOf(r: seq<string>, cs: seq<Check>) {
    && |r| == |Seqs.Filter(cs, Failing)|
    && forall i :: 0 <= i < |r| ==> r[i] == Seqs.Filter(cs, Failing)[i].message
  }

  /** The failing messages in rule order are one list: the one `Failures`
      computes. */
  lemma FailuresOfUnique(r: seq<string>, cs: seq<Check>)
    requires FailuresOf(r, cs)
    ensures r == Failures(cs)
  {
    var f := Failures(cs);
    assert |r| == |f|;
    forall i | 0 <= i < |r| ensures r[i] == f[i] {
      assert r[i] == Seqs.Filter(cs, Failing)[i].message;
    }
  }

  /** One rule in front of the rest: its message, when it fails, comes
      first. */
  lemma FailuresStep(cs: seq<Check>, rest: seq<string>)
    requires |cs| > 0 && FailuresOf(rest, cs[1..])
    ensures FailuresOf((if cs[0].ok then [] else [cs[0].message]) + rest, cs)
  {
    Seqs.FilterStep(cs, Failing);
  }

  /** What listing the failing messages in order implies: no more messages
      than rules, none exactly when every rule passes, and a message in the
      list exactly when some failing rule reports it. */
  lemma FailuresOfFacts(r: seq<string>, cs: seq<Check>)
    requires FailuresOf(r, cs)
    ensures |r| <= |cs|
    ensures r == [] <==> forall i :: 0 <= i < |cs| ==> cs[i].ok
    ensures forall i :: 0 <= i < |cs| && !cs[i].ok ==> cs[i].message in r
    ensures forall m :: m in r ==> exists c :: c in cs && !c.ok && c.message == m
  {
    var f := Seqs.Filter(cs, Failing);
    if forall i :: 0 <= i < |cs| ==> cs[i].ok {
      Seqs.FilterNone(cs, Failing);
    }
    forall i | 0 <= i < |cs| && !cs[i].ok ensures cs[i].message in r {
      assert cs[i] in f;
      var k :| 0 <= k < |f| && f[k] == cs[i];
      assert r[k] == cs[i].message;
    }
    forall m | m in r ensures exists c :: c in cs && !c.ok && c.message == m {
      var k :| 0 <= k < |r| && r[k] == m;
      assert f[k] in cs && Failing(f[k]);
    }
  }

  predicate LengthIn(s: string, min: nat, max: nat) { min <= |s| <= max }

  // ------------------------------------------------------------ websites

  datatype WebsiteBody = WebsiteBody(
    name: Option<string>,
    url: Option<string>,
    description: Option<string>,
    crawlDepth: Option<int>,
    isActive: Option<bool>)

  predicate DepthOk(d: Option<int>) {
    d.None? || Constants.MinCrawlDepth <= d.value <= Constants.MaxCrawlDepth
  }

  predicate DescriptionOk(d: Option<string>) {
    d.None? || |Text.Trim(d.value)| <= Constants.DescriptionMaxLength
  }

  function TrimOpt(s: Option<string>): (r: Option<string>)
    ensures r.Some? <==> s.Some?
    ensures s.Some? ==> r.value == Text.Trim(s.value)
  {
    if s.None? then None else Some(Text.Trim(s.value))
  }

  /** The create-website rules: a name of 1 to 200 characters after
      trimming (an absent name counts as empty), a URL, an optional
      description of at most 500 characters after trimming, an optional
      crawl depth from 1 to 3. */
  function CreateWebsiteChecks(b: WebsiteBody, isUrl: string -> bool): seq<Check> {
    [ Check(LengthIn(Text.Trim(b.name.GetOr([])), Constants.WebsiteNameMinLength, Constants.WebsiteNameMaxLength),
            "Website name must be between 1 and 200 characters"),
      Check(b.url.Some? && isUrl(b.url.value), "Please provide a valid URL"),
      Check(DescriptionOk(b.description), "Description must be less than 500 characters"),
      Check(DepthOk(b.crawlDepth), "Crawl depth must be between 1 and 3") ]
  }

  function ValidateCreateWebsite(b: WebsiteBody, isUrl: string -> bool): (r: Result<WebsiteBody, seq<string>>)
    ensures r.Ok? <==>
      && LengthIn(Text.Trim(b.name.GetOr([])), 1, 200)
      && b.url.Some? && isUrl(b.url.value)
      && DescriptionOk(b.description) && DepthOk(b.crawlDepth)
    ensures r.Err? ==> 1 <= |r.error| <= 4 && FailuresOf(r.error, CreateWebsiteChecks(b, isUrl))
    ensures r.Ok? ==>
      && r.value.name == Some(Text.Trim(b.name.GetOr([])))
      && r.value.url == b.url
      && r.value.description == TrimOpt(b.description)
      && r.value.crawlDepth == b.crawlDepth
  {
    var cs := CreateWebsiteChecks(b, isUrl);
    if cs[0].ok && cs[1].ok && cs[2].ok && cs[3].ok then
      Ok(b.(name := Some(Text.Trim(b.name.GetOr([]))), description := TrimOpt(b.description)))
    else
      assert !cs[0].ok || !cs[1].ok || !cs[2].ok || !cs[3].ok;
      Err(Failures(cs))
  }

  /** The update-website rules: every field optional, a present name of 1
      to 200 characters after trimming. The URL is neither checked nor
      passed on; `isActive` is a boolean by construction here. */
  function UpdateWebsiteChecks(b: WebsiteBody): seq<Check> {
    [ Check(b.name.None? || LengthIn(Text.Trim(b.name.value), Constants.WebsiteNameMinLength, Constants.WebsiteNameMaxLength),
            "Website name must be between 1 and 200 characters"),
      Check(DescriptionOk(b.description), "Description must be less than 500 characters"),
      Check(DepthOk(b.crawlDepth), "Crawl depth must be between 1 and 3") ]
  }

  function ValidateUpdateWebsite(b: WebsiteBody): (r: Result<WebsiteBody, seq<string>>)
    ensures r.Ok? <==>
      (b.name.None? || LengthIn(Text.Trim(b.name.value), 1, 200))
      && DescriptionOk(b.description) && DepthOk(b.crawlDepth)
    ensures r.Ok? ==>
      && r.value.name == TrimOpt(b.name) && r.value.description == TrimOpt(b.description)
      && r.value.crawlDepth == b.crawlDepth && r.value.isActive == b.isActive
    ensures r.Err? ==> FailuresOf(r.error, UpdateWebsiteChecks(b))
  {
    var cs := UpdateWebsiteChecks(b);
    if cs[0].ok && cs[1].ok && cs[2].ok then Ok(b.(name := TrimOpt(b.name), description := TrimOpt(b.description)))
    else Err(Failures(cs))
  }

  // ---------------------------------------------------------------- chat

  /** The send-message body as the handler reads it. */
  datatype SendRequest = SendRequest(userId: Models.Id, websiteId: Models.Id, question: string)

  /** The send-message rules: both ids well formed, and a question of 1 to
      1000 characters after trimming. */
  function SendMessageChecks(userId: Option<string>, websiteId: Option<string>, question: Option<string>): seq<Check> {
    [ Check(userId.Some? && IsMongoId(userId.value), "Invalid user ID"),
      Check(websiteId.Some? && IsMongoId(websiteId.value), "Invalid website ID"),
      Check(LengthIn(Text.Trim(question.GetOr([])), Constants.QuestionMinLength, Constants.QuestionMaxLength),
            "Question must be between 1 and 1000 characters") ]
  }

  function ValidateSendMessage(userId: Option<string>, websiteId: Option<string>, question: Option<string>)
    : (r: Result<SendRequest, seq<string>>)
    ensures r.Ok? <==>
      && userId.Some? && IsMongoId(userId.value)
      && websiteId.Some? && IsMongoId(websiteId.value)
      && LengthIn(Text.Trim(question.GetOr([])), 1, 1000)
    ensures r.Ok? ==>
      && Some(r.value.userId) == ObjectId(userId.value)
      && Some(r.value.websiteId) == ObjectId(websiteId.value)
      && r.value.question == Text.Trim(question.value)
      && r.value.question != [] && !Text.IsSpace(r.value.question[0])
    ensures r.Err? ==> FailuresOf(r.error, SendMessageChecks(userId, websiteId, question))
  {
    var u := if userId.Some? then ObjectId(userId.value) else None;
    var w := if websiteId.Some? then ObjectId(websiteId.value) else None;
    var q := Text.Trim(question.GetOr([]));
    var qOk := LengthIn(q, Constants.QuestionMinLength, Constants.QuestionMaxLength);
    if u.Some? && w.Some? && qOk then Ok(SendRequest(u.value, w.value, q))
    else Err(Failures(SendMessageChecks(userId, websiteId, question)))
  }

  /** The delete-chat route's rule: a well-formed user id in the body. The
      handler never reads its errors (see `Chats.Delete`). */
  function ValidateDeleteChat(userId: Option<string>): (r: Result<Models.Id, seq<string>>)
    ensures r.Ok? <==> userId.Some? && IsMongoId(userId.value)
    ensures r.Err? ==> r.error == ["Invalid user ID"]
  {
    match if userId.Some? then ObjectId(userId.value) else None
    case Some(id) => Ok(id)
    case None => Err(["Invalid user ID"])
  }

  // --------------------------------------------------------------- users

  datatype UserBody = UserBody(name: Option<string>, email: Option<string>)

  function NormalizeOpt(e: Option<string>, normalize: string -> string): (r: Option<string>)
    ensures r.Some? <==> e.Some?
  {
    if e.None? then None else Some(normalize(e.value))
  }

  /** The create-user rules: a name of 2 to 100 characters after trimming
      and a valid e-mail address, which is then normalised. */
  function CreateUserChecks(b: UserBody, isEmail: string -> bool): seq<Check> {
    [ Check(LengthIn(Text.Trim(b.name.GetOr([])), Constants.NameMinLength, Constants.NameMaxLength),
            "Name must be between 2 and 100 characters"),
      Check(b.email.Some? && isEmail(b.email.value), "Please provide a valid email address") ]
  }

  function ValidateCreateUser(b: UserBody, isEmail: string -> bool, normalize: string -> string)
    : (r: Result<UserBody, seq<string>>)
    ensures r.Ok? <==>
      LengthIn(Text.Trim(b.name.GetOr([])), 2, 100) && b.email.Some? && isEmail(b.email.value)
    ensures r.Ok? ==>
      r.value == UserBody(Some(Text.Trim(b.name.value)), Some(normalize(b.email.value)))
    ensures r.Err? ==> FailuresOf(r.error, CreateUserChecks(b, isEmail))
  {
    var n := Text.Trim(b.name.GetOr([]));
    var cs := CreateUserChecks(b, isEmail);
    if cs[0].ok && cs[1].ok then Ok(UserBody(Some(n), NormalizeOpt(b.email, normalize))) else Err(Failures(cs))
  }

  /** The update-user rules: the same rules, each only when the field is
      present. */
  function UpdateUserChecks(b: UserBody, isEmail: string -> bool): seq<Check> {
    [ Check(b.name.None? || LengthIn(Text.Trim(b.name.value), Constants.NameMinLength, Constants.NameMaxLength),
            "Name must be between 2 and 100 characters"),
      Check(b.email.None? || isEmail(b.email.value), "Please provide a valid email address") ]
  }

  function ValidateUpdateUser(b: UserBody, isEmail: string -> bool, normalize: string -> string)
    : (r: Result<UserBody, seq<string>>)
    ensures r.Ok? <==>
      (b.name.None? || LengthIn(Text.Trim(b.name.value), 2, 100))
      && (b.email.None? || isEmail(b.email.value))
    ensures r.Ok? ==> r.value == UserBody(TrimOpt(b.name), NormalizeOpt(b.email, normalize))
    ensures r.Err? ==> FailuresOf(r.error, UpdateUserChecks(b, isEmail))
  {
    var cs := UpdateUserChecks(b, isEmail);
    if cs[0].ok && cs[1].ok then Ok(UserBody(TrimOpt(b.name), NormalizeOpt(b.email, normalize))) else Err(Failures(cs))
  }

  /** An update body with no fields always passes, and a create body that
      passes also passes as an update. */
  lemma UpdateRulesAreWeaker(b: UserBody, isEmail: string -> bool, normalize: string -> string)
    ensures ValidateUpdateUser(UserBody(None, None), isEmail, normalize) == Ok(UserBody(None, None))
    ensures ValidateCreateUser(b, isEmail, normalize).Ok? ==> ValidateUpdateUser(b, isEmail, normalize).Ok?
  {
  }
}

=== FILE: website_ui.dfy ===
/** The website card's buttons and the website form's URL handling: which
    crawl buttons a card offers, what its toggle and delete buttons send,
    the form's URL check, the name it derives from a URL, the protocol it
    adds on submit, and its initial values. URL parsing is a parameter. */
module WebsiteUi {
  import opened Wrappers
  import opened Constants
  import opened Models
  import Text

  // --------------------------------------------------------------- card

  /** The crawl button is shown for an active site that is not crawling. */
  predicate CanCrawl(w: Website) { w.crawlStatus != Crawling && w.isActive }

  /** The recrawl button is shown for an active site whose crawl completed. */
  predicate CanRecrawl(w: Website) { w.crawlStatus == Completed && w.isActive }

  /** A site that offers a recrawl also offers a crawl; neither is offered
      while a crawl runs or for an inactive site. */
  lemma RecrawlImpliesCrawl(w: Website)
    ensures CanRecrawl(w) ==> CanCrawl(w)
    ensures w.crawlStatus == Crawling || !w.isActive ==> !CanCrawl(w) && !CanRecrawl(w)
  {
  }

  /** The card's crawl buttons by status, for an active site: pending and
      failed sites offer a crawl only, a completed site both, a crawling
      site neither. */
  lemma ButtonsByStatus(w: Website)
    requires w.isActive
    ensures w.crawlStatus == Pending || w.crawlStatus == Failed ==> CanCrawl(w) && !CanRecrawl(w)
    ensures w.crawlStatus == Completed ==> CanCrawl(w) && CanRecrawl(w)
    ensures w.crawlStatus == Crawling ==> !CanCrawl(w) && !CanRecrawl(w)
  {
  }

  datatype Button = CrawlButton | RecrawlButton | ToggleButton | DeleteButton

  /** What a click asks of the page. */
  datatype Request =
    | CrawlRequest(id: Id)
    | RecrawlRequest(id: Id)
    | ToggleRequest(id: Id, isActive: bool)
    | DeleteRequest(id: Id)

  /** A click on the card: a button that is not shown, a missing handler,
      or a declined confirmation sends nothing. */
  function Click(w: Website, b: Button, hasHandler: bool, confirmed: bool): (r: Option<Request>)
    ensures r.Some? ==> hasHandler && r.value.id == w.id
    ensures r.Some? && r.value.CrawlRequest? ==> CanCrawl(w)
    ensures r.Some? && r.value.RecrawlRequest? ==> CanRecrawl(w)
    ensures r.Some? && r.value.ToggleRequest? ==> r.value.isActive == !w.isActive
    ensures b == CrawlButton ==> (r.Some? <==> hasHandler && CanCrawl(w)) && (r.Some? ==> r.value == CrawlRequest(w.id))
    ensures b == RecrawlButton ==> (r.Some? <==> hasHandler && CanRecrawl(w)) && (r.Some? ==> r.value == RecrawlRequest(w.id))
    ensures b == ToggleButton && hasHandler ==> r == Some(ToggleRequest(w.id, !w.isActive))
    ensures b == DeleteButton ==> (r.Some? <==> hasHandler && confirmed) && (r.Some? ==> r.value == DeleteRequest(w.id))
    ensures r.Some? && r.value.DeleteRequest? ==> b == DeleteButton && confirmed
    ensures b == ToggleButton ==> (r.Some? <==> hasHandler)
  {
    if !hasHandler then None
    else match b
      case CrawlButton => if CanCrawl(w) then Some(CrawlRequest(w.id)) else None
      case RecrawlButton => if CanRecrawl(w) then Some(RecrawlRequest(w.id)) else None
      case ToggleButton => Some(ToggleRequest(w.id, !w.isActive))
      case DeleteButton => if confirmed then Some(DeleteRequest(w.id)) else None
  }

  /** Toggling twice asks for the state the site already has. */
  lemma ToggleTwice(w: Website)
    ensures var first := Click(w, ToggleButton, true, false).value;
      Click(w.(isActive := first.isActive), ToggleButton, true, false).value.isActive == w.isActive
  {
  }

  // --------------------------------------------------------------- form

  datatype UrlCheck = UrlOk | UrlError(message: string)

  /** `validateUrl`: required, then parseable, then an http(s) scheme. */
  function ValidateUrl(url: string, isUrl: string -> bool): (r: UrlCheck)
    ensures r == UrlOk <==>
      && url != [] && isUrl(url)
      && (Text.StartsWith(url, "http://") || Text.StartsWith(url, "https://"))
    ensures url == [] ==> r == UrlError("URL is required")
    ensures url != [] && !isUrl(url) ==> r == UrlError("Please enter a valid URL")
  {
    if url == [] then UrlError("URL is required")
    else if !isUrl(url) then UrlError("Please enter a valid URL")
    else if !Text.StartsWith(url, "http://") && !Text.StartsWith(url, "https://") then
      UrlError("URL must start with http:// or https://")
    else UrlOk
  }

  /** `handleFormSubmit`: `https://` in front of a non-empty URL that does
      not start with `http`. */
  function SubmitUrl(url: string): (r: string)
    ensures url == [] || Text.StartsWith(url, "http") ==> r == url
    ensures url != [] && !Text.StartsWith(url, "http") ==> r == "https://" + url
  {
    if url != [] && !Text.StartsWith(url, "http") then "https://" + url else url
  }

  /** Submitting adds the protocol at most once, and a URL the form
      accepted is sent as typed. */
  lemma SubmitUrlLaws(url: string, isUrl: string -> bool)
    ensures SubmitUrl(SubmitUrl(url)) == SubmitUrl(url)
    ensures url != [] ==> Text.StartsWith(SubmitUrl(url), "http")
    ensures ValidateUrl(url, isUrl) == UrlOk ==> SubmitUrl(url) == url
  {
    var p := "https://" + url;
    assert p[..4] == "http";
    if Text.StartsWith(url, "http://") || Text.StartsWith(url, "https://") {
      assert url[..4] == url[..|"http://"|][..4];
    }
  }

  /** `name.charAt(0).toUpperCase() + name.slice(1)`. */
  function UpperFirst(s: string): (r: string)
    ensures |r| == |s|
    ensures |s| > 0 ==> r[0] == Text.Upper(s[0]) && r[1..] == s[1..]
  {
    if s == [] then [] else [Text.Upper(s[0])] + s[1..]
  }

  /** `hostname.replace('www.', '').split('.')[0]`. */
  function FirstLabel(host: string): (r: string)
    ensures '.' !in r
    ensures var d := Text.ReplaceFirst(host, "www.", "");
      Text.StartsWith(d, r) && (|r| == |d| || d[|r|] == '.')
  {
    var d := Text.ReplaceFirst(host, "www.", "");
    assert Text.SplitOn(d, '.')[0] == d[..Text.NextChar(d, '.', 0)];
    Text.SplitOn(d, '.')[0]
  }

  /** `handleUrlBlur`: an empty name is filled from a valid URL's host. */
  function NameFromUrl(currentName: string, url: string, isUrl: string -> bool, hostname: string -> string): (r: Option<string>)
    ensures r.Some? <==> currentName == [] && url != [] && isUrl(url)
    ensures r.Some? ==> '.' !in r.value && r.value == UpperFirst(FirstLabel(hostname(url)))
  {
    if currentName == [] && url != [] && isUrl(url) then
      var first := FirstLabel(hostname(url));
      var name := UpperFirst(first);
      assert '.' !in name by {
        if |first| > 0 {
          assert name == [Text.Upper(first[0])] + first[1..];
          assert first[0] != '.';
        }
      }
      Some(name)
    else None
  }

  /** A valid URL whose host has no `www.` and no dots is named by its
      host, capitalised. */
  lemma NameOfPlainHost(url: string, isUrl: string -> bool, hostname: string -> string)
    requires url != [] && isUrl(url)
    requires !Text.Contains(hostname(url), "www.") && '.' !in hostname(url)
    ensures NameFromUrl("", url, isUrl, hostname) == Some(UpperFirst(hostname(url)))
  {
    var host := hostname(url);
    assert Text.NextChar(host, '.', 0) == |host|;
    assert host[..|host|] == host;
  }

  /** A leading `www.` is dropped before the first label is taken. */
  lemma LeadingWwwDropped(rest: string)
    ensures FirstLabel("www." + rest) == Text.SplitOn(rest, '.')[0]
  {
    var host := "www." + rest;
    assert host[0..4] == "www.";
    assert Text.IndexOf(host, "www.", 0) == Some(0);
    assert host[4..] == rest;
    assert Text.ReplaceFirst(host, "www.", "") == rest;
  }

  /** The form's initial values. */
  datatype FormValues = FormValues(name: string, url: string, description: string, crawlDepth: int)

  /** `defaultValues`: the edited site's fields, with falsy ones replaced
      by `''` and a crawl depth of 0 by 1. */
  function Defaults(website: Option<Website>): (r: FormValues)
    ensures website.None? ==> r == FormValues("", "", "", 1)
    ensures website.Some? ==> r.name == website.value.name && r.url == website.value.url
    ensures website.Some? ==> r.description == website.value.description.GetOr("")
    ensures r.crawlDepth != 0
    ensures website.Some? && website.value.crawlDepth != 0 ==> r.crawlDepth == website.value.crawlDepth
  {
    match website
      case None => FormValues("", "", "", 1)
      case Some(w) =>
        FormValues(w.name, w.url, Text.OrElse(w.description, ""),
                   if w.crawlDepth != 0 then w.crawlDepth else 1)
  }
}

=== FILE: websites.dfy ===
/** The website controller: create, list, update, delete and the list of
    websites ready for chatting. Each handler runs after its route's
    validator; `isUrl` is the validator library's URL check. */
module Websites {
  import opened Wrappers
  import opened Constants
  import opened Models
  import opened Store
  import opened Http
  import Text
  import Seqs
  import Validators
  import Pagination

  /** `createWebsite`, validation included. */
  function Create(db: Db, body: Validators.WebsiteBody, isUrl: string -> bool, now: Time)
    : (r: (Reply, Db))
    ensures Validators.ValidateCreateWebsite(body, isUrl).Err? ==> r == (Reply(BadRequest, "Validation errors"), db)
    ensures Validators.ValidateCreateWebsite(body, isUrl).Ok? && FindWebsiteByUrl(db.websites, body.url.value).Some? ==>
      r == (Reply(BadRequest, "Website with this URL already exists"), db)
    ensures r.0.code == Created <==>
      && Validators.ValidateCreateWebsite(body, isUrl).Ok?
      && FindWebsiteByUrl(db.websites, body.url.value).None?
      && body.url.value != []
    ensures r.0.code != Created ==> r.1 == db
    ensures r.0.code == Created ==>
      && |r.1.websites| == |db.websites| + 1
      && var w := r.1.websites[|db.websites|];
      && r.1 == db.(websites := db.websites + [w], nextId := db.nextId + 1)
      && w.id == db.nextId && w.url == body.url.value
      && w.name == Text.Trim(body.name.value)
      && w.crawlDepth == body.crawlDepth.GetOr(1)
      && w.crawlStatus == Pending && w.isActive && w.totalPages == 0 && w.lastCrawled.None?
  {
    match Validators.ValidateCreateWebsite(body, isUrl)
    case Err(_) => (Reply(BadRequest, "Validation errors"), db)
    case Ok(b) =>
      if FindWebsiteByUrl(db.websites, b.url.value).Some? then
        (Reply(BadRequest, "Website with this URL already exists"), db)
      else
        Text.TrimOfTrimmed(b.name.value);
        match NewWebsite(db.nextId, b.name.value, b.url.value, b.description, b.crawlDepth.GetOr(1), now)
        case Err(_) => (Reply(ServerError, "Failed to create website"), db)
        case Ok(w) => (Reply(Created, "Website created successfully"),
                       db.(websites := db.websites + [w], nextId := db.nextId + 1))
  }

  /** The schema refuses an empty URL the URL check let through; the
      save then throws. */
  lemma EmptyUrlIsServerError(db: Db, body: Validators.WebsiteBody, isUrl: string -> bool, now: Time)
    requires Validators.ValidateCreateWebsite(body, isUrl).Ok? && body.url == Some([])
    requires FindWebsiteByUrl(db.websites, []).None?
    ensures Create(db, body, isUrl, now) == (Reply(ServerError, "Failed to create website"), db)
  {
  }

  /** Creating keeps the store well formed: the new website's URL is not
      yet taken and its identifier is fresh. */
  lemma CreatePreservesWf(db: Db, body: Validators.WebsiteBody, isUrl: string -> bool, now: Time)
    requires Wf(db)
    ensures Wf(Create(db, body, isUrl, now).1)
  {
    var r := Create(db, body, isUrl, now);
    if r.0.code == Created {
      var w := r.1.websites[|db.websites|];
      InsertWebsitePreservesWf(db, w);
    }
  }

  // -------------------------------------------------------------- listing

  /** One entry of the list reply: the website and its document count. */
  datatype Listed = Listed(website: Website, contentCount: nat)

  /** The list filter: `active` selects by `isActive == (active == 'true')`
      whenever it is given; `status` selects by status name whenever it is
      non-empty. */
  predicate Matches(w: Website, active: Option<string>, status: Option<string>) {
    && (active.None? || w.isActive == (active.value == "true"))
    && (status.None? || status.value == [] || StatusName(w.crawlStatus) == status.value)
  }

  function MatchesFilter(active: Option<string>, status: Option<string>): Website -> bool {
    (w: Website) => Matches(w, active, status)
  }

  /** The matching websites, newest first. */
  function Matching(db: Db, active: Option<string>, status: Option<string>): (r: seq<Website>)
    ensures r == Seqs.Filter(Seqs.Reverse(db.websites), MatchesFilter(active, status))
    ensures Seqs.IsSubsequence(r, Seqs.Reverse(db.websites))
    ensures |r| == |Seqs.Filter(db.websites, MatchesFilter(active, status))|
    ensures forall w :: w in r <==> w in db.websites && Matches(w, active, status)
  {
    Seqs.NewestFirst(db.websites, MatchesFilter(active, status));
    Seqs.Filter(Seqs.Reverse(db.websites), MatchesFilter(active, status))
  }

  /** The matching websites a page shows. */
  function Shown(db: Db, active: Option<string>, status: Option<string>, q: Pagination.Request)
    : (r: seq<Website>)
    requires Pagination.Valid(q)
    ensures r == Pagination.PageOf(Matching(db, active, status), q)
    ensures |r| <= q.limit
    ensures forall i :: 0 <= i < |r| ==> r[i] in db.websites && Matches(r[i], active, status)
  {
    var all := Matching(db, active, status);
    var r := Pagination.PageOf(all, q);
    assert forall i :: 0 <= i < |r| ==> r[i] in all by {
      if Pagination.Skip(q) <= |all| {
        forall i | 0 <= i < |r| ensures r[i] in all {
          assert r[i] == all[Pagination.Skip(q) + i];
        }
      }
    }
    r
  }

  function WithCount(db: Db, ws: seq<Website>): (r: seq<Listed>)
    ensures |r| == |ws|
    ensures forall i :: 0 <= i < |ws| ==>
      r[i] == Listed(ws[i], |DocumentsOf(db.documents, ws[i].id)|)
  {
    seq(|ws|, i requires 0 <= i < |ws| => Listed(ws[i], |DocumentsOf(db.documents, ws[i].id)|))
  }

  /** `getAllWebsites`: one page of the matching websites, newest first,
      each with its document count, and the pagination object. A page or
      limit that is not a positive integer is an error here. */
  function List(db: Db, active: Option<string>, status: Option<string>,
                page: Option<string>, limit: Option<string>)
    : (r: Result<(seq<Listed>, Pagination.Info), Reply>)
    ensures r.Err? <==> Pagination.FromQuery(page, limit, 10).None?
    ensures r.Ok? ==>
      var q := Pagination.FromQuery(page, limit, 10).value;
      var all := Matching(db, active, status);
      && |r.value.0| <= q.limit
      && |r.value.0| == |Pagination.PageOf(all, q)|
      && r.value.1 == Pagination.Paginate(q, |all|)
      && (forall i :: 0 <= i < |r.value.0| ==>
            r.value.0[i].website == Pagination.PageOf(all, q)[i]
            && r.value.0[i].contentCount == |DocumentsOf(db.documents, r.value.0[i].website.id)|
            && Matches(r.value.0[i].website, active, status)
            && r.value.0[i].website in db.websites)
  {
    match Pagination.FromQuery(page, limit, 10)
    case None => Err(Reply(ServerError, "Failed to get websites"))
    case Some(q) =>
      Ok((WithCount(db, Shown(db, active, status, q)), Pagination.Paginate(q, |Matching(db, active, status)|)))
  }

  /** With no filters every website is listed. */
  lemma NoFilterListsAll(db: Db, w: Website)
    requires w in db.websites
    ensures w in Matching(db, None, None) && w in Matching(db, None, Some([]))
  {
    var k :| 0 <= k < |db.websites| && db.websites[k] == w;
    assert Matches(db.websites[k], None, None) && Matches(db.websites[k], None, Some([]));
  }

  // -------------------------------------------------------------- update

  /** The fields `updateWebsite` writes: name, description and crawl depth
      keep their old values unless a truthy new one is given; `isActive` is
      replaced whenever it is given, even by `false`; the URL is never
      touched. */
  function Merge(w: Website, b: Validators.WebsiteBody): (r: Website)
    ensures r.id == w.id && r.url == w.url && r.crawlStatus == w.crawlStatus
    ensures r.lastCrawled == w.lastCrawled && r.totalPages == w.totalPages && r.createdAt == w.createdAt
    ensures b.isActive.Some? ==> r.isActive == b.isActive.value
    ensures b.isActive.None? ==> r.isActive == w.isActive
    ensures (b.name.None? || b.name.value == []) ==> r.name == w.name
    ensures b.name.Some? && b.name.value != [] ==> r.name == b.name.value
    ensures (b.description.None? || b.description.value == []) ==> r.description == w.description
    ensures b.description.Some? && b.description.value != [] ==> r.description == b.description
    ensures (b.crawlDepth.None? || b.crawlDepth.value == 0) ==> r.crawlDepth == w.crawlDepth
    ensures b.crawlDepth.Some? && b.crawlDepth.value != 0 ==> r.crawlDepth == b.crawlDepth.value
  {
    w.(name := Text.OrElse(b.name, w.name),
       description := if b.description.Some? && b.description.value != [] then b.description else w.description,
       isActive := if b.isActive.Some? then b.isActive.value else w.isActive,
       crawlDepth := if b.crawlDepth.Some? && b.crawlDepth.value != 0 then b.crawlDepth.value else w.crawlDepth)
  }

  /** An empty update body changes nothing, and applying the same body
      twice is applying it once. */
  lemma MergeLaws(w: Website, b: Validators.WebsiteBody)
    ensures Merge(w, Validators.WebsiteBody(None, None, None, None, None)) == w
    ensures Merge(Merge(w, b), b) == Merge(w, b)
  {
  }

  /** A description cannot be cleared: a blank one is trimmed to empty by
      the validator and then loses against the old value. */
  lemma BlankDescriptionKeepsOld(w: Website, b: Validators.WebsiteBody)
    requires b.description.Some? && Text.AllSpace(b.description.value)
    requires Validators.ValidateUpdateWebsite(b).Ok?
    ensures Merge(w, Validators.ValidateUpdateWebsite(b).value).description == w.description
  {
    Text.TrimEmptyIffAllSpace(b.description.value);
  }

  function MergeWith(b: Validators.WebsiteBody): Website -> Website {
    (w: Website) => Merge(w, b)
  }

  /** `updateWebsite`: validation first, then the lookup, then the merge. */
  function Update(db: Db, id: Option<Id>, body: Validators.WebsiteBody): (r: (Reply, Db))
    ensures Validators.ValidateUpdateWebsite(body).Err? ==> r == (Reply(BadRequest, "Validation errors"), db)
    ensures Validators.ValidateUpdateWebsite(body).Ok? && id.None? ==> r == (Reply(ServerError, "Failed to update website"), db)
    ensures Validators.ValidateUpdateWebsite(body).Ok? && id.Some? && FindWebsite(db.websites, id.value).None? ==>
      r == (Reply(NotFound, "Website not found"), db)
    ensures Succeeded(r.0) <==>
      Validators.ValidateUpdateWebsite(body).Ok? && id.Some? && FindWebsite(db.websites, id.value).Some?
    ensures Succeeded(r.0) ==>
      var b := Validators.ValidateUpdateWebsite(body).value;
      && r.1.documents == db.documents && r.1.users == db.users && r.1.chats == db.chats
      && |r.1.websites| == |db.websites|
      && forall i :: 0 <= i < |db.websites| ==>
           r.1.websites[i] == if db.websites[i].id == id.value then Merge(db.websites[i], b) else db.websites[i]
  {
    match Validators.ValidateUpdateWebsite(body)
    case Err(_) => (Reply(BadRequest, "Validation errors"), db)
    case Ok(b) =>
      match id
      case None => (Reply(ServerError, "Failed to update website"), db)
      case Some(i) =>
        if FindWebsite(db.websites, i).None? then (Reply(NotFound, "Website not found"), db)
        else (Reply(Success, "Website updated successfully"),
              db.(websites := MapWebsite(db.websites, i, MergeWith(b))))
  }

  /** Updating keeps the store well formed, since ids and URLs stay. */
  lemma UpdatePreservesWf(db: Db, id: Option<Id>, body: Validators.WebsiteBody)
    requires Wf(db)
    ensures Wf(Update(db, id, body).1)
  {
    if Validators.ValidateUpdateWebsite(body).Ok? {
      MapWebsitePreservesWf(db, id.GetOr(0), MergeWith(Validators.ValidateUpdateWebsite(body).value));
    }
  }

  // -------------------------------------------------------------- delete

  function OtherWebsite(id: Id): Website -> bool { (w: Website) => w.id != id }

  /** `deleteWebsite`: 404 for an unknown id; otherwise the website's
      documents go first, then the website itself. */
  function Delete(db: Db, id: Option<Id>): (r: (Reply, Db))
    ensures id.None? ==> r == (Reply(ServerError, "Failed to delete website"), db)
    ensures id.Some? && FindWebsite(db.websites, id.value).None? ==> r == (Reply(NotFound, "Website not found"), db)
    ensures Succeeded(r.0) <==> id.Some? && FindWebsite(db.websites, id.value).Some?
    ensures Succeeded(r.0) ==>
      && FindWebsite(r.1.websites, id.value).None?
      && DocumentsOf(r.1.documents, id.value) == []
      && (forall w :: w in r.1.websites <==> w in db.websites && w.id != id.value)
      && (forall d :: d in r.1.documents <==> d in db.documents && d.websiteId != id.value)
      && Seqs.KeptInOrder(r.1.websites, db.websites, OtherWebsite(id.value))
      && Seqs.KeptInOrder(r.1.documents, db.documents, NotOfWebsite(id.value))
      && r.1.users == db.users && r.1.chats == db.chats && r.1.nextId == db.nextId
  {
    match id
    case None => (Reply(ServerError, "Failed to delete website"), db)
    case Some(i) =>
      if FindWebsite(db.websites, i).None? then (Reply(NotFound, "Website not found"), db)
      else
        DocumentsOfAfterRemove(db.documents, i);
        var ws := Seqs.Filter(db.websites, OtherWebsite(i));
        Seqs.FilterKeptInOrder(db.websites, OtherWebsite(i));
        Seqs.FilterKeptInOrder(db.documents, NotOfWebsite(i));
        (Reply(Success, "Website and associated content deleted successfully"),
         db.(documents := RemoveDocumentsOf(db.documents, i), websites := ws))
  }

  /** Deleting keeps the store well formed. */
  lemma DeletePreservesWf(db: Db, id: Option<Id>)
    requires Wf(db)
    ensures Wf(Delete(db, id).1)
  {
    if id.Some? && FindWebsite(db.websites, id.value).Some? {
      var i := id.value;
      RemoveDocumentsPreservesWf(db, i);
      Seqs.FilterUniqueBy(db.websites, OtherWebsite(i), (w: Website) => w.id);
      FilterKeepsDistinctUrls(db.websites, OtherWebsite(i));
    }
  }

  predicate UrlsDistinct(ws: seq<Website>) {
    forall k, l :: 0 <= k < l < |ws| ==> ws[k].url != ws[l].url
  }

  lemma {:induction false} FilterKeepsDistinctUrls(ws: seq<Website>, p: Website -> bool)
    requires UrlsDistinct(ws)
    ensures UrlsDistinct(Seqs.Filter(ws, p))
    decreases |ws|
  {
    if |ws| > 0 {
      var t := ws[1..];
      FilterKeepsDistinctUrls(t, p);
      var ft := Seqs.Filter(t, p);
      forall j | 0 <= j < |ft|
        ensures ws[0].url != ft[j].url
      {
        var k :| 0 <= k < |t| && t[k] == ft[j];
        assert ws[k + 1] == ft[j];
      }
    }
  }

  // -------------------------------------------------------------- active

  predicate Chattable(w: Website) { w.isActive && w.crawlStatus == Completed }

  function NameKey(w: Website): string { w.name }

  /** `getActiveWebsites`: exactly the active, completed websites, sorted
      by name. */
  function Active(db: Db): (r: seq<Website>)
    ensures Seqs.SortedBy(r, NameKey)
    ensures multiset(r) == multiset(Seqs.Filter(db.websites, Chattable))
    ensures forall i :: 0 <= i < |r| ==> r[i] in db.websites && Chattable(r[i])
    ensures forall i :: 0 <= i < |db.websites| && Chattable(db.websites[i]) ==> db.websites[i] in r
  {
    var f := Seqs.Filter(db.websites, Chattable);
    var r := Seqs.SortBy(f, NameKey);
    Seqs.PermutationSameMembers(r, f);
    assert forall i :: 0 <= i < |r| ==> r[i] in f;
    r
  }
}

=== FILE: wrappers.dfy ===
/** Failure-compatible wrappers shared by every module of the model. */
module Wrappers {

  /** A value that may be absent: JavaScript's `undefined`/`null` versus a present value. */
  datatype Option<+T> = None | Some(value: T) {

    /** The value, or `default` when absent (the `x ?? default` idiom). */
    function GetOr(default: T): T {
      match this
      case Some(v) => v
      case None => default
    }
  }

  /** The outcome of an operation that may throw: `Ok` carries the value, `Err` the error message. */
  datatype Result<+T, +E> = Ok(value: T) | Err(error: E)
}
